=== FILE: README.md ===
# Booky library client — a Dafny model of its logic

Booky is a React client for a library's REST API. Readers browse books and
categories, fill a cart, borrow and return books, and write reviews. Admins
add and edit books, watch loans and list users. Most of the client is
layout. This project models the logic underneath it as pure functions over
immutable data:

- **The Redux slices.** These are the cart, the UI filters and the auth
  session, with storage as a string map. The store combines them (modules
  `CartSlice`, `UiSlice`, `AuthSlice`, `Store`).
- **The HTTP layer.** The request and response interceptors (`ApiClient`)
  and the route guard (`Guards`).
- **The service normalisers.** They run over an untyped JSON value (`Json`):
  books, users, admin overview and user list, loans, reviews, categories,
  uploads, the author enrichment, and `getErrorMessage`.
- **The pages' derivations and handlers.** These are the pagination window,
  the cover fallbacks, the cart and checkout pages, the loan, review, user
  and book filters, the dashboard, the login, register and profile forms,
  the review dialogs, and the add-book and edit-book forms.
- **The query cache** that those handlers touch (`QueryCache`). It is a map
  from keys (sequences of atoms) to entries, with prefix invalidation.

An event handler is modelled as a function from its inputs to the list of
effects it performs, in order (`Effects`). Its inputs include how each
request it makes settles: the server's answer or the error thrown. The
effects are dispatches, requests, invalidations, toasts and navigation.
`Effects.ApplyToStore` and `Effects.ApplyToCache` give what those effects
do to the store and to the query cache. A failed request first passes
through the response interceptor: on a 401 the handler's effects hold a
logout dispatch (`Effects.Rejected`) before its own error handling.

JavaScript's semantics are written out where the client relies on them:

- `??`, `?.` and truthiness;
- `Number()` giving `NaN`, and `String()`;
- `trim`, `toLowerCase`, `includes` and `split`;
- `Map` insertion order;
- a `TypeError` from reading a property of `undefined`. It is modelled as
  an `Err` result: the page fails to render, or the `try` reports it.

Several behaviours of the client look unintended. They are modelled as
written, each with a lemma that shows it:

- The admin routes require the role `"admin"`, but user roles are
  `"USER"` or `"ADMIN"`. So the guard turns away every admin
  (`LoginPage.AdminLoginIsTurnedAway`, `Guards.AdminRoutesTurnAwayEveryRole`).
- `fetchBooks` ignores `categoryIds`.
- Checkout clears the cart before the request and never restores it.
- The add-book page requires a page count but never sends it.
- The admin user table shows every match on every page, while its
  "Showing" line counts only one page.
- A loan status the loans page does not know is labelled "Overdue" but gets
  no colour.

## Model

| member | source | states |
|---|---|---|
| CartSlice.Add | src/features/cart/cartSlice.ts:12-16 | an existing book's line gains `qty` (default 1) with title, cover and length unchanged; a new book is appended as exactly one line at the end |
| CartSlice.Remove | src/features/cart/cartSlice.ts:17-19 | no line for the book remains, the rest keep their order, and every other line survives as many times as it occurred |
| CartSlice.Clear | src/features/cart/cartSlice.ts:20 | the cart is empty and holds no quantity |
| CartSlice.AddKeepsUnique | src/features/cart/cartSlice.ts:14-15 | `add` keeps book ids distinct |
| CartSlice.AddTotalQty | src/features/cart/cartSlice.ts:13-15 | `add` raises the total quantity by exactly the added quantity |
| Seqs.FilterMultiplicity | src/features/cart/cartSlice.ts:18 | `filter` keeps every passing element exactly as many times as it occurs |
| CartSlice.RemoveAbsent | src/features/cart/cartSlice.ts:18 | removing a book that is not in the cart is a no-op |
| CartSlice.RemoveKeepsUnique | src/features/cart/cartSlice.ts:18 | `remove` keeps book ids distinct |
| UiSlice.SetSearch | src/features/ui/uiSlice.ts:13 | only the search text changes |
| UiSlice.SetCategories | src/features/ui/uiSlice.ts:19 | only the selection changes, to exactly the id values given, strings or numbers alike |
| UiSlice.ToggleCategory | src/features/ui/uiSlice.ts:14-18 | the id's membership flips and every other id's membership is unchanged, ids compared strictly so the string "3" and the number 3 are different ids; search untouched |
| UiSlice.ToggleKeepsOthersInOrder | src/features/ui/uiSlice.ts:16-17 | the other ids keep their relative order |
| UiSlice.ToggleKeepsDistinct | src/features/ui/uiSlice.ts:16-17 | toggling never creates a duplicate |
| UiSlice.ToggleTwiceAbsent | src/features/ui/uiSlice.ts:14-18 | toggling an unselected id twice restores the state exactly |
| UiSlice.ToggleTwiceSet | src/features/ui/uiSlice.ts:14-18 | as a set, any double toggle is the identity |
| AuthSlice.InitialAuthState | src/features/auth/authSlice.ts:10-29 | unreadable storage gives a logged-out state; otherwise the stored token is kept, an absent or empty user gives null, a parsable user is restored, and an unparsable one becomes null and its key is removed |
| AuthSlice.SetAuth | src/features/auth/authSlice.ts:37-42 | the session becomes the payload, both keys are written, other keys are untouched |
| AuthSlice.Overlay | src/features/auth/authSlice.ts:45 | the spread: supplied fields override (an explicit `undefined` reads as undefined), the others are the user's |
| AuthSlice.UpdateUser | src/features/auth/authSlice.ts:43-48 | with no user nothing changes; otherwise only the user changes, to the overlay, and it is persisted |
| AuthSlice.Logout | src/features/auth/authSlice.ts:49-54 | token and user become null, both keys are removed, other keys are untouched |
| AuthSlice.SetAuthThenReload | src/features/auth/authSlice.ts:10-42 | what `setAuth` writes is what the next page load recovers |
| AuthSlice.UpdateUserThenReload | src/features/auth/authSlice.ts:10-48 | what `updateUser` persists is what the next page load recovers |
| AuthSlice.LogoutThenReload | src/features/auth/authSlice.ts:10-54 | after `logout` the next page load starts logged out |
| AuthSlice.CorruptUserKeepsToken | src/features/auth/authSlice.ts:15-24 | a corrupted stored user gives a null user, keeps the stored token and removes the "user" key |
| Store.Initial | src/store.ts:6-9 | the store starts with an empty cart and filters and the auth state recovered from storage |
| Store.Dispatch | src/store.ts:6-9 | each action reaches exactly one slice and leaves the other two unchanged |
| Store.DispatchAll | src/store.ts:6-9 | a run of actions without auth (cart) actions leaves the session (cart) unchanged |
| ApiClient.AuthorizeRequest | src/services/api.ts:13-17 | a truthy token sets `Authorization` to "Bearer " + token; otherwise the headers are untouched |
| ApiClient.OnResponseError | src/services/api.ts:19-27 | the error is rejected unchanged; a 401 logs out and touches nothing else, any other error changes nothing |
| ApiClient.UnauthorizedDropsCredentials | src/services/api.ts:13-27 | after a 401 the next request carries no credentials |
| Guards.RequireAuth | src/app/guards.tsx:7-12 | redirect to /login iff not signed in; redirect to "/" iff signed in and a required role differs exactly; render otherwise |
| Guards.AdminRoutesTurnAwayEveryRole | src/app/router.tsx:40-43 | with the router's role "admin", no user whose role is "USER" or "ADMIN" is rendered the admin pages |
| Guards.SignInCheckedFirst | src/app/guards.tsx:9-10 | without a session the guard sends to /login whatever role is required |
| PaginationBar.Pages | src/components/pagination-bar.tsx:20 | the window loop yields exactly the pages lo..hi, one entry each |
| PaginationBar.BuildPageRange | src/components/pagination-bar.tsx:11-24 | the loop-built bar equals the declarative page range |
| PaginationBar.PageRangeEnds | src/components/pagination-bar.tsx:18-22 | one page gives exactly [1]; otherwise the bar starts at 1 and ends at totalPages |
| PaginationBar.PageRangeShort | src/components/pagination-bar.tsx:13-22 | the bar has at most 7 entries |
| PaginationBar.PageRangeInBounds | src/components/pagination-bar.tsx:15-22 | for an in-range page every number shown lies in 1..totalPages |
| PaginationBar.PageRangeIncreasing | src/components/pagination-bar.tsx:15-22 | the numbers shown strictly increase |
| PaginationBar.PageRangeGaps | src/components/pagination-bar.tsx:19-21 | every "…" sits between two numbers and hides at least one page, so two "…" are never adjacent |
| PaginationBar.PageRangeHasPage | src/components/pagination-bar.tsx:15-20 | the current page is always shown |
| PaginationBar.CeilDiv | src/components/pagination-bar.tsx:29 | `Math.ceil(total / pageSize)` as the least multiple count covering total |
| PaginationBar.TotalPages | src/components/pagination-bar.tsx:29 | at least 1, covers total, and no page more than needed |
| PaginationBar.Start | src/components/pagination-bar.tsx:30 | 0 exactly for an empty list, otherwise at least 1 |
| PaginationBar.End | src/components/pagination-bar.tsx:31 | `min(total, page*pageSize)`: never past total nor past the page |
| PaginationBar.ShowingRange | src/components/pagination-bar.tsx:29-31 | for an in-range page of a non-empty list, 1 <= start <= end <= total and the window is shorter than a page |
| PaginationBar.Previous | src/components/pagination-bar.tsx:52 | Previous emits page-1 exactly when page > 1 |
| PaginationBar.Next | src/components/pagination-bar.tsx:85 | Next emits page+1 exactly when page < totalPages |
| PaginationBar.NavigationStaysInRange | src/components/pagination-bar.tsx:52-85 | from an in-range page every control leads to an in-range page |
| CoverImage.JsRem4 | src/components/cover-image.tsx:16-39 | JavaScript `%` by 4: a remainder of magnitude below 4 with the sign of the dividend, congruent to it |
| CoverImage.NormalizedIndex | src/components/cover-image.tsx:15-16 | any index, negative included, lands on a fallback slot 0..3 congruent to it modulo 4 |
| CoverImage.FallbackAt | src/components/cover-image.tsx:17-40 | an in-range slot names that fallback image |
| CoverImage.Initial | src/components/cover-image.tsx:19-22 | first render: the normalized slot, and the given source when it is a non-blank string, else that slot's fallback |
| CoverImage.OnPropsChange | src/components/cover-image.tsx:16-35 | the effect depends on the source and the normalized index (the index modulo 4): when either changes it discards the old state and starts over exactly as on first render; when neither does the state, with the fallback its load errors reached, is kept |
| CoverImage.SameNormalizedIndexKeepsState | src/components/cover-image.tsx:16-35 | moving the index by four with the same source keeps the state unchanged |
| CoverImage.NewSrcForgetsErrors | src/components/cover-image.tsx:24-35 | after a change of source the new state does not depend on the old one |
| CoverImage.ValidPreserved | src/components/cover-image.tsx:16-42 | the fallback slot always stays within 0..3 |
| CoverImage.FallbacksDistinct | src/components/cover-image.tsx:11 | the four fallback images are pairwise different |
| CoverImage.HandleError | src/components/cover-image.tsx:37-45 | a load error either shows the next fallback slot, (i+1) mod 4, as a different image, or changes nothing when that fallback is already shown; the slot stays in 0..3 |
| CoverImage.ErrorOnFallback | src/components/cover-image.tsx:37-45 | a load error while fallback i is shown moves to fallback (i+1) mod 4 |
| CoverImage.ErrorsCycle | src/components/cover-image.tsx:37-45 | four load errors in a row from a fallback come back to it |
| CoverImage.ErrorsStuck | src/components/cover-image.tsx:41 | when the image shown already is the next fallback, load errors never change the state again |
| CoverImage.StuckExample | src/components/cover-image.tsx:11-41 | a cover whose own URL is "/image2.png" at index 0 is such a state, so its broken image is never replaced |
| CartPage.AllTo | src/pages/cart/index.tsx:13-21 | every cart line gets the value, and only cart book ids get a key |
| CartPage.InitialSel | src/pages/cart/index.tsx:13 | on opening, every line is ticked |
| CartPage.Ticked | src/pages/cart/index.tsx:15-28 | the ticked lines: a subsequence of the cart holding exactly the ticked lines, each as many times as the cart holds it |
| CartPage.Count | src/pages/cart/index.tsx:15 | the number of cart positions whose book is ticked; hence never more than the lines, all lines when all are ticked, zero exactly when nothing is ticked |
| CartPage.TickedCount | src/pages/cart/index.tsx:14-15 | the filtered list is complete when all are ticked and empty exactly when none is |
| CartPage.InitiallyAllChecked | src/pages/cart/index.tsx:13-15 | a freshly opened non-empty cart is fully ticked and counts every line |
| CartPage.ToggleAll | src/pages/cart/index.tsx:19-22 | every line takes the opposite of the current select-all state |
| CartPage.ToggleAllFlips | src/pages/cart/index.tsx:14-22 | on a non-empty cart select-all flips its own box, and two clicks restore it |
| CartPage.Toggle | src/pages/cart/index.tsx:24 | exactly the clicked id's tick flips; every other id keeps its tick |
| CartPage.Proceed | src/pages/cart/index.tsx:26-29 | nothing when the count is zero; otherwise exactly the ticked ids, as many as the count, position by position the ids of the ticked lines in cart order |
| CheckoutPage.CheckoutItems | src/pages/checkout/index.tsx:17-18 | the whole cart without a selection; otherwise the subsequence of cart lines whose ids were selected, all of them and only them |
| CheckoutPage.ProceedThenCheckout | src/pages/cart/index.tsx:26-29 | the ids the cart page passes on select exactly the lines ticked there |
| CheckoutPage.CheckoutBody | src/pages/checkout/index.tsx:29 | one `{bookId, qty}` entry per line, in order |
| CheckoutPage.ReturnDay | src/pages/checkout/index.tsx:21-26 | the return day is the chosen 3, 5 or 10 days after the borrow day |
| CheckoutPage.Confirm | src/pages/checkout/index.tsx:28-39 | disabled: nothing; enabled: clear the cart, then one checkout request; success toasts, refreshes loans and goes to /me/loans; failure logs out on a 401, then toasts the server message or "Checkout failed" |
| CheckoutPage.CheckoutEmptiesCart | src/pages/checkout/index.tsx:30-38 | whatever the outcome, the whole cart is empty afterwards, unselected lines included, and the filters are unchanged; the session is unchanged unless the request failed with a 401, which logs out |
| CheckoutPage.OneRequest | src/pages/checkout/index.tsx:28-29 | exactly one request is made |
| LoansPage.CurrentTab | src/pages/users/loans.tsx:19-31 | the `tab` URL parameter when present and non-empty, else "profile" |
| LoansPage.FilteredLoans | src/pages/users/loans.tsx:34-56 | no data gives no loans; otherwise the loans of the chosen status whose title contains the search ignoring case, all of them, in order; a null loan or a non-string title the search reaches throws |
| LoansPage.FilteredLoansKeepsCopies | src/pages/users/loans.tsx:34-56 | every loan passing both tests is shown as many times as the list holds it |
| LoansPage.AllTabShowsEverything | src/pages/users/loans.tsx:37-49 | the "all" tab with an empty search shows every loan unchanged |
| LoansPage.StatusLabel | src/pages/users/loans.tsx:177-181 | "Active" exactly for BORROWED, "Returned" exactly for RETURNED, "Overdue" for anything else |
| LoansPage.TabAndLabelAgree | src/pages/users/loans.tsx:40-46 | every loan a status tab shows carries that tab's label |
| CategoriesPage.Filtered | src/pages/categories/index.tsx:25-32 | the fetched books with a rating at least the minimum and, unless nothing is selected, a category whose string id is in the selection, compared strictly: all of them, only them, in order, each as often as fetched |
| CategoriesPage.RaisingMinRatingShrinks | src/pages/categories/index.tsx:29-54 | raising the minimum rating never adds a book |
| CategoriesPage.EmptySelectionOnlyRating | src/pages/categories/index.tsx:28 | with no category ticked only the rating decides |
| CategoriesPage.Checked | src/pages/categories/index.tsx:41-43 | a box is ticked exactly when the selection holds the category's id value itself; a null category throws |
| CategoriesPage.Tick | src/pages/categories/index.tsx:43 | a change dispatches `toggleCategory` with the id exactly as fetched; a null category throws |
| CategoriesPage.TickFlipsItsBox | src/pages/categories/index.tsx:43 | ticking a box flips that box, whatever else is selected |
| CategoriesPage.StringPreselectedShowsUnticked | src/pages/categories/index.tsx:43 | a category preselected as the numeral string of its numeric id shows unticked, and ticking it adds the number beside the string |
| CategoriesPage.NumericSelectionShowsNothing | src/pages/categories/index.tsx:28 | a non-empty selection holding only numbers matches no book's string category ids, so the grid is empty |
| CategoriesPage.TickKeepsNumbers | src/pages/categories/index.tsx:43 | ticking a box with a numeric id keeps a numbers-only selection numbers-only |
| CategoriesPage.TicksHereNeverNarrow | src/pages/categories/index.tsx:28-43 | from a numbers-only selection, any ticks of numeric-id boxes leave either nothing selected or an empty grid |
| Dashboard.LoansQuery | src/pages/admin/dashboard.tsx:145-161 | no request exactly for Overview; Overdue asks the overdue endpoint; All, Active and Returned list loans with no status, BORROWED and RETURNED, 10 a page |
| Dashboard.SelectFilter | src/pages/admin/dashboard.tsx:134-143 | a different filter goes back to page 1; the same filter changes nothing |
| Dashboard.LoansOf | src/pages/admin/dashboard.tsx:181-186 | no data gives an empty list; an `overdue` key wins over a `loans` key, each defaulting to empty; a truthy non-object throws |
| Dashboard.FilteredLoans | src/pages/admin/dashboard.tsx:188-192 | an empty search keeps the list; otherwise exactly the loans whose title contains the search ignoring case, in order; a non-array list or a non-string title throws |
| Dashboard.TotalItems | src/pages/admin/dashboard.tsx:194-207 | the first numeric one of `total`, `pagination.totalItems`, `pagination.total`, `pagination.totalPages` times the page size, else the loan count; a truthy non-object throws |
| Dashboard.TotalFromPageCount | src/pages/admin/dashboard.tsx:201-203 | a page count with no page size is taken at 10 a page |
| Dashboard.FormatStatus | src/pages/admin/dashboard.tsx:215-219 | "Unknown" for a missing or empty status, else its first letter upper-cased and the rest lower-cased |
| Dashboard.FormatStatusIdempotent | src/pages/admin/dashboard.tsx:215-219 | formatting a formatted status changes nothing |
| Dashboard.FormatOverdue | src/pages/admin/dashboard.tsx:215-219 | OVERDUE is shown as "Overdue" |
| Dashboard.ReturnLoan | src/pages/admin/dashboard.tsx:163-179 | one PATCH setting status RETURNED; success toasts, refreshes the loan list and closes and clears the dialog; failure logs out on a 401, then toasts the server message or "Failed to return book" and keeps the dialog |
| Dashboard.ReturnRefreshesEveryPage | src/pages/admin/dashboard.tsx:146-172 | a successful return marks every cached page of every filter stale and keeps its data |
| UsersService.AuthInner | src/services/users.ts:13-18 | always an object: `raw.data` when that is an object, else `raw` when that is one, else `{}` |
| UsersService.UnwrapAuthResponse | src/services/users.ts:12-27 | the token is the first non-nullish of token, accessToken, jwt, or "" when that one is not a string; the user is `user ?? profile` when an object, else the empty USER record |
| UsersService.UnwrapRoundTrip | src/services/users.ts:12-27 | a string token and an object user come back exactly, whether or not the answer is wrapped in `data` |
| UsersService.TokenNoFallThrough | src/services/users.ts:20-21 | a non-string `token` hides a string `accessToken` and gives "" |
| UsersService.ProfileOf | src/services/users.ts:82-84 | `data.data.profile` exactly when both levels are objects |
| UsersService.UpdateProfile | src/services/users.ts:79-109 | changes only the five profile fields, each exactly when it has the expected type (id stringified, phone possibly null, role USER or ADMIN); none without a profile; the message or "Profile updated" |
| UsersService.UpdateProfileCopiesWellTyped | src/services/users.ts:88-104 | a well-typed profile is copied field by field, a numeric id as its numeral |
| AdminService.OverdueLoansPath | src/services/admin.ts:44-45 | the URL starts with the overdue-loans path and `?page=`, and reading it back gives the page and limit asked for, each defaulted (1 and 20) |
| AdminService.ReadBackOverduePath | src/services/admin.ts:45 | a URL built from a page numeral without `&` and a limit numeral splits back into exactly those two numerals |
| AdminService.OverduePathInjective | src/services/admin.ts:44-45 | two calls share a URL only when they ask for the same page and the same limit |
| AdminService.OverdueDefaults | src/services/admin.ts:44-45 | with both arguments omitted the URL is exactly `/admin/loans/overdue?page=1&limit=20` |
| AdminService.GetOverdueLoans | src/services/admin.ts:44-47 | the body's `data`; throws exactly on a nullish body |
| AdminService.UserRecord | src/services/admin.ts:56-62 | the record has the loan user's id, name and email, the loan's `borrowedAt` as `createdAt`, and role ADMIN exactly when that id is 1 |
| AdminService.Values | src/services/admin.ts:67 | the map's values in insertion order |
| AdminService.GetUsers | src/services/admin.ts:49-70 | succeeds exactly when `overdue` is an array of loans that all have a user; the items are the de-duplicated records and the total is their count |
| AdminService.GetUsersSpec | src/services/admin.ts:53-67 | one record per distinct user id, in first-mention order, each built from the first loan mentioning that user |
| AdminService.EntryRecordId | src/services/admin.ts:55-57 | each kept record carries the id it is keyed by |
| AdminService.MapTop | src/services/admin.ts:90-100 | one top-borrowed entry: id defaults to "", title to "", cover is coverImage ?? coverUrl ?? null, borrow count, rating, available and total copies are converted with 0 for missing, author and category are passed through; throws on null |
| AdminService.MapTops | src/services/admin.ts:90-100 | keeps length and order, entry by entry; throws exactly when an entry is null |
| AdminService.GetAdminOverview | src/services/admin.ts:72-107 | counters default to 0, topBorrowed maps entry by entry; throws exactly when the list is not an array or holds a null |
| AdminService.OverviewOfEmptyBody | src/services/admin.ts:89-105 | an empty answer gives zero counters and no entries |
| LoansPage.StatusClass | src/pages/users/loans.tsx:58-69 | a colour class exactly for BORROWED, RETURNED and OVERDUE; none for anything else |
| LoansPage.UnknownStatusUncoloured | src/pages/users/loans.tsx:58-69 | an unknown status is labelled "Overdue" yet gets no colour |
| BooksService.BuildQuery | src/services/books.ts:15-20 | only page, limit and q are sent, each exactly when truthy, with the given value |
| BooksService.QueryIgnoresCategories | src/services/books.ts:15-20 | the category filter never changes the query |
| BooksService.FiniteOr0 | src/services/books.ts:30-31 | a number is kept, anything else becomes 0 |
| BooksService.CategoriesOf | src/services/books.ts:32 | exactly one category, carrying the stringified id and name, when the book's category is truthy; none otherwise |
| BooksService.BookFields | src/services/books.ts:26-87 | title defaults to "", author id to "", author name to "Unknown", cover to null, rating and stock to 0, description absent when nullish |
| BooksService.MapBook | src/services/books.ts:25-34 | a list entry keeps its stringified id and the shared fields; throws exactly on null |
| BooksService.MapBooks | src/services/books.ts:25-34 | keeps length and order, entry by entry; throws exactly when an entry is null |
| BooksService.FetchBooks | src/services/books.ts:15-43 | the books entry by entry; total, page and limit from the pagination, falling back to the count, the requested page or 1, the requested limit or the count; a non-array list throws |
| BooksService.FetchBooksWithoutPagination | src/services/books.ts:36-41 | without pagination, the totals describe the page that came back |
| BooksService.IsbnOf | src/services/books.ts:91 | a string isbn as it is, a number isbn as its decimal numeral, anything else absent |
| BooksService.PublishedYearOf | src/services/books.ts:92-99 | a number kept, a string kept as the number it converts to and absent when that is NaN, anything else absent |
| BooksService.PublishedYearNumeral | src/services/books.ts:92-99 | a year sent as a numeral comes back as that year |
| BooksService.MapReview | src/services/books.ts:103-110 | a review keeps its stringified id and the book id, the star with 0 for missing, user id defaulting to "" and name to "User", the comment unless nullish, and its date as text, or the current time when it has none; throws exactly on null |
| BooksService.MapReviews | src/services/books.ts:102-111 | keeps length and order; throws exactly when a review is null |
| BooksService.FetchBookDetail | src/services/books.ts:75-114 | the shared fields under the body's id or the requested one, isbn, year, the total, borrow and review counters each defaulting to 0, and the reviews one by one, none when not an array |
| BooksService.EmptyDetailKeepsId | src/services/books.ts:78-111 | a book the server does not know still shows the requested id, zero counters and no reviews |
| UploadsService.UploadPayload | src/services/uploads.ts:17 | `data.data` when non-nullish, else the body, else `{}` |
| UploadsService.FindUrl | src/services/uploads.ts:18-19 | the first key, in order, holding a non-empty string; none exactly when no key does |
| UploadsService.UploadCoverImage | src/services/uploads.ts:9-26 | succeeds exactly when some URL key holds a non-empty string, returning the first such; otherwise the "missing file URL" error |
| UploadsService.UrlKeyPreferred | src/services/uploads.ts:7-19 | `url` wins over the alternatives |
| CategoriesService.FetchCategories | src/services/categories.ts:15-22 | a bare array first, then `data`, then `categories`; otherwise empty; the result is always one of those lists or empty |
| CategoriesService.TopLevelArrayWins | src/services/categories.ts:18 | a bare array is returned unchanged |
| ErrorMessages.GetErrorMessage | src/lib/errors.ts:1-7 | the string at `response.data.message` of an object, and nothing for a non-object or a non-string message |
| ErrorMessages.ServerMessageRoundTrip | src/lib/errors.ts:4-6 | an HTTP error carrying a server message yields that message unchanged |
| ErrorMessages.ClientErrorsHaveNoMessage | src/lib/errors.ts:1-7 | errors raised by the client itself have no server message |
| BookDetail.OnMutate | src/pages/books/detail.tsx:34-55 | returns the snapshot read before; without a cached detail the cache is unchanged; with one, the optimistic review goes in front and the book and every other entry are untouched |
| BookDetail.OnError | src/pages/books/detail.tsx:56-57 | the snapshot, if any, is written back; every other entry is untouched |
| BookDetail.SubmitReview | src/pages/books/detail.tsx:30-64 | one PUT to the book's own review; success refreshes the detail and toasts "Review submitted", failure rolls back, logs out on a 401 and toasts "Failed to submit review" |
| BookDetail.FailureRestoresSnapshot | src/pages/books/detail.tsx:36-57 | after a failure every entry reads exactly what it read before, cached detail or not |
| BookDetail.SuccessKeepsOptimisticUntilRefetch | src/pages/books/detail.tsx:48-61 | after a success the detail is stale and still shows the optimistic review in front of the old ones, with the book unchanged |
| BookDetail.ClickStar | src/pages/books/detail.tsx:338-342 | clicking star i sets the rating to i+1 and keeps the comment |
| BookDetail.ClickLightsPrefix | src/pages/books/detail.tsx:337-341 | clicking star i lights exactly stars 0..i |
| BookDetail.SubmitSheet | src/pages/books/detail.tsx:326-330 | the entered review is submitted and the form resets to 5 stars and an empty comment with the sheet closed, whatever the request does |
| ReviewsTab.StarCount | src/components/reviews-tab.tsx:49-50 | the filled count is the rating clamped to 0..5, 0 for a falsy rating |
| ReviewsTab.FilledStarsMatchRating | src/components/reviews-tab.tsx:50-60 | a rating within 1..5 fills exactly that many stars |
| ReviewsTab.SearchFields | src/components/reviews-tab.tsx:138-141 | the four texts searched, the title first |
| ReviewsTab.ReviewMatch | src/components/reviews-tab.tsx:136-142 | a review matches exactly when one of its four texts contains the search ignoring case; a title hit always matches; a non-string title throws |
| ReviewsTab.SearchReviews | src/components/reviews-tab.tsx:136-142 | succeeds exactly when no review throws; then exactly the matching reviews, in order |
| ReviewsTab.FilteredReviews | src/components/reviews-tab.tsx:128-146 | a blank search keeps every review; otherwise the search above over the review list |
| ReviewsTab.TitleHitIsListed | src/components/reviews-tab.tsx:138 | a review whose title contains the search is listed |
| ReviewsTab.CorrespondingLoan | src/components/reviews-tab.tsx:185-187 | the first loan still out for the review's book, none when no loan is, nothing before loans arrive; a null loan reached first throws |
| ReviewsTab.ClickReturn | src/components/reviews-tab.tsx:189-194 | opens the dialog on the loan found and does nothing without one |
| ReviewsTab.DialogOpensOnBorrowedLoan | src/components/reviews-tab.tsx:185-194 | the return dialog only ever opens on a loan that is out for the review's book |
| ReviewsTab.ReturnBook | src/components/reviews-tab.tsx:86-100 | PATCH to the loan's return path; success toasts, refreshes loans, closes and clears the dialog; failure logs out on a 401, then toasts the server message or "Failed to return book" |
| ReviewsTab.DeleteReview | src/components/reviews-tab.tsx:102-115 | success toasts, refreshes reviews, closes and clears the dialog; failure logs out on a 401, then toasts the server message or "Failed to delete review" |
| ReviewsTab.LoansIsNotReviews | src/components/reviews-tab.tsx:93-124 | the loans key and the reviews key do not cover each other's queries |
| ReviewsTab.DeleteRefreshesReviewsOnly | src/components/reviews-tab.tsx:108-124 | a deletion marks the review list stale and leaves the cached loans unchanged |
| ReviewsTab.ReturnRefreshesLoansOnly | src/components/reviews-tab.tsx:93-124 | a return marks the loans stale and leaves the cached review list unchanged |
| AdminUserList.FetchUsers | src/pages/admin/admin-user-list.tsx:14-17 | the users are what `getUsers` derives from the unwrapped overdue-loans response (`getOverdueLoans` then the de-duplication), present exactly when both steps succeed, whatever the page; a nullish response gives no data |
| AdminUserList.OneOverdueLoanListsItsUser | src/services/admin.ts:44-70 | a response whose `data` holds one overdue loan of user 5 lists exactly user 5 |
| AdminUserList.UsersOf | src/pages/admin/admin-user-list.tsx:19 | the fetched items, or none without data |
| AdminUserList.UserMatch | src/pages/admin/admin-user-list.tsx:20-24 | an empty search keeps everyone; otherwise a user is kept exactly when the name or the email contains the search ignoring case; a non-string name, or a non-string email reached after a name miss, throws |
| AdminUserList.FilteredUsers | src/pages/admin/admin-user-list.tsx:20-24 | succeeds exactly when no user throws; then exactly the matching users, in order |
| AdminUserList.EmptySearchShowsAll | src/pages/admin/admin-user-list.tsx:21 | an empty search lists every user in order |
| AdminUserList.Rows | src/pages/admin/admin-user-list.tsx:61-63 | row i shows number i+1 and the i-th filtered user |
| AdminUserList.Render | src/pages/admin/admin-user-list.tsx:19-90 | the numbered rows of the filtered users; "No users found" exactly when there are none; the pagination total is their count |
| AdminUserList.RowsIgnorePage | src/pages/admin/admin-user-list.tsx:15-61 | the rows shown are the same on every page |
| AdminUserList.ShowingUndercountsRows | src/pages/admin/admin-user-list.tsx:61-90 | with more than ten matches, page 1 says "1 to 10" while the table lists all of them |
| AdminUserList.NameHitIsListed | src/pages/admin/admin-user-list.tsx:22-63 | a user whose name contains the search is listed under its position |
| BookList.BooksRequest | src/pages/books/list.tsx:25-28 | the list asks for 12 books and no category filter |
| BookList.LoadMore | src/pages/books/list.tsx:27-84 | Load More asks the server for exactly the next page, 12 books |
| BookList.SearchSentWhenNonEmpty | src/pages/books/list.tsx:19-27 | the search reaches the server exactly when it is not empty |
| BookList.ItemsOf | src/pages/books/list.tsx:31 | the page's books, or none without data |
| BookList.AuthorPairs | src/pages/books/list.tsx:31 | one (author id, author name) pair per book, in order |
| BookList.Authors | src/pages/books/list.tsx:30-32 | at most six authors, distinct ids, in the order they first appear |
| BookList.AuthorsPrefix | src/pages/books/list.tsx:31-32 | the strip is the head of the whole author map: all of it, or its first six |
| BookList.FirstBookAuthorLeads | src/pages/books/list.tsx:31-32 | the first book's author leads the strip |
| BookList.FewBooksListEveryAuthor | src/pages/books/list.tsx:31-32 | a page of at most six books lists every one of their authors |
| BookList.ListedAuthorHasLastName | src/pages/books/list.tsx:31 | a listed author shows the name from the last book by that author on the page |
| BookList.Initials | src/pages/books/list.tsx:94 | at most two characters |
| BookList.InitialsFromSpaces | src/pages/books/list.tsx:94 | the initials are the name's first character unless it is a space, then the character after the first space unless that is a space or the end |
| BookList.IconFor | src/pages/books/list.tsx:109-119 | the table's icon for a listed name, else the open book |
| BookList.Cards | src/pages/books/list.tsx:120-129 | the fetched categories when there are any, else the six placeholders; never empty |
| BookList.CardIcon | src/pages/books/list.tsx:109-154 | a card's icon is the table's entry for its name, the open book for a missing name; a null card throws |
| BookList.FallbackIcons | src/pages/books/list.tsx:110-154 | the placeholder "Self-Improvement" misses the "Self Improvement" entry and shows the default icon; the other placeholders show their own |
| BookList.ClickCategory | src/pages/books/list.tsx:58-158 | a click selects exactly that category id, as a string, then goes to the category page; a null card throws |
| BookList.ClickSelectsOnlyThatCategory | src/pages/books/list.tsx:58 | after a click on a non-null card the filter holds only that category; search, session and cart are unchanged |
| ProfilePage.MakePayload | src/pages/users/profile.tsx:17 | the name as typed; the phone exactly when it is not blank, unchanged |
| ProfilePage.PayloadPatch | src/pages/users/profile.tsx:17-19 | the payload as a patch of name and phone, an omitted phone written as undefined |
| ProfilePage.ChangesPatch | src/services/users.ts:86-104 | the server changes as a patch, key for key |
| ProfilePage.UpdatesFor | src/pages/users/profile.tsx:19 | the server's changes when there are any, else the payload |
| ProfilePage.Submit | src/pages/users/profile.tsx:15-25 | one PATCH /me with the payload; success merges the chosen patch into the user and toasts the message; failure logs out on a 401, then toasts "Failed to update" |
| ProfilePage.SubmitMergesUpdates | src/pages/users/profile.tsx:19-20 | a success merges the chosen patch into the signed-in user and keeps the token |
| ProfilePage.FailureOnlyInterceptorActs | src/pages/users/profile.tsx:22-24 | a failure leaves the store unchanged unless it is a 401, which logs out and leaves the cart and filters alone |
| ProfilePage.BlankPhoneClearsPhone | src/pages/users/profile.tsx:17-19 | a blank phone is not sent, and when the server echoes nothing usable the stored phone is cleared |
| LoansService.CheckoutRequest | src/services/loans.ts:26-29 | the payload is posted to /loans/checkout unchanged |
| LoansService.BorrowBody | src/services/loans.ts:31-35 | a string book id is converted with `Number`, any other id is sent as is; the days are unchanged |
| LoansService.BorrowNumericString | src/services/loans.ts:32 | a numeric string id reaches the server as the number it spells |
| LoansService.MyLoans | src/services/loans.ts:37-67 | no loans when `data.loans` is falsy; a truthy non-array throws; otherwise every loan enriched with its book's author |
| LoansService.MyLoansShape | src/services/loans.ts:42-64 | enrichment keeps the number and order of loans and changes only `book.author` |
| ReviewsService.SubmitReviewBody | src/services/reviews.ts:20-27 | the book id, the rating sent as `star`, the comment; no `rating` key |
| ReviewsService.UserReviewsPath | src/services/reviews.ts:29-30 | omitted arguments default to page 1 and limit 20 |
| ReviewsService.GetUserReviews | src/services/reviews.ts:29-67 | a body without truthy `data.reviews` comes back unchanged; otherwise the same envelope, every other field kept, with each review's book author filled in; a truthy non-array throws |
| AuthorEnrichment.AuthorFor | src/services/loans.ts:45-61 | the fetched book's author when truthy, else the Unknown Author record; the Unknown Author when the fetch fails |
| AuthorEnrichment.EnrichOne | src/services/loans.ts:47-61 | every field but `book` kept, every book field but `author` kept, the author filled in; throws exactly on null |
| AuthorEnrichment.EnrichAll | src/services/loans.ts:42-64 | fails exactly when some item is null; otherwise one enriched item per item, in order |
| RegisterPage.RegisterErrors | src/pages/auth/register.tsx:16-27 | name shorter than 2, a rejected email, password shorter than 6 are reported on their fields; confirmPassword is reported when shorter than 6 or different from the password; the phone never |
| RegisterPage.AcceptedPasswordsMatch | src/pages/auth/register.tsx:18-27 | an accepted form has matching passwords of at least 6 characters and a name of at least 2 |
| RegisterPage.RegisterBody | src/pages/auth/register.tsx:39 | name, email and password sent, confirmPassword never, the phone exactly when given |
| RegisterPage.Submit | src/pages/auth/register.tsx:37-46 | nothing while a field is rejected; otherwise one POST /auth/register; success stores the session, toasts "Account created!" and goes home; failure logs out on a 401, then toasts the server message or "Register failed" |
| RegisterPage.RegisterSignsIn | src/pages/auth/register.tsx:39-40 | a successful registration signs in with the unwrapped token and user |
| RegisterPage.RegisterFailureOnlyInterceptorActs | src/pages/auth/register.tsx:43-45 | a failed registration leaves the store unchanged unless it is a 401, which logs out and leaves the cart and filters alone |
| LoginPage.LoginErrors | src/pages/auth/login.tsx:16-19 | the email is reported exactly when rejected and the password exactly when shorter than 6; nothing else |
| LoginPage.HomeFor | src/pages/auth/login.tsx:37-38 | "/admin" exactly for role ADMIN, "/" otherwise |
| LoginPage.Submit | src/pages/auth/login.tsx:32-42 | nothing while a field is rejected; otherwise one POST /auth/login; success stores the session, toasts "Welcome back!" and goes to the role's home; failure logs out on a 401, then toasts the server message or "Login failed" |
| LoginPage.LoginStoresSession | src/pages/auth/login.tsx:34-38 | a success stores the unwrapped session before navigating |
| LoginPage.LoginFailureOnlyInterceptorActs | src/pages/auth/login.tsx:39-41 | a failed login leaves the store unchanged unless it is a 401, which logs out and leaves the cart and filters alone |
| LoginPage.AdminLoginIsTurnedAway | src/pages/auth/login.tsx:37 | an administrator is sent to "/admin", and the guard there sends them on to "/" |
| ReviewModal.ClickStar | src/components/review-modal.tsx:46-50 | clicking a star keeps the rating within 0..5 and lights exactly the stars up to it; open state and comment unchanged |
| ReviewModal.SubmitsIffEnabled | src/components/review-modal.tsx:68-77 | on a valid state the handler's `rating > 0` guard posts exactly when the button is enabled |
| ReviewModal.SendRequest | src/components/review-modal.tsx:70-74 | one POST /reviews carrying the loan's book id, the rating as `star`, and the comment |
| ReviewModal.Send | src/components/review-modal.tsx:19-33 | nothing while disabled; otherwise the request, then on success a reset dialog and refreshed loans and reviews, on failure only the logout on a 401 |
| ReviewModal.Step | src/components/review-modal.tsx:36-76 | every event keeps the rating within 0..5; a successful send resets the dialog |
| ReviewModal.RunKeepsValid | src/components/review-modal.tsx:16-49 | whatever the user does, the rating stays within 0..5 |
| ReviewModal.SendsWhatWasEntered | src/components/review-modal.tsx:49-74 | typing a comment, choosing a star and pressing Send posts exactly that star and comment |
| ReviewModal.SuccessDisablesNextSend | src/components/review-modal.tsx:23-25 | after a success the reopened dialog has no star and an empty comment, so Send is disabled |
| ReviewModal.SuccessRefreshesLoansAndReviews | src/components/review-modal.tsx:27-28 | a success marks every cached loans and reviews query stale |
| EditBook.FieldNumber | src/pages/admin/edit-book.tsx:251-255 | `Number` of a blank field is 0, of a number the number itself |
| EditBook.FirstCategoryId | src/pages/admin/edit-book.tsx:141 | the first category's id, or "" for a book without categories |
| EditBook.Populate | src/pages/admin/edit-book.tsx:131-148 | title, ISBN, description, year (blank when absent or 0), author id, first category, copies (1 when falsy) and cover copied from the detail; the errors kept |
| EditBook.TypePages | src/pages/admin/edit-book.tsx:374-379 | typing into "Number of Pages" sets the published year and nothing else |
| EditBook.Validate | src/pages/admin/edit-book.tsx:150-162 | a message exactly for each missing field; throws exactly when the description is not a string |
| EditBook.ValidateIffComplete | src/pages/admin/edit-book.tsx:150-162 | validation passes exactly on a complete form |
| EditBook.UncategorisedBookFailsValidation | src/pages/admin/edit-book.tsx:141-157 | a form filled from a book without a category never validates |
| EditBook.Payload | src/pages/admin/edit-book.tsx:247-257 | the texts trimmed, year falling back to 2024 and copies to 1 when falsy, the cover as held, the ids through `Number`, available copies equal to total |
| EditBook.CompletePayloadKeepsNumbers | src/pages/admin/edit-book.tsx:155-256 | on a complete form the typed year and copies are sent, no fallback |
| EditBook.SpaceAuthorIdSentAsZero | src/pages/admin/edit-book.tsx:156-253 | an author id of only spaces passes validation and is sent as author 0 |
| EditBook.ForceBody | src/pages/admin/edit-book.tsx:94 | the retry body is the payload with `forceUpdate: true` and every other field unchanged |
| EditBook.Settled | src/pages/admin/edit-book.tsx:100-108 | success toasts, refreshes the detail and the admin list and goes to /admin; failure logs out on a 401, then toasts the server message or "Failed to update book" |
| EditBook.UpdateBook | src/pages/admin/edit-book.tsx:82-99 | one PUT; only an ISBN conflict (409 with a message mentioning ISBN) is retried, once, with `forceUpdate`; every other outcome settles at once, a 401 logging out first |
| EditBook.AtMostOneRetry | src/pages/admin/edit-book.tsx:84-98 | two requests exactly when the first fails with an ISBN conflict, otherwise one |
| EditBook.UnauthorizedUpdateLogsOut | src/pages/admin/edit-book.tsx:82-108 | an update rejected with a 401 is not retried and leaves the user logged out, cart and filters untouched |
| EditBook.OtherConflictNotRetried | src/pages/admin/edit-book.tsx:88-97 | any other error is reported after one request, with the logout first on a 401 |
| EditBook.Save | src/pages/admin/edit-book.tsx:244-260 | nothing while pending; throws exactly when validation throws; shows the errors found and sends the payload exactly when there are none |
| EditBook.CompleteFormIsSent | src/pages/admin/edit-book.tsx:244-259 | a complete form clears the shown errors and sends its payload |
| EditBook.UpdateRefetchesDetail | src/pages/admin/edit-book.tsx:100-102 | a successful update, first try or retry, marks the book's cached detail stale |
| EditBook.SavedBookDetailRefetches | src/pages/admin/edit-book.tsx:100-259 | saving a complete form the server accepts refreshes the book's detail page |
| EditBook.HandleFileChange | src/pages/admin/edit-book.tsx:196-227 | clearing the selection clears the cover; a wrong type or a file over 5 MB is refused with its toast; a compressed image becomes the cover and clears its error; a compression failure toasts |
| EditBook.UpperCaseTypeAccepted | src/pages/admin/edit-book.tsx:204 | the type test ignores case |
| EditBook.RemoveImage | src/pages/admin/edit-book.tsx:229-232 | no preview and an empty cover; nothing else changes |
| EditBook.RemovedImageFailsValidation | src/pages/admin/edit-book.tsx:150-232 | after removing the image, saving reports the missing cover |
| EditBook.CreateAuthor | src/pages/admin/edit-book.tsx:111-240 | a blank name is refused; otherwise one POST /authors with name and bio; success fills the author and closes and clears the dialog; an answer without `data` toasts success and then the failure; an error logs out on a 401, then toasts its message |
| EditBook.CreatedAuthorIsSent | src/pages/admin/edit-book.tsx:118-253 | a created author with a numeric id fills the author field and is sent as that number |
| AddBook.Validate | src/pages/admin/add-book.tsx:44-56 | a message exactly for each missing field: blank title, description or ISBN, falsy year, pages or copies, empty author or category; most share "Text is required" |
| AddBook.ValidateIffComplete | src/pages/admin/add-book.tsx:44-56 | validation passes exactly when every required field is filled |
| AddBook.EmptyFormReportsAllButCopies | src/pages/admin/add-book.tsx:16-23 | saving the untouched form reports every field except the copies, which start at 1 |
| AddBook.CoverNotValidated | src/pages/admin/add-book.tsx:44-56 | the cover plays no part in validation |
| AddBook.Payload | src/pages/admin/add-book.tsx:124-134 | texts as typed, numbers through `Number`, the preview or an empty cover, available copies equal to total copies |
| AddBook.PagesNotSent | src/pages/admin/add-book.tsx:124-134 | the page count never reaches the payload, yet a falsy one fails validation |
| AddBook.CompletePayloadKeepsNumbers | src/pages/admin/add-book.tsx:128-133 | a complete form sends its year and copies as the non-zero numbers typed |
| AddBook.SaveErrorText | src/pages/admin/add-book.tsx:139-148 | a message containing "401" reads as unauthorized, else "403" as forbidden, else the message, else a fixed text |
| AddBook.StatusIsNotClassified | src/pages/admin/add-book.tsx:140-146 | a 401 response without a message gets the generic text |
| AddBook.Save | src/pages/admin/add-book.tsx:120-149 | errors are always shown; only a complete form posts /books; success toasts and navigates to /admin; failure logs out on a 401, then toasts the classified error |
| AddBook.CreateLeavesCacheAlone | src/pages/admin/add-book.tsx:136-138 | creating a book leaves every cached query as it was |
| AddBook.HandleFileChange | src/pages/admin/add-book.tsx:77-92 | a cleared selection drops the preview; a file over 5 MB toasts and changes nothing; otherwise the compressed image becomes the preview |
| AddBook.GifAcceptedOnlyHere | src/pages/admin/add-book.tsx:58-92 | a small GIF becomes the cover here while the edit page refuses it with a toast; a file that never decodes as an image leaves the form unchanged |
| AddBook.RemoveImage | src/pages/admin/add-book.tsx:318-321 | the preview is dropped, so the cover is sent empty; nothing else changes |
| AddBook.ValidateAuthor | src/pages/admin/add-book.tsx:94-100 | a message exactly for a blank name and exactly for a blank bio |
| AddBook.CreateNewAuthor | src/pages/admin/add-book.tsx:104-118 | an invalid dialog only shows errors; otherwise one POST /authors with name and bio; success fills the author id, closes and clears the dialog; a missing author toasts the failure; an error logs out on a 401, then toasts it |
| AddBook.BlankBioBlocksCreation | src/pages/admin/add-book.tsx:97 | a blank bio sends nothing and is reported |
| AddBook.CreatedAuthorIsSent | src/pages/admin/add-book.tsx:109-130 | a created author's numeric id fills the author field and is sent as that number |
| QueryCache.SetQueryData | src/pages/books/detail.tsx:49-57 | the written key reads the new value, fresh; the key set grows by that key; no other entry changes |
| QueryCache.Invalidate | src/pages/checkout/index.tsx:33 | keys and data are kept; exactly the keys already stale or starting with the prefix are stale afterwards |
| QueryCache.InvalidateKeepsData | src/pages/checkout/index.tsx:33 | invalidation never changes what any key reads |
| QueryCache.InvalidateIdempotent | src/components/review-modal.tsx:27-28 | invalidating twice is invalidating once |
| QueryCache.InvalidateCommutes | src/components/review-modal.tsx:27-28 | two invalidations commute |
| QueryCache.RefetchAfterInvalidate | src/pages/books/detail.tsx:61 | a refetch completing after an invalidation makes its data visible and fresh |
| QueryCache.RestoreSnapshot | src/pages/books/detail.tsx:36-57 | restoring the snapshot undoes the optimistic write |
| Effects.Actions | src/store.ts:1-12 | the dispatches among a handler's effects, each listed, nothing else |
| Effects.ActionsAppend | src/store.ts:1-12 | the actions of two effect lists run in turn are the actions of each, concatenated |
| Effects.ActionsNone | src/store.ts:1-12 | a list without dispatches has no actions |
| Effects.ApplyOneDispatch | src/store.ts:1-12 | a handler whose only dispatch is one action leaves the store as that dispatch does |
| Effects.ApplyNoDispatch | src/store.ts:1-12 | a handler without dispatches leaves the store alone |
| Effects.Rejected | src/services/api.ts:19-27 | the interceptor's part of a failure: one logout dispatch exactly when the error is a 401, else nothing |
| Effects.ApplyRejected | src/services/api.ts:19-27 | a handler whose only dispatch is the interceptor's leaves the store as the interceptor does |
| Effects.ApplyFirstDispatch | src/store.ts:1-12 | a leading dispatch is applied before the rest of the handler's effects |
| Effects.ApplyToCache | src/components/review-modal.tsx:27-28 | keys and data are kept; what was stale stays stale; every key under an invalidated prefix becomes stale and no other |
| Effects.ApplyNoInvalidate | src/pages/admin/add-book.tsx:136-138 | effects without invalidations leave the cache as it was |
| JsMap.Get | src/services/admin.ts:55 | a value is found exactly for a present key |
| JsMap.Set | src/services/admin.ts:56-64 | keys stay distinct; a present key has its value replaced in place, a new key is appended |
| JsMap.GetSet | src/services/admin.ts:55-56 | after a set, the key reads the new value and every other key its old one |
| JsMap.FromPairs | src/pages/books/list.tsx:31 | `new Map(pairs)` has distinct keys |
| JsMap.FromPairsHas | src/pages/books/list.tsx:31 | the map holds exactly the keys among the pairs |
| JsMap.FromPairsOrder | src/pages/books/list.tsx:31 | keys appear in the order of their first occurrence |
| JsMap.FromPairsLastValue | src/pages/books/list.tsx:31 | a repeated key takes its last value |
| JsMap.FromPairsKeepFirst | src/services/admin.ts:53-66 | inserting only new keys gives distinct keys |
| JsMap.KeepFirstHas | src/services/admin.ts:53-66 | the map holds exactly the keys among the pairs |
| JsMap.KeepFirstOrder | src/services/admin.ts:53-66 | keys appear in the order of their first occurrence |
| JsMap.KeepFirstValue | src/services/admin.ts:55-64 | a repeated key keeps its first value |
| Json.NumberOr | src/services/admin.ts:93-96 | `Number(v ?? d)`: a missing value reads as the default, any other as `Number(v)` |
| Json.NumToJson | src/pages/admin/add-book.tsx:128-133 | an integer is written as itself, `NaN` as `null` |
| Json.NumberOfNumeral | src/pages/admin/add-book.tsx:109-130 | `Number` of an integer's numeral gives back the integer |
| Json.NumberOrDefault | src/pages/admin/edit-book.tsx:251-256 | `Number(v) \|\| d`: a non-zero number is kept, zero or `NaN` reads as the default |
| Text.Trim | src/pages/admin/add-book.tsx:46-48 | the result is the slice of the input between a blank prefix and a blank suffix, has no white space at either end, and is empty exactly for a blank string |
| Text.TrimNoSpaceEnds | src/pages/admin/edit-book.tsx:248-250 | a string without white space at its ends is its own trim |
| Text.ToLower | src/pages/admin/admin-user-list.tsx:22-23 | same length, no upper-case letter left, each character the lower case of the original |
| Text.Split | src/pages/books/list.tsx:94 | at least one piece, none holding the separator, joining back to the input |
| Text.ParseIntToString | src/pages/admin/add-book.tsx:109 | reading back an integer's numeral gives the integer |

## Left out

- JSX layout, styling and the display-only components (the navigation bar, footer, product and review cards, theme toggle, success page, book preview, admin book list, profile tab) are not part of this model.
- Numbers are integers: fractional ratings, `Infinity`, floating-point scaling and `toFixed` are not modelled. `Number()` of a string reads an optionally signed decimal integer, and anything else gives `NaN`.
- Strings are sequences of Unicode scalar values, not of UTF-16 code units. Lengths (zod's `.min(6)` on passwords), indexing (`p[0]` in the author initials) and `charAt(0)` in the status label agree with JavaScript only for text inside the Basic Multilingual Plane. A password of three emoji is six code units, which zod accepts and the model rejects.
- Case mapping (`toLowerCase`, `toUpperCase`) covers ASCII letters only. There is no Unicode case folding or normalisation.
- `compressImage` (canvas, `Image`, `FileReader`) is left out. The compressed data URL is an input to the file handlers. On the add-book page, an image that fails to load never settles, which is modelled as no change.
- Dates (`dayjs`, `toLocaleDateString`, `toISOString`) are left out. The checkout's return day is a day count added to a borrow day passed in.
- TanStack Query internals are left out: fetching, de-duplication, stale-while-revalidate, cancellation and retries. `staleTime` (30000 ms) and mutation `retry` (0) are recorded as constants only. A refetch is modelled as `QueryCache.SetQueryData`.
- Concurrency is left out. The `Promise.all` author enrichment of loans and reviews is a sequential map whose per-item fetch outcomes are inputs.
- SetAuth (AuthSlice.SetAuth): the `localStorage.setItem` calls (src/features/auth/authSlice.ts:40-41) are assumed to succeed. A storage that throws (quota exceeded, storage disabled) would abort the reducer, keep the old state and send the login and register handlers into their `catch`. LoginPage.LoginStoresSession and RegisterPage.RegisterSignsIn rely on this assumption.
- UpdateUser (AuthSlice.UpdateUser): the `localStorage.setItem` call (src/features/auth/authSlice.ts:46) is assumed to succeed. A throwing storage would keep the old user and make the profile form's update fail.
- Logout (AuthSlice.Logout): the `localStorage.removeItem` calls (src/features/auth/authSlice.ts:52-53) are assumed to succeed. A throwing storage would leave the session signed in.
- CoverImage.OnPropsChange: a `null` and an absent `src` are both `None`. A change from one to the other counts as a dependency change in React and reruns the effect. The model treats it as no change and keeps the state. The effect's third dependency, `fallbackForIndex`, is a function of the normalized index and is not modelled separately.
- Network, axios, `localStorage` I/O, toasts and navigation become inputs (the outcome of each request, the storage map) or recorded effects. Storage is a string map that may be unavailable. `JSON.parse` and `JSON.stringify` are a codec passed in.
- The review modal's `console.log` and `console.error` calls (src/components/review-modal.tsx:22, 31 and 69) are dropped. They have no effect the model could observe.
- The response interceptor's logout on a 401 is modelled for every handler whose failure is a list of effects: a `Rejected` dispatch comes between the request and the error toast. The GET queries and the per-item author fetches also pass through the interceptor. Their store effect on a 401 is not modelled, because those members return the fetched value and not effects.
- Json.SpreadFields: spreading a string or an array copies its indexed elements in JavaScript. The model gives no fields for them, and only spreads of objects are modelled.
- zod's `.email()` check is a predicate parameter (`isEmail`) with no definition.
- BookList.IconFor: the icon lookup treats object-prototype keys such as `constructor` as absent. In JavaScript such a key would find an inherited member.
- How query parameters are encoded into a URL is left out. A request is its verb, its path and its body, and query parameters are a map from names to values.
- `getMyLoans` (imported by the dashboard) and `deleteReview` (imported by the reviews tab) are not defined in any source file of this model. Their requests are described only by path.
- Pass-through service calls that only return the server's answer are not modelled as separate members: `getMyProfile` and `adminUsers` (src/services/users.ts), `createCategory` (src/services/categories.ts), `fetchBook` and `fetchBooksByAuthor` (src/services/books.ts), `getReviews` (src/services/reviews.ts), `adminLoans` (src/services/loans.ts).
- Loading and pending indicators are left out, except for the buttons a pending request disables in the model: the checkout's Confirm, the edit form's Save and the review modal's Send. The book-detail review sheet's Send button is also disabled while its request is pending (src/pages/books/detail.tsx:349). `BookDetail.SubmitReview` does not model that flag, so a second press while pending is not excluded.
- The categories page's `useEffect` is not modelled: when nothing is selected and the categories have loaded, it dispatches `setCategories([])`, which replaces an empty selection with an empty one. Neither is the add-book page's `file` state, which is written but never read.
- The route table and store wiring are left out, except for the role string the admin routes pass to the guard.

=== FILE: add_book.dfy ===
/** The admin "Add Book" page (src/pages/admin/add-book.tsx): validation,
    the create payload and request with its error classification, the
    cover file selection, and the "Create New Author" dialog. */
module AddBook {
  import opened Wrappers
  import opened Json
  import Text
  import QueryCache
  import ErrorMessages
  import EditBook
  import Store
  import opened Effects

  type NumField = EditBook.NumField

  /** The keys of the form's error record. */
  datatype Field = Title | Description | Isbn | PublishedYear | Pages | AuthorId | CategoryId | TotalCopies

  /** The form's state; `preview` is the compressed cover, if any. */
  datatype AddForm = AddForm(
    title: string, description: string, isbn: string, publishedYear: NumField, pages: NumField,
    authorId: string, categoryId: string, totalCopies: NumField, preview: Option<string>,
    errors: map<Field, string>)

  /** The empty form: one copy, everything else blank. */
  const INITIAL: AddForm := AddForm(
    "", "", "", EditBook.Blank, EditBook.Blank, "", "", EditBook.Number(Int(1)), None, map[])

  // ----- validation -----

  /** `field` is missing, as `validate` tests it: the texts empty once
      trimmed (only white space), the numbers falsy, the ids empty. */
  predicate Missing(f: AddForm, field: Field) {
    match field
    case Title => Text.IsBlank(f.title)
    case Description => Text.IsBlank(f.description)
    case Isbn => Text.IsBlank(f.isbn)
    case PublishedYear => !EditBook.FieldTruthy(f.publishedYear)
    case Pages => !EditBook.FieldTruthy(f.pages)
    case AuthorId => f.authorId == ""
    case CategoryId => f.categoryId == ""
    case TotalCopies => !EditBook.FieldTruthy(f.totalCopies)
  }

  /** The message under a missing field: most fields share "Text is
      required". */
  function Message(field: Field): string {
    match field
    case Isbn => "ISBN is required"
    case PublishedYear => "Published year is required"
    case TotalCopies => "Total copies is required"
    case _ => "Text is required"
  }

  const FIELDS: set<Field> := {Title, Description, Isbn, PublishedYear, Pages, AuthorId, CategoryId, TotalCopies}

  /** Every field of the form is one of the eight listed. */
  lemma FieldListed(field: Field)
    ensures field in FIELDS
  {
  }

  /** `validate()`: the message for every missing field. */
  function Validate(f: AddForm): (r: map<Field, string>)
    ensures forall field :: field in r <==> Missing(f, field)
    ensures forall field :: field in r ==> r[field] == Message(field)
  {
    assert forall field: Field :: field in FIELDS by {
      forall field: Field ensures field in FIELDS { FieldListed(field); }
    }
    map field | field in FIELDS && Missing(f, field) :: Message(field)
  }

  /** Every required field is filled; the cover is not among them. */
  predicate Complete(f: AddForm) {
    !Text.IsBlank(f.title) && !Text.IsBlank(f.description) && !Text.IsBlank(f.isbn) &&
    EditBook.FieldTruthy(f.publishedYear) && EditBook.FieldTruthy(f.pages) &&
    f.authorId != "" && f.categoryId != "" && EditBook.FieldTruthy(f.totalCopies)
  }

  /** Validation passes exactly on a complete form. */
  lemma ValidateIffComplete(f: AddForm)
    ensures Validate(f) == map[] <==> Complete(f)
  {
    if Complete(f) {
      assert forall field :: !Missing(f, field);
    } else {
      var field :=
        if Text.IsBlank(f.title) then Title
        else if Text.IsBlank(f.description) then Description
        else if Text.IsBlank(f.isbn) then Isbn
        else if !EditBook.FieldTruthy(f.publishedYear) then PublishedYear
        else if !EditBook.FieldTruthy(f.pages) then Pages
        else if f.authorId == "" then AuthorId
        else if f.categoryId == "" then CategoryId
        else TotalCopies;
      assert Missing(f, field);
      assert field in Validate(f);
    }
  }

  /** Saving the untouched form reports every field but the copies, which
      start at 1. */
  lemma EmptyFormReportsAllButCopies()
    ensures Validate(INITIAL).Keys == FIELDS - {TotalCopies}
  {
    var v := Validate(INITIAL);
    forall field
      ensures field in v <==> field in FIELDS - {TotalCopies}
    {
      FieldListed(field);
      InitialMissing(field);
    }
    assert v.Keys == FIELDS - {TotalCopies};
  }

  lemma InitialMissing(field: Field)
    ensures Missing(INITIAL, field) <==> field != TotalCopies
  {
    match field
    case Title =>
    case Description =>
    case Isbn =>
    case PublishedYear =>
    case Pages =>
    case AuthorId =>
    case CategoryId =>
    case TotalCopies => assert EditBook.FieldTruthy(INITIAL.totalCopies);
  }

  /** The cover plays no part in validation: a book may be created without
      one. */
  lemma CoverNotValidated(f: AddForm, p: Option<string>)
    ensures Validate(f.(preview := p)) == Validate(f)
  {
  }

  // ----- the create request -----

  /** The body `save` sends, field by field. */
  datatype NewBook = NewBook(
    title: string, description: string, isbn: string, publishedYear: Num, coverImage: string,
    authorId: Num, categoryId: Num, totalCopies: Num, availableCopies: Num)

  /** The body as the JSON object sent; `NaN` is written as `null`. */
  function NewBookJson(b: NewBook): Json {
    JObj(map[
      "title" := JStr(b.title),
      "description" := JStr(b.description),
      "isbn" := JStr(b.isbn),
      "publishedYear" := NumToJson(b.publishedYear),
      "coverImage" := JStr(b.coverImage),
      "authorId" := NumToJson(b.authorId),
      "categoryId" := NumToJson(b.categoryId),
      "totalCopies" := NumToJson(b.totalCopies),
      "availableCopies" := NumToJson(b.availableCopies)])
  }

  /** The payload: the texts as typed (not trimmed), the numbers through
      `Number`, the preview or `""` as cover, the available copies equal to
      the total; the page count is not sent. */
  function Payload(f: AddForm): (r: NewBook)
    ensures r.title == f.title && r.description == f.description && r.isbn == f.isbn
    ensures r.publishedYear == EditBook.FieldNumber(f.publishedYear)
    ensures f.preview.Some? ==> r.coverImage == f.preview.value
    ensures f.preview.None? ==> r.coverImage == ""
    ensures r.authorId == StringToNumber(f.authorId) && r.categoryId == StringToNumber(f.categoryId)
    ensures r.totalCopies == EditBook.FieldNumber(f.totalCopies) && r.availableCopies == r.totalCopies
  {
    var copies := EditBook.FieldNumber(f.totalCopies);
    NewBook(
      f.title, f.description, f.isbn, EditBook.FieldNumber(f.publishedYear),
      if f.preview.Some? && f.preview.value != "" then f.preview.value else "",
      StringToNumber(f.authorId), StringToNumber(f.categoryId), copies, copies)
  }

  /** The page count is required but never reaches the server. */
  lemma PagesNotSent(f: AddForm, pages: NumField)
    ensures Payload(f.(pages := pages)) == Payload(f)
    ensures !EditBook.FieldTruthy(pages) ==> Pages in Validate(f.(pages := pages))
  {
    var g := f.(pages := pages);
    assert Missing(g, Pages) <==> !EditBook.FieldTruthy(pages);
  }

  /** A complete form sends its numbers as typed: no fallback applies. */
  lemma CompletePayloadKeepsNumbers(f: AddForm)
    requires Complete(f)
    ensures Payload(f).publishedYear == Int(f.publishedYear.n.v) && f.publishedYear.n.v != 0
    ensures Payload(f).totalCopies == Int(f.totalCopies.n.v) && f.totalCopies.n.v != 0
  {
  }

  /** The error toast of a failed create: a message mentioning "401" is
      reported as unauthorized, else one mentioning "403" as forbidden,
      else the message itself, or a fixed text when there is none. */
  function SaveErrorText(e: Json): (r: string)
    ensures var m := ErrorMessages.GetErrorMessage(Some(e));
      (m.Some? && Text.Contains(m.value, "401") ==> r == "Unauthorized - Please login again") &&
      (m.Some? && !Text.Contains(m.value, "401") && Text.Contains(m.value, "403") ==>
         r == "Forbidden - You don't have permission") &&
      (m.Some? && !Text.Contains(m.value, "401") && !Text.Contains(m.value, "403") ==> r == m.value) &&
      (m.None? ==> r == "Failed to create book")
  {
    var m := ErrorMessages.GetErrorMessage(Some(e));
    if m.Some? && Text.Contains(m.value, "401") then "Unauthorized - Please login again"
    else if m.Some? && Text.Contains(m.value, "403") then "Forbidden - You don't have permission"
    else m.GetOr("Failed to create book")
  }

  /** Only the message text is classified: a 401 response without a
      message gets the generic text, not the unauthorized one. */
  lemma StatusIsNotClassified()
    ensures SaveErrorText(Obj([("response", Obj([("status", JNum(401))]))])) == "Failed to create book"
  {
    var resp := Obj([("status", JNum(401))]);
    var e := Obj([("response", resp)]);
    assert [("status", JNum(401))][..0] == [];
    assert |"status"| == 6 && |"data"| == 4;
    assert Prop(Some(resp), "data") == None;
    assert [("response", resp)][..0] == [];
    assert Prop(Some(e), "response") == Some(resp);
  }

  /** Pressing Save with the request settling as `outcome`: the errors
      found are shown, and only a valid form is posted. A created book
      toasts and leaves for the admin page; a failure passes the response
      interceptor (a 401 logs out) and toasts its error. */
  function Save(f: AddForm, outcome: Result<Value, Json>): (r: (seq<Effect>, AddForm))
    ensures r.1 == f.(errors := Validate(f))
    ensures !Complete(f) ==> r.0 == []
    ensures Complete(f) && outcome.Ok? ==>
      r.0 == [Request("POST", "/books", Some(NewBookJson(Payload(f)))),
              ToastSuccess("Book created successfully"), Navigate("/admin")]
    ensures Complete(f) && outcome.Err? ==>
      r.0 == [Request("POST", "/books", Some(NewBookJson(Payload(f))))] + Rejected(outcome.error) + [ToastError(SaveErrorText(outcome.error))]
    ensures forall i :: 0 <= i < |r.0| ==> !r.0[i].Invalidate?
  {
    var errs := Validate(f);
    ValidateIffComplete(f);
    var g := f.(errors := errs);
    if |errs| != 0 then ([], g)
    else
      var post := Request("POST", "/books", Some(NewBookJson(Payload(f))));
      match outcome
      case Ok(_) => ([post, ToastSuccess("Book created successfully"), Navigate("/admin")], g)
      case Err(e) =>
        var es := [post] + Rejected(e) + [ToastError(SaveErrorText(e))];
        NoInvalidateAround(es, [post], e, [ToastError(SaveErrorText(e))]);
        (es, g)
  }

  /** Creating a book refreshes no cached query: the admin book list keeps
      showing its old rows until something else refetches it. */
  lemma CreateLeavesCacheAlone<V>(cache: QueryCache.Cache<V>, f: AddForm, outcome: Result<Value, Json>)
    ensures ApplyToCache(cache, Save(f, outcome).0) == cache
  {
    ApplyNoInvalidate(cache, Save(f, outcome).0);
  }

  // ----- the cover image -----

  /** `handleFileChange`: `size` is the selected file's size (`None` when
      the selection is cleared) and `compressed` the data URL compressing
      it yields (`None` while it never settles: the image's load failure
      is not handled). Only the size is checked. */
  function HandleFileChange(f: AddForm, size: Option<int>, compressed: Option<string>): (r: (seq<Effect>, AddForm))
    ensures size.None? ==> r == ([], f.(preview := None))
    ensures size.Some? && size.value > EditBook.MAX_FILE_SIZE ==> r == ([ToastError("File size must be less than 5MB")], f)
    ensures size.Some? && size.value <= EditBook.MAX_FILE_SIZE ==>
      r.0 == [] && (compressed.Some? ==> r.1 == f.(preview := compressed)) && (compressed.None? ==> r.1 == f)
  {
    match size
    case None => ([], f.(preview := None))
    case Some(n) =>
      if n > EditBook.MAX_FILE_SIZE then ([ToastError("File size must be less than 5MB")], f)
      else match compressed
        case None => ([], f)
        case Some(url) => ([], f.(preview := Some(url)))
  }

  /** Unlike the edit page, this page checks no file type: a small GIF,
      which the browser decodes but the edit page refuses, becomes the
      cover here. A file that does not decode as an image never settles,
      so the form stays as it was. */
  lemma GifAcceptedOnlyHere(f: AddForm, e: EditBook.EditForm, url: string, n: int)
    requires n <= EditBook.MAX_FILE_SIZE
    ensures HandleFileChange(f, Some(100), Some(url)).1.preview == Some(url)
    ensures EditBook.HandleFileChange(e, Some(EditBook.FileInfo("image/gif", 100)), Ok(url)).0 ==
      [ToastError("Please select a JPG/PNG/WebP image.")]
    ensures HandleFileChange(f, Some(n), None) == ([], f)
  {
    var low := Text.ToLower("image/gif");
    assert |low| == 9;
    assert low != "image/jpeg" && low != "image/webp";
    assert low[6] == Text.LowerChar('g') == 'g';
    assert low != "image/png";
    assert !EditBook.AcceptedType("image/gif");
  }

  /** "Delete Image": no preview, so the book is created with an empty
      cover. */
  function RemoveImage(f: AddForm): (r: AddForm)
    ensures Payload(r).coverImage == ""
    ensures r.(preview := f.preview) == f
  {
    f.(preview := None)
  }

  // ----- the "Create New Author" dialog -----

  datatype AuthorField = Name | Bio

  /** The dialog's state and its error record. */
  datatype AuthorDialog = AuthorDialog(open: bool, name: string, bio: string, errors: map<AuthorField, string>)

  /** `validateAuthor()`: both the name and the bio are required, once
      trimmed. */
  function ValidateAuthor(d: AuthorDialog): (r: map<AuthorField, string>)
    ensures Name in r <==> Text.IsBlank(d.name)
    ensures Bio in r <==> Text.IsBlank(d.bio)
    ensures Name in r ==> r[Name] == "Author name is required"
    ensures Bio in r ==> r[Bio] == "Author bio is required"
  {
    var nameError := if Text.Trim(d.name) == "" then map[Name := "Author name is required"] else map[];
    var bioError := if Text.Trim(d.bio) == "" then map[Bio := "Author bio is required"] else map[];
    assert Name !in bioError && Bio !in nameError;
    nameError + bioError
  }

  /** `createNewAuthor`: an invalid dialog shows its errors and sends
      nothing. Otherwise `POST /authors` is sent with the name and bio as
      typed and the author is read from `data.data`; a missing author
      throws inside the `try`, so it is reported like a failed request. */
  function CreateNewAuthor(f: AddForm, d: AuthorDialog, outcome: Result<Value, Json>): (r: (seq<Effect>, AddForm, AuthorDialog))
    ensures ValidateAuthor(d) != map[] ==> r == ([], f, d.(errors := ValidateAuthor(d)))
    ensures ValidateAuthor(d) == map[] ==>
      |r.0| >= 2 && r.0[0] == Request("POST", "/authors", Some(Obj([("name", JStr(d.name)), ("bio", JStr(d.bio))])))
    ensures ValidateAuthor(d) == map[] && outcome.Ok? ==> |r.0| == 2
    ensures ValidateAuthor(d) == map[] && outcome.Ok? && !IsNullish(Prop(outcome.value, "data")) ==>
      var a := Prop(outcome.value, "data");
      r.0[1] == ToastSuccess("Author \"" + ToStr(Prop(a, "name")) + "\" created successfully") &&
      r.1 == f.(authorId := ToStr(Prop(a, "id"))) && r.2 == AuthorDialog(false, "", "", map[])
    ensures ValidateAuthor(d) == map[] && outcome.Ok? && IsNullish(Prop(outcome.value, "data")) ==>
      r.0[1] == ToastError("Failed to create author") && r.1 == f && r.2 == d.(errors := map[])
    ensures ValidateAuthor(d) == map[] && outcome.Err? ==>
      r.0[1..] == Rejected(outcome.error) + [ToastError(ErrorMessages.GetErrorMessage(Some(outcome.error)).GetOr("Failed to create author"))] &&
      r.1 == f && r.2 == d.(errors := map[])
  {
    var errs := ValidateAuthor(d);
    if errs != map[] then ([], f, d.(errors := errs))
    else
      var post := Request("POST", "/authors", Some(Obj([("name", JStr(d.name)), ("bio", JStr(d.bio))])));
      var d1 := d.(errors := errs);
      match outcome
      case Err(e) =>
        var fail := Rejected(e) + [ToastError(ErrorMessages.GetErrorMessage(Some(e)).GetOr("Failed to create author"))];
        assert ([post] + fail)[1..] == fail;
        ([post] + fail, f, d1)
      case Ok(body) =>
        var a := Prop(body, "data");
        if IsNullish(a) then
          ErrorMessages.ClientErrorsHaveNoMessage("");
          ([post, ToastError(ErrorMessages.GetErrorMessage(Some(TypeError)).GetOr("Failed to create author"))], f, d1)
        else
          ([post, ToastSuccess("Author \"" + ToStr(Prop(a, "name")) + "\" created successfully")],
           f.(authorId := ToStr(Prop(a, "id"))), AuthorDialog(false, "", "", map[]))
  }

  /** A blank bio blocks creation here, although the edit page's dialog
      sends one. */
  lemma BlankBioBlocksCreation(f: AddForm, d: AuthorDialog, outcome: Result<Value, Json>)
    requires Text.IsBlank(d.bio)
    ensures CreateNewAuthor(f, d, outcome).0 == []
    ensures Bio in CreateNewAuthor(f, d, outcome).2.errors
  {
  }

  /** A created author with a numeric id fills the author field, which
      then passes validation and is sent as that number. */
  lemma CreatedAuthorIsSent(f: AddForm, d: AuthorDialog, n: int, name: Json)
    requires ValidateAuthor(d) == map[]
    ensures var g := CreateNewAuthor(f, d, Ok(EditBook.CreatedBody(n, name))).1;
      !Missing(g, AuthorId) && Payload(g).authorId == Int(n)
  {
    CreatedAuthorId(f, d, n, name);
    NumeralIdSent(f, n);
  }

  lemma NumeralIdSent(f: AddForm, n: int)
    ensures var g := f.(authorId := Text.IntToString(n));
      !Missing(g, AuthorId) && Payload(g).authorId == Int(n)
  {
    var s := Text.IntToString(n);
    var g := f.(authorId := s);
    assert StringToNumber(s) == Int(n) by {
      NumberOfNumeral(n);
    }
    assert Payload(g).authorId == StringToNumber(s);
    assert s != "" by {
      assert |s| > 0;
    }
    MissingAuthor(g);
  }

  lemma CreatedAuthorId(f: AddForm, d: AuthorDialog, n: int, name: Json)
    requires ValidateAuthor(d) == map[]
    ensures CreateNewAuthor(f, d, Ok(EditBook.CreatedBody(n, name))).1 == f.(authorId := Text.IntToString(n))
  {
    EditBook.CreatedBodyFields(n, name);
    var a := Prop(EditBook.CreatedBody(n, name), "data");
    assert Prop(a, "id") == Some(JNum(n));
    NumeralId(n);
  }

  lemma NumeralId(n: int)
    ensures ToStr(Some(JNum(n))) == Text.IntToString(n)
  {
  }

  lemma MissingAuthor(f: AddForm)
    ensures Missing(f, AuthorId) <==> f.authorId == ""
  {
  }
}

=== FILE: admin_service.dfy ===
/** The admin calls of src/services/admin.ts: overdue loans, the user list
    the client derives from them, and the dashboard overview with its
    defaults. */
module AdminService {
  import opened Wrappers
  import opened Json
  import Text
  import JsMap
  import Seqs

  const DEFAULT_OVERDUE_PAGE := 1
  const DEFAULT_OVERDUE_LIMIT := 20

  const OVERDUE_PATH_PREFIX: string := "/admin/loans/overdue?page="

  /** The URL `getOverdueLoans(page, limit)` requests; an omitted argument
      takes its default. Both numbers can be read back from it. */
  function OverdueLoansPath(page: Option<int>, limit: Option<int>): (r: string)
    ensures |OVERDUE_PATH_PREFIX| < |r| && r[..|OVERDUE_PATH_PREFIX|] == OVERDUE_PATH_PREFIX
    ensures ReadOverduePath(r) == Some((page.GetOr(DEFAULT_OVERDUE_PAGE), limit.GetOr(DEFAULT_OVERDUE_LIMIT)))
  {
    var a := Text.IntToString(page.GetOr(DEFAULT_OVERDUE_PAGE));
    var b := Text.IntToString(limit.GetOr(DEFAULT_OVERDUE_LIMIT));
    ReadBackOverduePath(a, b);
    Text.ParseIntToString(page.GetOr(DEFAULT_OVERDUE_PAGE));
    Text.ParseIntToString(limit.GetOr(DEFAULT_OVERDUE_LIMIT));
    OVERDUE_PATH_PREFIX + a + "&limit=" + b
  }

  /** The page and limit an overdue-loans URL asks for: the numeral between
      the prefix and the first `&`, and the numeral after `&limit=`. */
  function ReadOverduePath(path: string): Option<(int, int)> {
    var n := |OVERDUE_PATH_PREFIX|;
    if |path| < n || path[..n] != OVERDUE_PATH_PREFIX then None
    else
      var rest := path[n..];
      match Seqs.FindIndex(rest, (c: char) => c == '&')
      case None => None
      case Some(k) =>
        var tail := rest[k..];
        if |tail| < 7 || tail[..7] != "&limit=" then None
        else
          match (Text.ParseInteger(rest[..k]), Text.ParseInteger(tail[7..]))
          case (Some(p), Some(l)) => Some((p, l))
          case _ => None
  }

  /** Reading splits the URL back at the `&` that follows the page. */
  lemma ReadBackOverduePath(a: string, b: string)
    requires forall i :: 0 <= i < |a| ==> a[i] != '&'
    ensures var path := OVERDUE_PATH_PREFIX + a + "&limit=" + b;
      ReadOverduePath(path) ==
        match (Text.ParseInteger(a), Text.ParseInteger(b))
        case (Some(p), Some(l)) => Some((p, l))
        case _ => None
  {
    var n := |OVERDUE_PATH_PREFIX|;
    var path := OVERDUE_PATH_PREFIX + a + "&limit=" + b;
    assert path[..n] == OVERDUE_PATH_PREFIX;
    var rest := path[n..];
    assert rest == a + "&limit=" + b;
    assert rest[|a|] == '&';
    var k := Seqs.FindIndex(rest, (c: char) => c == '&');
    assert k == Some(|a|) by {
      assert forall j :: 0 <= j < |a| ==> rest[j] == a[j];
    }
    assert rest[..|a|] == a;
    var tail := rest[|a|..];
    assert tail == "&limit=" + b;
    assert tail[..7] == "&limit=";
    assert tail[7..] == b;
  }

  /** With both arguments omitted the URL asks for page 1, twenty loans. */
  lemma OverdueDefaults()
    ensures OverdueLoansPath(None, None) == "/admin/loans/overdue?page=1&limit=20"
    ensures ReadOverduePath(OverdueLoansPath(None, None)) == Some((1, 20))
  {
    assert Text.IntToString(1) == "1";
    assert Text.NatToString(20) == Text.NatToString(2) + [Text.DigitChar(0)];
    assert Text.IntToString(20) == "20";
    var u := OverdueLoansPath(None, None);
    assert u == OVERDUE_PATH_PREFIX + "1" + "&limit=" + "20";
    DefaultPathSpelled();
  }

  lemma DefaultPathSpelled()
    ensures OVERDUE_PATH_PREFIX + "1" + "&limit=" + "20" == "/admin/loans/overdue?page=1&limit=20"
  {
  }

  /** Different pages or limits never share a URL. */
  lemma OverduePathInjective(p1: Option<int>, l1: Option<int>, p2: Option<int>, l2: Option<int>)
    requires OverdueLoansPath(p1, l1) == OverdueLoansPath(p2, l2)
    ensures p1.GetOr(DEFAULT_OVERDUE_PAGE) == p2.GetOr(DEFAULT_OVERDUE_PAGE)
    ensures l1.GetOr(DEFAULT_OVERDUE_LIMIT) == l2.GetOr(DEFAULT_OVERDUE_LIMIT)
  {
  }

  /** `getOverdueLoans` given the response body: its `data` field; reading
      it off a `null` body throws. */
  function GetOverdueLoans(body: Value): (r: Result<Value, Json>)
    ensures r.Err? <==> IsNullish(body)
    ensures r.Err? ==> r.error == TypeError
    ensures r.Ok? ==> r.value == Prop(body, "data")
  {
    if IsNullish(body) then Err(TypeError) else Ok(Prop(body, "data"))
  }

  /** The id a loan is de-duplicated by: `loan.user.id`. */
  function UserKey(loan: Json): Value {
    Prop(Prop(Some(loan), "user"), "id")
  }

  /** A field that reads as `undefined` is not written. */
  function WithField(fields: map<string, Json>, key: string, v: Value): map<string, Json> {
    if v.Some? then fields[key := v.value] else fields
  }

  /** The user record built from the loan that first mentions the user. */
  function UserRecord(loan: Json): (r: Json)
    ensures r.JObj?
    ensures Prop(Some(r), "id") == UserKey(loan)
    ensures Prop(Some(r), "role") == Some(JStr(if UserKey(loan) == Some(JNum(1)) then "ADMIN" else "USER"))
    ensures Prop(Some(r), "name") == Prop(Prop(Some(loan), "user"), "name")
    ensures Prop(Some(r), "email") == Prop(Prop(Some(loan), "user"), "email")
    ensures Prop(Some(r), "createdAt") == Prop(Some(loan), "borrowedAt")
  {
    var user := Prop(Some(loan), "user");
    var f0 := map["role" := JStr(if UserKey(loan) == Some(JNum(1)) then "ADMIN" else "USER")];
    var f1 := WithField(f0, "name", Prop(user, "name"));
    var f2 := WithField(f1, "email", Prop(user, "email"));
    var f3 := WithField(f2, "createdAt", Prop(Some(loan), "borrowedAt"));
    JObj(WithField(f3, "id", UserKey(loan)))
  }

  datatype AdminUsers = AdminUsers(items: seq<Json>, total: int)

  function KeyedRecords(loans: seq<Json>): seq<(Value, Json)> {
    Seqs.Map(loans, (l: Json) => (UserKey(l), UserRecord(l)))
  }

  /** The de-duplicated users, keyed by id, first occurrence first. */
  function UserEntries(loans: seq<Json>): JsMap.Entries<Value, Json> {
    JsMap.FromPairsKeepFirst(KeyedRecords(loans))
  }

  /** `data?.overdue || []`. */
  function OverdueOf(data: Value): Value {
    Or(Prop(data, "overdue"), Some(JArr([])))
  }

  /** Every loan has a user whose `id` can be read. */
  predicate AllHaveUsers(loans: seq<Json>) {
    forall i :: 0 <= i < |loans| ==> !IsNullish(Prop(Some(loans[i]), "user"))
  }

  /** `Array.from(m.values())`. */
  function Values(entries: JsMap.Entries<Value, Json>): (r: seq<Json>)
    ensures |r| == |entries| && forall i :: 0 <= i < |entries| ==> r[i] == entries[i].1
  {
    seq(|entries|, i requires 0 <= i < |entries| => entries[i].1)
  }

  /** `getUsers`, given what `getOverdueLoans(1, 20)` returned. `forEach`
      on a truthy non-array, and `loan.user.id` where the loan has no user,
      throw. */
  function GetUsers(data: Value): (r: Result<AdminUsers, Json>)
    ensures r.Ok? <==> (IsArray(OverdueOf(data)) && AllHaveUsers(OverdueOf(data).value.items))
    ensures r.Err? ==> r.error == TypeError
    ensures r.Ok? ==> r.value.total == |r.value.items|
    ensures r.Ok? ==> r.value.items == Values(UserEntries(OverdueOf(data).value.items))
  {
    var loans := OverdueOf(data);
    if !IsArray(loans) || !AllHaveUsers(loans.value.items) then Err(TypeError)
    else
      var items := Values(UserEntries(loans.value.items));
      Ok(AdminUsers(items, |items|))
  }

  /** What `getUsers` promises about a successful result: one record per
      distinct user id, first-mention order, and each record built from the
      first loan that mentions its user. */
  lemma GetUsersSpec(loans: seq<Json>, i: int)
    requires GetUsers(Some(JObj(map["overdue" := JArr(loans)]))).Ok?
    requires 0 <= i < |loans|
    ensures var users := GetUsers(Some(JObj(map["overdue" := JArr(loans)]))).value.items;
      (forall a, b :: 0 <= a < b < |users| ==> Prop(Some(users[a]), "id") != Prop(Some(users[b]), "id")) &&
      (forall a, b :: 0 <= a < b < |users| ==>
         FirstMention(loans, Prop(Some(users[a]), "id")) < FirstMention(loans, Prop(Some(users[b]), "id"))) &&
      (FirstMention(loans, UserKey(loans[i])) == i ==> exists j :: 0 <= j < |users| && users[j] == UserRecord(loans[i]))
  {
    var pairs := KeyedRecords(loans);
    var entries := UserEntries(loans);
    var data := Some(JObj(map["overdue" := JArr(loans)]));
    assert OverdueOf(data).value.items == loans;
    var users := GetUsers(data).value.items;
    assert |users| == |entries|;
    forall a | 0 <= a < |entries|
      ensures Prop(Some(users[a]), "id") == entries[a].0
    {
      EntryRecordId(loans, a);
    }
    JsMap.KeepFirstOrder(pairs);
    forall a | 0 <= a < |entries|
      ensures FirstMention(loans, entries[a].0) == JsMap.FirstIdx(pairs, entries[a].0)
    {
      FirstMentionIdx(loans, entries[a].0);
    }
    if FirstMention(loans, UserKey(loans[i])) == i {
      FirstMentionIdx(loans, UserKey(loans[i]));
      assert pairs[i] == (UserKey(loans[i]), UserRecord(loans[i]));
      JsMap.KeepFirstValue(pairs, i);
      var j := JsMap.FirstIdx(entries, UserKey(loans[i]));
      assert users[j] == UserRecord(loans[i]);
    }
  }

  /** The position of the first loan whose user has id `k`. */
  function FirstMention(loans: seq<Json>, k: Value): int {
    JsMap.FirstIdx(KeyedRecords(loans), k)
  }

  lemma FirstMentionIdx(loans: seq<Json>, k: Value)
    ensures FirstMention(loans, k) == JsMap.FirstIdx(KeyedRecords(loans), k)
  {
  }

  /** Each kept record carries the id it is keyed by. */
  lemma {:induction false} EntryRecordId(loans: seq<Json>, a: int)
    requires 0 <= a < |UserEntries(loans)|
    ensures Prop(Some(UserEntries(loans)[a].1), "id") == UserEntries(loans)[a].0
  {
    KeepFirstRecords(KeyedRecords(loans), a);
  }

  /** Every pair the first-wins map keeps comes from the input, so a record
      keeps the key it was built with. */
  lemma {:induction false} KeepFirstRecords(pairs: seq<(Value, Json)>, a: int)
    requires forall i :: 0 <= i < |pairs| ==> Prop(Some(pairs[i].1), "id") == pairs[i].0
    requires 0 <= a < |JsMap.FromPairsKeepFirst(pairs)|
    ensures Prop(Some(JsMap.FromPairsKeepFirst(pairs)[a].1), "id") == JsMap.FromPairsKeepFirst(pairs)[a].0
    decreases |pairs|
  {
    var q := pairs[..|pairs| - 1];
    var x := pairs[|pairs| - 1];
    var prev := JsMap.FromPairsKeepFirst(q);
    if a < |prev| {
      KeepFirstRecords(q, a);
    }
  }

  /** One entry of the overview's `topBorrowed` list. */
  datatype TopBorrowed = TopBorrowed(
    id: Json, title: string, borrowCount: Num, rating: Num,
    availableCopies: Num, totalCopies: Num, author: Value, category: Value, coverUrl: Json)

  datatype Overview = Overview(
    users: Num, books: Num, active: Num, overdue: Num,
    topBorrowed: seq<TopBorrowed>, generatedAt: Value)

  /** One `topBorrowed` entry; reading `b.id` on `null` throws. */
  function MapTop(b: Json): (r: Result<TopBorrowed, Json>)
    ensures r.Err? <==> b.JNull?
    ensures r.Ok? ==> r.value.id == Coalesce(Prop(Some(b), "id"), Some(JStr(""))).value
    ensures r.Ok? ==> r.value.coverUrl == Coalesce(Coalesce(Prop(Some(b), "coverImage"), Prop(Some(b), "coverUrl")), Some(JNull)).value
    ensures r.Ok? ==> r.value.title == ToStr(Coalesce(Prop(Some(b), "title"), Some(JStr(""))))
    ensures r.Ok? ==> r.value.borrowCount == NumberOr(Prop(Some(b), "borrowCount"), 0)
    ensures r.Ok? ==> r.value.rating == NumberOr(Prop(Some(b), "rating"), 0)
    ensures r.Ok? ==> r.value.availableCopies == NumberOr(Prop(Some(b), "availableCopies"), 0)
    ensures r.Ok? ==> r.value.totalCopies == NumberOr(Prop(Some(b), "totalCopies"), 0)
    ensures r.Ok? ==> r.value.author == Prop(Some(b), "author") && r.value.category == Prop(Some(b), "category")
  {
    if b.JNull? then Err(TypeError)
    else
      var p := Some(b);
      Ok(TopBorrowed(
        Coalesce(Prop(p, "id"), Some(JStr(""))).value,
        ToStr(Coalesce(Prop(p, "title"), Some(JStr("")))),
        NumberOr(Prop(p, "borrowCount"), 0),
        NumberOr(Prop(p, "rating"), 0),
        NumberOr(Prop(p, "availableCopies"), 0),
        NumberOr(Prop(p, "totalCopies"), 0),
        Prop(p, "author"),
        Prop(p, "category"),
        Coalesce(Coalesce(Prop(p, "coverImage"), Prop(p, "coverUrl")), Some(JNull)).value))
  }

  function MapTops(bs: seq<Json>): (r: Result<seq<TopBorrowed>, Json>)
    ensures r.Ok? <==> forall i :: 0 <= i < |bs| ==> !bs[i].JNull?
    ensures r.Ok? ==> |r.value| == |bs| && forall i :: 0 <= i < |bs| ==> MapTop(bs[i]) == Ok(r.value[i])
    ensures r.Err? ==> r.error == TypeError
  {
    if |bs| == 0 then Ok([])
    else match MapTop(bs[0])
      case Err(e) => Err(e)
      case Ok(t) =>
        match MapTops(bs[1..])
        case Err(e) => Err(e)
        case Ok(rest) =>
          Seqs.OkCons(bs, MapTop, t, rest);
          Ok([t] + rest)
  }

  /** `getAdminOverview` given the response body. `topBorrowed.map` throws
      when the list is not an array or holds a `null`. */
  function GetAdminOverview(body: Value): (r: Result<Overview, Json>)
    ensures var d := Coalesce(Prop(body, "data"), Some(JObj(map[])));
      var top := Coalesce(Prop(d, "topBorrowed"), Some(JArr([])));
      (r.Ok? <==> IsArray(top) && forall i :: 0 <= i < |top.value.items| ==> !top.value.items[i].JNull?) &&
      (r.Ok? ==>
        r.value.users == NumberOr(Prop(Prop(d, "totals"), "users"), 0) &&
        r.value.books == NumberOr(Prop(Prop(d, "totals"), "books"), 0) &&
        r.value.active == NumberOr(Prop(Prop(d, "loans"), "active"), 0) &&
        r.value.overdue == NumberOr(Prop(Prop(d, "loans"), "overdue"), 0) &&
        r.value.generatedAt == Prop(d, "generatedAt") &&
        |r.value.topBorrowed| == |top.value.items| &&
        forall i :: 0 <= i < |top.value.items| ==> MapTop(top.value.items[i]) == Ok(r.value.topBorrowed[i]))
    ensures r.Err? ==> r.error == TypeError
  {
    var d := Coalesce(Prop(body, "data"), Some(JObj(map[])));
    var top := Coalesce(Prop(d, "topBorrowed"), Some(JArr([])));
    if !IsArray(top) then Err(TypeError)
    else match MapTops(top.value.items)
      case Err(e) => Err(e)
      case Ok(tops) =>
        Ok(Overview(
          NumberOr(Prop(Prop(d, "totals"), "users"), 0), NumberOr(Prop(Prop(d, "totals"), "books"), 0),
          NumberOr(Prop(Prop(d, "loans"), "active"), 0), NumberOr(Prop(Prop(d, "loans"), "overdue"), 0),
          tops, Prop(d, "generatedAt")))
  }

  /** An empty answer gives zero counters and no entries. */
  lemma OverviewOfEmptyBody()
    ensures GetAdminOverview(Some(JObj(map[]))) == Ok(Overview(Int(0), Int(0), Int(0), Int(0), [], None))
  {
  }
}

=== FILE: admin_user_list.dfy ===
/** The admin user table (src/pages/admin/admin-user-list.tsx): the users
    derived by `getUsers`, the name/email search, the numbered rows and the
    pagination bar under them. */
module AdminUserList {
  import opened Wrappers
  import opened Json
  import Seqs
  import Text
  import QueryCache
  import AdminService
  import PaginationBar

  const PAGE_SIZE: int := 10

  /** `['admin-users', page]`: the page is part of the key. */
  function UsersKey(page: int): (r: QueryCache.Key)
    ensures |r| == 2 && r[0] == QueryCache.Str("admin-users") && r[1] == QueryCache.Num(page)
  {
    [QueryCache.Str("admin-users"), QueryCache.Num(page)]
  }

  /** The query for `page` once the raw overdue-loans response `body` is
      in: `getUsers()` first awaits `getOverdueLoans()`, which unwraps the
      response's `data`, and derives the users from that; the page is not
      passed, so every page fetches the same thing. `None` stands for no
      data (loading, or either step threw). */
  function FetchUsers(page: int, body: Value): (r: Option<AdminService.AdminUsers>)
    ensures r.Some? <==>
      AdminService.GetOverdueLoans(body).Ok? && AdminService.GetUsers(AdminService.GetOverdueLoans(body).value).Ok?
    ensures r.Some? ==> r.value == AdminService.GetUsers(AdminService.GetOverdueLoans(body).value).value
    ensures IsNullish(body) ==> r.None?
  {
    match AdminService.GetOverdueLoans(body)
    case Err(_) => None
    case Ok(d) =>
      match AdminService.GetUsers(d)
      case Ok(u) => Some(u)
      case Err(_) => None
  }

  /** The loans are read from under the response's `data`: a response
      holding one overdue loan of user 5 lists user 5. */
  lemma OneOverdueLoanListsItsUser()
    ensures var loan := JObj(map["user" := JObj(map["id" := JNum(5)])]);
      var body := Some(JObj(map["data" := JObj(map["overdue" := JArr([loan])])]));
      var r := FetchUsers(1, body);
      r.Some? && |r.value.items| == 1 && Prop(Some(r.value.items[0]), "id") == Some(JNum(5))
  {
    var loan := JObj(map["user" := JObj(map["id" := JNum(5)])]);
    var body := Some(JObj(map["data" := JObj(map["overdue" := JArr([loan])])]));
    var d := Prop(body, "data");
    assert AdminService.GetOverdueLoans(body) == Ok(d);
    assert AdminService.OverdueOf(d) == Some(JArr([loan]));
    assert AdminService.AllHaveUsers([loan]);
  }

  /** `data?.items || []`. */
  function UsersOf(data: Option<AdminService.AdminUsers>): (r: seq<Json>)
    ensures data.None? ==> r == []
    ensures data.Some? ==> r == data.value.items
  {
    match data
    case None => []
    case Some(d) => d.items
  }

  /** The user's `name` and `email`, in the order the search reads them. */
  function NameOf(user: Json): Value { Prop(Some(user), "name") }
  function EmailOf(user: Json): Value { Prop(Some(user), "email") }

  /** The search test on one user, as `||` evaluates it: an empty search
      keeps everyone without reading anything; otherwise lower-casing a
      name that is not a string throws, a name hit keeps the user without
      reading the email, and lower-casing an email that is not a string
      throws. */
  function UserMatch(user: Json, search: string): (res: Result<bool, Json>)
    ensures search == "" ==> res == Ok(true)
    ensures res.Err? ==> res.error == TypeError && search != ""
    ensures search != "" && !IsString(NameOf(user)) ==> res.Err?
    ensures search != "" && IsString(NameOf(user)) && Text.ContainsIgnoreCase(NameOf(user).value.s, search) ==>
      res == Ok(true)
    ensures res.Ok? && search != "" ==>
      (res.value <==>
        (IsString(NameOf(user)) && Text.ContainsIgnoreCase(NameOf(user).value.s, search)) ||
        (IsString(EmailOf(user)) && Text.ContainsIgnoreCase(EmailOf(user).value.s, search)))
  {
    if search == "" then Ok(true)
    else if !IsString(NameOf(user)) then Err(TypeError)
    else if Text.ContainsIgnoreCase(NameOf(user).value.s, search) then Ok(true)
    else if !IsString(EmailOf(user)) then Err(TypeError)
    else Ok(Text.ContainsIgnoreCase(EmailOf(user).value.s, search))
  }

  /** The search keeps the user. */
  predicate Matches(user: Json, search: string) {
    UserMatch(user, search) == Ok(true)
  }

  /** The search test throws on the user. */
  predicate Throws(user: Json, search: string) {
    UserMatch(user, search).Err?
  }

  /** `filteredUsers`: `Err` when the test throws on some user (the page
      fails to render), else the kept users in their original order. */
  function FilteredUsers(users: seq<Json>, search: string): (r: Result<seq<Json>, Json>)
    ensures r.Err? ==> r.error == TypeError
    ensures r.Ok? <==> forall i :: 0 <= i < |users| ==> !Throws(users[i], search)
    ensures r.Ok? ==> Seqs.IsSubseq(r.value, users)
    ensures r.Ok? ==> forall i :: 0 <= i < |r.value| ==> Matches(r.value[i], search)
    ensures r.Ok? ==> forall i :: 0 <= i < |users| && Matches(users[i], search) ==> users[i] in r.value
  {
    var keep := (u: Json) => Matches(u, search);
    match Seqs.FilterChecked(users, (u: Json) => Throws(u, search), keep)
    case None => Err(TypeError)
    case Some(kept) => Seqs.FilterIsSubseq(users, keep); Ok(kept)
  }

  /** An empty search lists every user, in order. */
  lemma EmptySearchShowsAll(users: seq<Json>)
    ensures FilteredUsers(users, "") == Ok(users)
  {
    var keep := (u: Json) => Matches(u, "");
    Seqs.FilterAll(users, keep);
  }

  /** The table rows: the "No" column counts 1, 2, … down the filtered
      list. */
  function Rows(filtered: seq<Json>): (r: seq<(int, Json)>)
    ensures |r| == |filtered|
    ensures forall i :: 0 <= i < |r| ==> r[i] == (i + 1, filtered[i])
  {
    seq(|filtered|, i requires 0 <= i < |filtered| => (i + 1, filtered[i]))
  }

  /** What the page shows once the data is in. */
  datatype View = View(rows: seq<(int, Json)>, noUsers: bool, total: int, totalPages: int, start: int, end: int)

  /** The page on `page` with the search box holding `search`. */
  function Render(data: Option<AdminService.AdminUsers>, search: string, page: int): (r: Result<View, Json>)
    ensures r.Ok? <==> FilteredUsers(UsersOf(data), search).Ok?
    ensures r.Ok? ==> r.value.rows == Rows(FilteredUsers(UsersOf(data), search).value)
    ensures r.Ok? ==> (r.value.noUsers <==> r.value.rows == [])
    ensures r.Ok? ==> r.value.total == |r.value.rows|
  {
    match FilteredUsers(UsersOf(data), search)
    case Err(e) => Err(e)
    case Ok(f) =>
      var total := |f|;
      Ok(View(Rows(f), |f| == 0, total, PaginationBar.TotalPages(total, PAGE_SIZE),
              PaginationBar.Start(page, PAGE_SIZE, total), PaginationBar.End(page, PAGE_SIZE, total)))
  }

  /** The rows shown do not depend on the page: the table is not sliced,
      and every page fetches the same users. */
  lemma RowsIgnorePage(body: Value, search: string, p: int, q: int)
    requires Render(FetchUsers(p, body), search, p).Ok?
    ensures Render(FetchUsers(q, body), search, q).Ok?
    ensures Render(FetchUsers(p, body), search, p).value.rows == Render(FetchUsers(q, body), search, q).value.rows
  {
  }

  /** With more than one page of matches, the first page's "Showing 1 to
      10" counts fewer rows than the table actually lists. */
  lemma ShowingUndercountsRows(data: Option<AdminService.AdminUsers>, search: string)
    requires Render(data, search, 1).Ok?
    requires |Render(data, search, 1).value.rows| > PAGE_SIZE
    ensures var v := Render(data, search, 1).value;
      v.start == 1 && v.end == PAGE_SIZE < |v.rows| && v.totalPages >= 2
  {
  }

  /** `user` has a row, numbered by its position. */
  predicate Listed(rows: seq<(int, Json)>, user: Json) {
    exists j :: 0 <= j < |rows| && rows[j] == (j + 1, user)
  }

  /** A user whose name contains the search, ignoring case, is listed
      with its position among the matches. */
  lemma NameHitIsListed(users: seq<Json>, search: string, i: int)
    requires FilteredUsers(users, search).Ok?
    requires 0 <= i < |users| && IsString(NameOf(users[i]))
    requires Text.ContainsIgnoreCase(NameOf(users[i]).value.s, search)
    ensures Listed(Rows(FilteredUsers(users, search).value), users[i])
  {
    var f := FilteredUsers(users, search).value;
    assert Matches(users[i], search);
    var j :| 0 <= j < |f| && f[j] == users[i];
    assert Rows(f)[j] == (j + 1, users[i]);
  }
}

=== FILE: api_client.dfy ===
/** The axios instance's interceptors (src/services/api.ts): every request
    carries the session token as a bearer credential, and a 401 response
    logs the user out before the error reaches the caller. */
module ApiClient {
  import opened Wrappers
  import opened Json
  import AuthSlice
  import Store

  type Headers = map<string, string>

  /** The request interceptor: a non-empty token sets `Authorization`. */
  function AuthorizeRequest(headers: Headers, token: Option<string>): (r: Headers)
    ensures token.Some? && token.value != "" ==> r == headers["Authorization" := "Bearer " + token.value]
    ensures token.None? || token.value == "" ==> r == headers
  {
    match token
    case Some(t) => if t != "" then headers["Authorization" := "Bearer " + t] else headers
    case None => headers
  }

  /** `err?.response?.status === 401`. */
  predicate IsUnauthorized(err: Value) {
    Prop(Prop(err, "response"), "status") == Some(JNum(401))
  }

  /** The response error interceptor: returns the store after it runs and
      the error it rejects with. */
  function OnResponseError(s: Store.RootState, err: Value, c: AuthSlice.Codec): (r: (Store.RootState, Value))
    ensures r.1 == err
    ensures IsUnauthorized(err) ==> r.0.session.auth == AuthSlice.LoggedOut && r.0.cart == s.cart && r.0.ui == s.ui
    ensures !IsUnauthorized(err) ==> r.0 == s
  {
    if IsUnauthorized(err) then (Store.Dispatch(s, Store.Logout, c), err) else (s, err)
  }

  /** After a 401 the next request carries no credentials. */
  lemma UnauthorizedDropsCredentials(s: Store.RootState, err: Value, c: AuthSlice.Codec, headers: Headers)
    requires IsUnauthorized(err)
    ensures AuthorizeRequest(headers, OnResponseError(s, err, c).0.session.auth.token) == headers
  {
  }
}

=== FILE: auth_slice.dfy ===
/** The auth slice of the Redux store (src/features/auth/authSlice.ts): the
    session token and user, mirrored into `localStorage` under the keys
    "token" and "user". `JSON.stringify` and `JSON.parse` are parameters. */
module AuthSlice {
  import opened Wrappers
  import opened Json

  const TOKEN_KEY := "token"
  const USER_KEY := "user"

  /** `user` is `JNull` when nobody is logged in. The source casts whatever
      the server or the storage returned to `User`, so the user is kept as
      the JSON value it really is. */
  datatype AuthState = AuthState(token: Option<string>, user: Json)

  const LoggedOut: AuthState := AuthState(None, JNull)

  /** `localStorage` as a string map. */
  type Storage = map<string, string>

  /** The store's auth state together with the storage it mirrors. */
  datatype Session = Session(auth: AuthState, storage: Storage)

  /** `JSON.stringify` (a total map from JSON values to text) and `JSON.parse`
      (`None` when it throws). */
  datatype Codec = Codec(stringify: Json -> string, parse: string -> Option<Json>)

  /** What the real `JSON` object guarantees for the values stored here:
      stringified text is never empty and parses back to the value. */
  ghost predicate RoundTrips(c: Codec) {
    forall u :: c.parse(c.stringify(u)) == Some(u) && c.stringify(u) != ""
  }

  function GetItem(st: Storage, key: string): Option<string> {
    if key in st then Some(st[key]) else None
  }

  /** `getInitialAuthState`. `storage` is `None` when touching
      `localStorage` throws. Returns the initial state together with the
      storage as left behind. */
  function InitialAuthState(storage: Option<Storage>, c: Codec): (r: Session)
    ensures storage.None? ==> r.auth == LoggedOut
    ensures storage.Some? ==> r.auth.token == GetItem(storage.value, TOKEN_KEY)
    ensures storage.Some? && (USER_KEY !in storage.value || storage.value[USER_KEY] == "") ==>
      r.auth.user == JNull && r.storage == storage.value
    ensures storage.Some? && USER_KEY in storage.value && storage.value[USER_KEY] != "" ==>
      match c.parse(storage.value[USER_KEY])
      case Some(u) => r.auth.user == u && r.storage == storage.value
      case None => r.auth.user == JNull && r.storage == storage.value - {USER_KEY}
  {
    match storage
    case None => Session(LoggedOut, map[])
    case Some(st) =>
      var token := GetItem(st, TOKEN_KEY);
      match GetItem(st, USER_KEY)
      case None => Session(AuthState(token, JNull), st)
      case Some(raw) =>
        if raw == "" then Session(AuthState(token, JNull), st)
        else match c.parse(raw)
          case Some(u) => Session(AuthState(token, u), st)
          case None => Session(AuthState(token, JNull), st - {USER_KEY})
  }

  /** `setAuth`: the session becomes the payload, and both keys are written. */
  function SetAuth(s: Session, token: string, user: Json, c: Codec): (r: Session)
    ensures r.auth == AuthState(Some(token), user)
    ensures GetItem(r.storage, TOKEN_KEY) == Some(token)
    ensures GetItem(r.storage, USER_KEY) == Some(c.stringify(user))
    ensures forall k :: k in s.storage && k != TOKEN_KEY && k != USER_KEY ==> GetItem(r.storage, k) == Some(s.storage[k])
  {
    Session(AuthState(Some(token), user), s.storage[TOKEN_KEY := token][USER_KEY := c.stringify(user)])
  }

  /** `{ ...user, ...patch }` for a patch whose fields may be explicitly
      `undefined` (`None`): a defined field overrides, an undefined one makes
      the property read as `undefined`, and the other fields stay. */
  function Overlay(user: Json, patch: map<string, Option<Json>>): (r: Json)
    ensures r.JObj?
    ensures forall k :: k in patch && patch[k].Some? ==> Prop(Some(r), k) == patch[k]
    ensures forall k :: k in patch && patch[k].None? ==> Prop(Some(r), k) == None
    ensures forall k :: k !in patch ==> Prop(Some(r), k) == (if user.JObj? then Prop(Some(user), k) else None)
  {
    var base := SpreadFields(Some(user));
    JObj(map k | k in (base.Keys + patch.Keys) && (k in patch ==> patch[k].Some?) ::
           if k in patch then patch[k].value else base[k])
  }

  /** `updateUser`: with a (truthy) user, overlays the patch and persists
      the merged user; with no user, nothing happens. */
  function UpdateUser(s: Session, patch: map<string, Option<Json>>, c: Codec): (r: Session)
    ensures !Truthy(Some(s.auth.user)) ==> r == s
    ensures Truthy(Some(s.auth.user)) ==>
      r.auth.token == s.auth.token &&
      r.auth.user == Overlay(s.auth.user, patch) &&
      r.storage == s.storage[USER_KEY := c.stringify(r.auth.user)]
  {
    if Truthy(Some(s.auth.user)) then
      var merged := Overlay(s.auth.user, patch);
      Session(s.auth.(user := merged), s.storage[USER_KEY := c.stringify(merged)])
    else s
  }

  /** `logout`: the session is cleared and both keys are removed. */
  function Logout(s: Session): (r: Session)
    ensures r.auth == LoggedOut
    ensures TOKEN_KEY !in r.storage && USER_KEY !in r.storage
    ensures forall k :: k in s.storage && k != TOKEN_KEY && k != USER_KEY ==> GetItem(r.storage, k) == Some(s.storage[k])
  {
    Session(LoggedOut, s.storage - {TOKEN_KEY, USER_KEY})
  }

  /** A session written by `setAuth` is what the next page load recovers. */
  lemma SetAuthThenReload(s: Session, token: string, user: Json, c: Codec)
    requires RoundTrips(c)
    ensures InitialAuthState(Some(SetAuth(s, token, user, c).storage), c).auth == AuthState(Some(token), user)
  {
    assert c.parse(c.stringify(user)) == Some(user) && c.stringify(user) != "";
  }

  /** A session updated by `updateUser` is what the next page load recovers. */
  lemma UpdateUserThenReload(s: Session, patch: map<string, Option<Json>>, c: Codec)
    requires RoundTrips(c)
    requires Truthy(Some(s.auth.user))
    ensures InitialAuthState(Some(UpdateUser(s, patch, c).storage), c).auth.user == Overlay(s.auth.user, patch)
  {
    var m := Overlay(s.auth.user, patch);
    assert c.parse(c.stringify(m)) == Some(m) && c.stringify(m) != "";
  }

  /** After `logout` the next page load starts logged out. */
  lemma LogoutThenReload(s: Session, c: Codec)
    ensures InitialAuthState(Some(Logout(s).storage), c).auth == LoggedOut
  {
  }

  /** A corrupted stored user is dropped but the stored token is kept. */
  lemma CorruptUserKeepsToken(st: Storage, c: Codec)
    requires USER_KEY in st && st[USER_KEY] != "" && c.parse(st[USER_KEY]).None?
    ensures var r := InitialAuthState(Some(st), c);
            r.auth == AuthState(GetItem(st, TOKEN_KEY), JNull) && USER_KEY !in r.storage
  {
  }
}

=== FILE: book_detail.dfy ===
/** The review flow of the book page (src/pages/books/detail.tsx): the
    optimistic insert into the cached detail, its rollback on failure, the
    refetch on success, and the review form. */
module BookDetail {
  import opened Wrappers
  import opened Json
  import QueryCache
  import BooksService
  import opened Effects

  type Detail = BooksService.DetailResult

  /** `['book-detail', id]`. */
  function DetailKey(id: string): QueryCache.Key {
    [QueryCache.Str("book-detail"), QueryCache.Str(id)]
  }

  /** The review shown at once while the request is in flight; `now` is
      the current time. */
  function Optimistic(id: string, rating: int, comment: Option<string>, now: string): BooksService.Review {
    BooksService.Review(
      "optimistic", id, BooksService.ReviewUser("me", "You"), Int(rating),
      if comment.Some? then Some(JStr(comment.value)) else None, now)
  }

  /** `onMutate`: the cached detail, if any, gets the optimistic review in
      front of its reviews; the book itself is untouched. Returns the cache
      and the snapshot taken before. */
  function OnMutate(c: QueryCache.Cache<Detail>, id: string, review: BooksService.Review): (r: (QueryCache.Cache<Detail>, Option<Detail>))
    ensures r.1 == QueryCache.GetQueryData(c, DetailKey(id))
    ensures r.1.None? ==> r.0 == c
    ensures r.1.Some? ==>
      QueryCache.GetQueryData(r.0, DetailKey(id)) == Some(BooksService.DetailResult(r.1.value.detail, [review] + r.1.value.reviews))
    ensures r.0.Keys == c.Keys
    ensures forall k :: k in c && k != DetailKey(id) ==> r.0[k] == c[k]
  {
    var previous := QueryCache.GetQueryData(c, DetailKey(id));
    match previous
    case None => (c, None)
    case Some(p) => (QueryCache.SetQueryData(c, DetailKey(id), p.(reviews := [review] + p.reviews)), previous)
  }

  /** `onError`: the snapshot, if there was one, is written back. */
  function OnError(c: QueryCache.Cache<Detail>, id: string, previous: Option<Detail>): (r: QueryCache.Cache<Detail>)
    ensures previous.None? ==> r == c
    ensures previous.Some? ==> QueryCache.GetQueryData(r, DetailKey(id)) == previous
    ensures c.Keys <= r.Keys
    ensures forall k :: k in c && k != DetailKey(id) ==> r[k] == c[k]
  {
    if previous.Some? then QueryCache.SetQueryData(c, DetailKey(id), previous.value) else c
  }

  /** Submitting a review: the cache after the mutation settles, and the
      effects. `outcome` is the result of `PUT /books/{id}/reviews/me`. */
  function SubmitReview(c: QueryCache.Cache<Detail>, id: string, rating: int, comment: Option<string>, now: string,
                        outcome: Result<Value, Json>): (r: (QueryCache.Cache<Detail>, seq<Effect>))
    ensures outcome.Ok? ==> r.1 == [Request("PUT", "/books/" + id + "/reviews/me", Some(ReviewBody(rating, comment))),
                                    Invalidate(DetailKey(id)), ToastSuccess("Review submitted")]
    ensures outcome.Err? ==> r.1 == [Request("PUT", "/books/" + id + "/reviews/me", Some(ReviewBody(rating, comment)))] +
                                    Rejected(outcome.error) + [ToastError("Failed to submit review")]
  {
    var (optimistic, previous) := OnMutate(c, id, Optimistic(id, rating, comment, now));
    var req := Request("PUT", "/books/" + id + "/reviews/me", Some(ReviewBody(rating, comment)));
    match outcome
    case Ok(_) => (QueryCache.Invalidate(optimistic, DetailKey(id)), [req, Invalidate(DetailKey(id)), ToastSuccess("Review submitted")])
    case Err(e) => (OnError(optimistic, id, previous), [req] + Rejected(e) + [ToastError("Failed to submit review")])
  }

  /** `{ rating, comment }`; an undefined comment is not sent. */
  function ReviewBody(rating: int, comment: Option<string>): Json {
    var base := map["rating" := JNum(rating)];
    JObj(if comment.Some? then base["comment" := JStr(comment.value)] else base)
  }

  /** A failed submission leaves every entry reading exactly what it read
      before, whether or not the detail was cached. */
  lemma FailureRestoresSnapshot(c: QueryCache.Cache<Detail>, id: string, rating: int, comment: Option<string>,
                                now: string, e: Json, key: QueryCache.Key)
    ensures var after := SubmitReview(c, id, rating, comment, now, Err(e)).0;
      after.Keys == c.Keys && QueryCache.GetQueryData(after, key) == QueryCache.GetQueryData(c, key)
  {
  }

  /** A successful submission keeps the optimistic list on screen until the
      refetch replaces it, and marks the detail stale. */
  lemma SuccessKeepsOptimisticUntilRefetch(c: QueryCache.Cache<Detail>, id: string, rating: int, comment: Option<string>,
                                           now: string, body: Value)
    requires DetailKey(id) in c
    ensures var after := SubmitReview(c, id, rating, comment, now, Ok(body)).0;
      after[DetailKey(id)].stale &&
      after[DetailKey(id)].data.reviews == [Optimistic(id, rating, comment, now)] + c[DetailKey(id)].data.reviews &&
      after[DetailKey(id)].data.detail == c[DetailKey(id)].data.detail
  {
    var (optimistic, _) := OnMutate(c, id, Optimistic(id, rating, comment, now));
    assert QueryCache.IsPrefix(DetailKey(id), DetailKey(id));
  }

  /** The review form: a rating and a comment. */
  datatype ReviewForm = ReviewForm(rating: int, comment: Option<string>)

  const DEFAULT_FORM := ReviewForm(5, None)

  /** Clicking star `i` (0-based) sets the rating to `i + 1` and keeps the
      comment. */
  function ClickStar(f: ReviewForm, i: int): (r: ReviewForm)
    requires 0 <= i < 5
    ensures 1 <= r.rating <= 5 && r.rating == i + 1 && r.comment == f.comment
  {
    ReviewForm(i + 1, f.comment)
  }

  /** Star `i` is lit when `i < (rating || 0)`. */
  predicate StarLit(f: ReviewForm, i: int) {
    i < f.rating
  }

  /** The review sheet: the form and whether the sheet is open. */
  datatype Sheet = Sheet(form: ReviewForm, open: bool)

  /** Submitting the sheet: the review entered is sent as `SubmitReview`
      sends it, and the form goes back to 5 stars and an empty comment with
      the sheet closed, whatever the request does. */
  function SubmitSheet(c: QueryCache.Cache<Detail>, id: string, s: Sheet, now: string,
                       outcome: Result<Value, Json>): (r: (QueryCache.Cache<Detail>, seq<Effect>, Sheet))
    ensures r.2 == Sheet(ReviewForm(5, Some("")), false)
    ensures (r.0, r.1) == SubmitReview(c, id, s.form.rating, s.form.comment, now, outcome)
    ensures |r.1| >= 2 && r.1[0] == Request("PUT", "/books/" + id + "/reviews/me", Some(ReviewBody(s.form.rating, s.form.comment)))
  {
    var (cache, effects) := SubmitReview(c, id, s.form.rating, s.form.comment, now, outcome);
    (cache, effects, Sheet(ReviewForm(5, Some("")), false))
  }

  /** Clicking star `i` lights exactly stars `0..i`. */
  lemma ClickLightsPrefix(f: ReviewForm, i: int, j: int)
    requires 0 <= i < 5 && 0 <= j < 5
    ensures StarLit(ClickStar(f, i), j) <==> j <= i
  {
  }
}

=== FILE: book_list.dfy ===
/** The home page (src/pages/books/list.tsx): the book query and its Load
    More button, the "Popular Authors" strip derived from the current page,
    the initials shown for each author, and the category cards with their
    fallbacks and icons. */
module BookList {
  import opened Wrappers
  import opened Json
  import Seqs
  import Text
  import JsMap
  import Store
  import AuthSlice
  import BooksService
  import opened Effects

  // ----- the book query and Load More -----

  const PAGE_LIMIT: int := 12

  /** `fetchBooks({ q: search, page, limit: 12 })`. */
  function BooksRequest(search: string, page: int): (r: BooksService.BooksParams)
    ensures r.categoryIds.None? && r.limit == Some(PAGE_LIMIT)
  {
    BooksService.BooksParams(Some(search), None, Some(page), Some(PAGE_LIMIT))
  }

  /** Load More is shown once a page of data is in. */
  predicate LoadMoreShown(data: Option<BooksService.BookPage>) {
    data.Some?
  }

  /** `setPage(p => p + 1)`: the query moves to the next page and asks the
      server for exactly that page, with the same search and limit. The
      grid then shows that page's books only. */
  function LoadMore(page: int): (r: int)
    ensures page >= 1 ==> var q := BooksService.BuildQuery(BooksRequest("", r));
      "page" in q && q["page"] == JNum(page + 1) && "limit" in q && q["limit"] == JNum(PAGE_LIMIT)
  {
    page + 1
  }

  /** The search reaches the server only when it is not empty. */
  lemma SearchSentWhenNonEmpty(search: string, page: int)
    ensures var q := BooksService.BuildQuery(BooksRequest(search, page));
      ("q" in q <==> search != "") && ("q" in q ==> q["q"] == JStr(search))
  {
  }

  // ----- popular authors -----

  const MAX_AUTHORS: int := 6

  /** `(data?.items ?? [])`. */
  function ItemsOf(data: Option<BooksService.BookPage>): (r: seq<BooksService.Book>)
    ensures data.None? ==> r == []
    ensures data.Some? ==> r == data.value.items
  {
    if data.Some? then data.value.items else []
  }

  /** `[b.author.id, b.author.name]` for every book on the page. */
  function AuthorPairs(books: seq<BooksService.Book>): (r: seq<(string, string)>)
    ensures |r| == |books|
    ensures forall i :: 0 <= i < |books| ==> r[i] == (books[i].authorId, books[i].authorName)
  {
    Seqs.Map(books, (b: BooksService.Book) => (b.authorId, b.authorName))
  }

  /** `Array.from(new Map(pairs).entries()).slice(0, 6)`: distinct author
      ids in the order they first appear, at most six of them. */
  function Authors(data: Option<BooksService.BookPage>): (r: JsMap.Entries<string, string>)
    ensures |r| <= MAX_AUTHORS
    ensures JsMap.DistinctKeys(r)
    ensures JsMap.FirstOccurrenceOrder(r, AuthorPairs(ItemsOf(data)))
  {
    var pairs := AuthorPairs(ItemsOf(data));
    var all := JsMap.FromPairs(pairs);
    JsMap.FromPairsOrder(pairs);
    if |all| <= MAX_AUTHORS then all else all[..MAX_AUTHORS]
  }

  /** The entries of `Authors` are the first ones of the whole map. */
  lemma AuthorsPrefix(data: Option<BooksService.BookPage>)
    ensures var all := JsMap.FromPairs(AuthorPairs(ItemsOf(data)));
      Authors(data) == all[..|Authors(data)|] && (|Authors(data)| == |all| || |Authors(data)| == MAX_AUTHORS)
  {
  }

  /** A key found in a prefix of a map is found at the same place in the
      whole map. */
  lemma FirstIdxPrefix(e: JsMap.Entries<string, string>, n: int, k: string)
    requires 0 <= n <= |e|
    requires JsMap.Has(e[..n], k)
    ensures JsMap.FirstIdx(e, k) == JsMap.FirstIdx(e[..n], k)
    ensures JsMap.Get(e[..n], k) == JsMap.Get(e, k)
  {
    var r := JsMap.FirstIdx(e[..n], k);
    assert e[r].0 == k;
    assert forall j :: 0 <= j < r ==> e[j].0 == e[..n][j].0;
  }

  /** A map never has more entries than the pairs it was built from. */
  lemma {:induction false} FromPairsSize(pairs: seq<(string, string)>)
    ensures |JsMap.FromPairs(pairs)| <= |pairs|
    decreases |pairs|
  {
    if |pairs| > 0 {
      FromPairsSize(pairs[..|pairs| - 1]);
    }
  }

  /** The author of the first book always leads the strip. */
  lemma FirstBookAuthorLeads(data: Option<BooksService.BookPage>)
    requires |ItemsOf(data)| > 0
    ensures |Authors(data)| > 0 && Authors(data)[0].0 == ItemsOf(data)[0].authorId
  {
    var pairs := AuthorPairs(ItemsOf(data));
    var all := JsMap.FromPairs(pairs);
    var k := pairs[0].0;
    JsMap.FromPairsHas(pairs, k);
    JsMap.FromPairsOrder(pairs);
    assert JsMap.FirstIdx(pairs, k) == 0;
    AuthorsPrefix(data);
  }

  /** A page with at most six books lists every one of their authors. */
  lemma FewBooksListEveryAuthor(data: Option<BooksService.BookPage>, i: int)
    requires |ItemsOf(data)| <= MAX_AUTHORS && 0 <= i < |ItemsOf(data)|
    ensures JsMap.Has(Authors(data), ItemsOf(data)[i].authorId)
  {
    var pairs := AuthorPairs(ItemsOf(data));
    FromPairsSize(pairs);
    JsMap.FromPairsHas(pairs, pairs[i].0);
    assert JsMap.FirstIdx(pairs, pairs[i].0) <= i;
  }

  /** A listed author shows the name of the last book by that author on
      the page, as `Map` keeps the last value set for a key. */
  lemma ListedAuthorHasLastName(data: Option<BooksService.BookPage>, i: int)
    requires 0 <= i < |ItemsOf(data)|
    requires forall j :: i < j < |ItemsOf(data)| ==> ItemsOf(data)[j].authorId != ItemsOf(data)[i].authorId
    requires JsMap.Has(Authors(data), ItemsOf(data)[i].authorId)
    ensures JsMap.Get(Authors(data), ItemsOf(data)[i].authorId) == Some(ItemsOf(data)[i].authorName)
  {
    var pairs := AuthorPairs(ItemsOf(data));
    var all := JsMap.FromPairs(pairs);
    JsMap.FromPairsLastValue(pairs, i);
    AuthorsPrefix(data);
    FirstIdxPrefix(all, |Authors(data)|, pairs[i].0);
  }

  // ----- initials -----

  /** `p[0]`, which `join` turns into "" for an empty piece. */
  function Head(s: string): (r: string)
    ensures |r| <= 1
    ensures |r| == 1 ==> |s| > 0 && r[0] == s[0]
  {
    if |s| == 0 then "" else [s[0]]
  }

  /** `name.split(' ').map(p => p[0]).slice(0, 2).join('')`: the first
      character of the first two space-separated pieces. */
  function Initials(name: string): (r: string)
    ensures |r| <= 2
  {
    var parts := Text.Split(name, ' ');
    Head(parts[0]) + (if |parts| > 1 then Head(parts[1]) else "")
  }

  predicate IsSpace(c: char) {
    c == ' '
  }

  /** The position of the first space, if any. */
  function FirstSpace(s: string): (r: Option<nat>)
    ensures r.Some? ==> r.value < |s| && s[r.value] == ' ' && forall j :: 0 <= j < r.value ==> s[j] != ' '
    ensures r.None? ==> ' ' !in s
  {
    Seqs.FindIndex(s, IsSpace)
  }

  /** Where `split(' ')` cuts: the first piece runs up to the first space,
      and the rest is the split of what follows it. */
  lemma {:induction false} SplitAtFirst(s: string)
    ensures var parts := Text.Split(s, ' ');
      match FirstSpace(s)
      case None => parts == [s]
      case Some(i) => |parts| >= 2 && parts[0] == s[..i] && parts[1..] == Text.Split(s[i + 1..], ' ')
  {
    if |s| > 0 {
      SplitAtFirst(s[1..]);
      if s[0] != ' ' {
        match FirstSpace(s[1..])
        case None =>
          assert [s[0]] + s[1..] == s;
        case Some(j) =>
          assert FirstSpace(s) == Some(j + 1);
          assert [s[0]] + s[1..][..j] == s[..j + 1];
          assert s[1..][j + 1..] == s[j + 2..];
      }
    }
  }

  /** The first character of `s`, unless `s` is empty or starts with a
      space. */
  function Lead(s: string): (r: string)
    ensures |r| <= 1
  {
    if |s| > 0 && s[0] != ' ' then [s[0]] else ""
  }

  /** What follows the first space; "" when there is none. */
  function AfterFirstSpace(s: string): (r: string)
    ensures |r| < |s| || r == ""
  {
    match FirstSpace(s)
    case None => ""
    case Some(i) => s[i + 1..]
  }

  /** The first piece of a split starts as the string does. */
  lemma FirstPieceHead(s: string)
    ensures Head(Text.Split(s, ' ')[0]) == Lead(s)
  {
    SplitAtFirst(s);
    match FirstSpace(s)
    case None =>
    case Some(i) =>
      if i > 0 {
        assert Text.Split(s, ' ')[0][0] == s[0];
      }
  }

  /** The initials are the first character of the name unless it starts
      with a space, followed by the character after the first space unless
      that is another space or the end. */
  lemma InitialsFromSpaces(name: string)
    ensures Initials(name) == Lead(name) + Lead(AfterFirstSpace(name))
  {
    SplitAtFirst(name);
    FirstPieceHead(name);
    var parts := Text.Split(name, ' ');
    match FirstSpace(name)
    case None =>
    case Some(i) =>
      var after := name[i + 1..];
      FirstPieceHead(after);
      assert parts[1] == Text.Split(after, ' ')[0];
  }

  // ----- category cards -----

  /** The icons the cards can show. */
  datatype Icon = BookOpen | BookMarked | Brain | PiggyBank | FlaskConical | GraduationCap

  /** The icon table of `iconFor`. */
  const ICONS: map<string, Icon> := map[
    "Fiction" := BookOpen,
    "Non-Fiction" := BookMarked,
    "Self Improvement" := Brain,
    "Finance" := PiggyBank,
    "Science" := FlaskConical,
    "Education" := GraduationCap
  ]

  /** `map[name] ?? BookOpen`. */
  function IconFor(name: string): (r: Icon)
    ensures name in ICONS ==> r == ICONS[name]
    ensures name !in ICONS ==> r == BookOpen
  {
    if name in ICONS then ICONS[name] else BookOpen
  }

  /** The six placeholder categories, ids 1 to 6. */
  const FALLBACK: seq<Json> := [
    Obj([("id", JNum(1)), ("name", JStr("Fiction"))]),
    Obj([("id", JNum(2)), ("name", JStr("Non-Fiction"))]),
    Obj([("id", JNum(3)), ("name", JStr("Self-Improvement"))]),
    Obj([("id", JNum(4)), ("name", JStr("Finance"))]),
    Obj([("id", JNum(5)), ("name", JStr("Science"))]),
    Obj([("id", JNum(6)), ("name", JStr("Education"))])
  ]

  /** `cats.length ? cats : fallback`, where `cats` is `q.data ?? []`:
      `None` while the categories load or after they fail. */
  function Cards(cats: Option<seq<Json>>): (r: seq<Json>)
    ensures cats.Some? && |cats.value| > 0 ==> r == cats.value
    ensures cats.None? || |cats.value| == 0 ==> r == FALLBACK
    ensures |r| > 0
  {
    var c := if cats.Some? then cats.value else [];
    if |c| > 0 then c else FALLBACK
  }

  /** The icon a card shows: its `name` as `iconFor` reads it. A `null`
      entry in the served list throws at `c.name`, and the grid does not
      render. */
  function CardIcon(card: Json): (r: Result<Icon, Json>)
    ensures r.Err? <==> card.JNull?
    ensures r.Err? ==> r.error == TypeError
    ensures var name := Prop(Some(card), "name");
      r.Ok? && name.Some? && name.value.JStr? && name.value.s in ICONS ==> r.value == ICONS[name.value.s]
    ensures r.Ok? && Prop(Some(card), "name").None? ==> r.value == BookOpen
  {
    if card.JNull? then Err(TypeError) else Ok(IconFor(ToStr(Prop(Some(card), "name"))))
  }

  /** The placeholder "Self-Improvement" misses the table's
      "Self Improvement" entry and shows the default icon; the other five
      placeholders show their own. */
  lemma FallbackIcons()
    ensures CardIcon(FALLBACK[2]) == Ok(BookOpen) && ICONS["Self Improvement"] == Brain
    ensures CardIcon(FALLBACK[1]) == Ok(BookMarked) && CardIcon(FALLBACK[3]) == Ok(PiggyBank)
    ensures CardIcon(FALLBACK[4]) == Ok(FlaskConical) && CardIcon(FALLBACK[5]) == Ok(GraduationCap)
  {
    IconTable();
    PlaceholderIcon(2, "Self-Improvement");
    PlaceholderIcon(1, "Non-Fiction");
    PlaceholderIcon(3, "Finance");
    PlaceholderIcon(4, "Science");
    PlaceholderIcon(5, "Education");
  }

  lemma IconTable()
    ensures IconFor("Self-Improvement") == BookOpen && ICONS["Self Improvement"] == Brain
    ensures IconFor("Non-Fiction") == BookMarked && IconFor("Finance") == PiggyBank
    ensures IconFor("Science") == FlaskConical && IconFor("Education") == GraduationCap
  {
    assert "Self-Improvement" !in ICONS by {
      assert |"Self-Improvement"| == 16 && "Self-Improvement"[4] == '-';
      assert forall k :: k in ICONS ==> |k| != 16 || k[4] != '-';
    }
  }

  /** A placeholder card shows the icon for its name. */
  lemma PlaceholderIcon(k: int, name: string)
    requires 0 <= k < |FALLBACK| && FALLBACK[k] == Obj([("id", JNum(k + 1)), ("name", JStr(name))])
    ensures CardIcon(FALLBACK[k]) == Ok(IconFor(name))
  {
    var n := k + 1;
    var e := [("id", JNum(n)), ("name", JStr(name))];
    assert e[..1] == [("id", JNum(n))];
    assert e[..1][..0] == [];
    assert FieldsOf(e[..1]) == map["id" := JNum(n)];
    assert FieldsOf(e) == map["id" := JNum(n)]["name" := JStr(name)];
    assert Prop(Some(Obj(e)), "name") == Some(JStr(name));
  }

  /** Clicking a card: select exactly that category, then go to the
      category page. A `null` card throws at `String(c.id)`. */
  function ClickCategory(card: Json): (r: Result<seq<Effect>, Json>)
    ensures r.Err? <==> card.JNull?
    ensures r.Ok? ==> |r.value| == 2 && r.value[1] == Navigate("/categories")
    ensures r.Ok? ==> r.value[0] == Dispatch(Store.SetCategories([Some(JStr(ToStr(Prop(Some(card), "id"))))]))
  {
    if card.JNull? then Err(TypeError)
    else Ok([Dispatch(Store.SetCategories([Some(JStr(ToStr(Prop(Some(card), "id"))))])), Navigate("/categories")])
  }

  /** After a click the filter holds only the clicked category, as a
      string; the search, the session and the cart are untouched. */
  lemma ClickSelectsOnlyThatCategory(s: Store.RootState, card: Json, c: AuthSlice.Codec)
    ensures ClickCategory(card).Ok? ==>
      var after := ApplyToStore(s, ClickCategory(card).value, c);
      after.ui.categoryIds == [Some(JStr(ToStr(Prop(Some(card), "id"))))] && after.ui.search == s.ui.search &&
      after.session == s.session && after.cart == s.cart
  {
    if card.JNull? { return; }
    var a := Store.SetCategories([Some(JStr(ToStr(Prop(Some(card), "id"))))]);
    assert ClickCategory(card).value == [] + [Dispatch(a)] + [Navigate("/categories")];
    ApplyOneDispatch(s, [], a, [Navigate("/categories")], c);
  }
}

=== FILE: books_service.dfy ===
/** The book calls of src/services/books.ts: the list query and the mapping
    of the server's book and book-detail records onto the client's shape. */
module BooksService {
  import opened Wrappers
  import opened Json
  import Text
  import Seqs

  datatype BooksParams = BooksParams(
    q: Option<string>, categoryIds: Option<seq<string>>, page: Option<int>, limit: Option<int>)

  /** The query string parameters `fetchBooks` sends: page, limit and q only
      when truthy. `categoryIds` is accepted and never sent. */
  function BuildQuery(p: BooksParams): (r: map<string, Json>)
    ensures r.Keys <= {"page", "limit", "q"}
    ensures "page" in r <==> p.page.Some? && p.page.value != 0
    ensures "page" in r ==> r["page"] == JNum(p.page.value)
    ensures "limit" in r <==> p.limit.Some? && p.limit.value != 0
    ensures "limit" in r ==> r["limit"] == JNum(p.limit.value)
    ensures "q" in r <==> p.q.Some? && p.q.value != ""
    ensures "q" in r ==> r["q"] == JStr(p.q.value)
  {
    var q0: map<string, Json> := map[];
    var q1 := if p.page.Some? && p.page.value != 0 then q0["page" := JNum(p.page.value)] else q0;
    var q2 := if p.limit.Some? && p.limit.value != 0 then q1["limit" := JNum(p.limit.value)] else q1;
    if p.q.Some? && p.q.value != "" then q2["q" := JStr(p.q.value)] else q2
  }

  /** The category filter never reaches the server. */
  lemma QueryIgnoresCategories(p: BooksParams, ids: Option<seq<string>>)
    ensures BuildQuery(p.(categoryIds := ids)) == BuildQuery(p)
  {
  }

  datatype Category = Category(id: string, name: string)

  datatype Book = Book(
    id: string, title: string, authorId: string, authorName: string, coverUrl: Json,
    rating: int, stock: int, categories: seq<Category>, description: Value)

  /** `Number.isFinite(v) ? Number(v) : 0`: only a number is finite. */
  function FiniteOr0(v: Value): (r: int)
    ensures IsNumber(v) ==> r == v.value.n
    ensures !IsNumber(v) ==> r == 0
  {
    if IsNumber(v) then v.value.n else 0
  }

  /** `b.category ? [{…}] : []`. */
  function CategoriesOf(b: Value): (r: seq<Category>)
    ensures |r| == (if Truthy(Prop(b, "category")) then 1 else 0)
    ensures Truthy(Prop(b, "category")) ==>
      r == [Category(ToStr(Prop(Prop(b, "category"), "id")), ToStr(Prop(Prop(b, "category"), "name")))]
  {
    var c := Prop(b, "category");
    if Truthy(c) then [Category(ToStr(Prop(c, "id")), ToStr(Prop(c, "name")))] else []
  }

  /** The fields a list entry and a detail share; `id` is the already
      chosen identifier. */
  function BookFields(b: Value, id: string): (r: Book)
    ensures r.id == id
    ensures r.title == ToStr(Coalesce(Prop(b, "title"), Some(JStr(""))))
    ensures r.authorId == ToStr(Coalesce(Prop(Prop(b, "author"), "id"), Some(JStr(""))))
    ensures r.authorName == ToStr(Coalesce(Prop(Prop(b, "author"), "name"), Some(JStr("Unknown"))))
    ensures r.coverUrl == Coalesce(Prop(b, "coverImage"), Some(JNull)).value
    ensures r.rating == FiniteOr0(Prop(b, "rating")) && r.stock == FiniteOr0(Prop(b, "availableCopies"))
    ensures r.categories == CategoriesOf(b)
    ensures r.description == (if IsNullish(Prop(b, "description")) then None else Prop(b, "description"))
  {
    Book(
      id,
      ToStr(Coalesce(Prop(b, "title"), Some(JStr("")))),
      ToStr(Coalesce(Prop(Prop(b, "author"), "id"), Some(JStr("")))),
      ToStr(Coalesce(Prop(Prop(b, "author"), "name"), Some(JStr("Unknown")))),
      Coalesce(Prop(b, "coverImage"), Some(JNull)).value,
      FiniteOr0(Prop(b, "rating")),
      FiniteOr0(Prop(b, "availableCopies")),
      CategoriesOf(b),
      if IsNullish(Prop(b, "description")) then None else Prop(b, "description"))
  }

  /** One entry of `fetchBooks`; `b.id` on `null` throws. */
  function MapBook(b: Json): (r: Result<Book, Json>)
    ensures r.Err? <==> b.JNull?
    ensures r.Ok? ==> r.value == BookFields(Some(b), ToStr(Prop(Some(b), "id")))
  {
    if b.JNull? then Err(TypeError) else Ok(BookFields(Some(b), ToStr(Prop(Some(b), "id"))))
  }

  function MapBooks(bs: seq<Json>): (r: Result<seq<Book>, Json>)
    ensures r.Ok? <==> forall i :: 0 <= i < |bs| ==> !bs[i].JNull?
    ensures r.Ok? ==> |r.value| == |bs| && forall i :: 0 <= i < |bs| ==> MapBook(bs[i]) == Ok(r.value[i])
    ensures r.Err? ==> r.error == TypeError
  {
    if |bs| == 0 then Ok([])
    else match MapBook(bs[0])
      case Err(e) => Err(e)
      case Ok(x) =>
        match MapBooks(bs[1..])
        case Err(e) => Err(e)
        case Ok(rest) =>
          MapBooksCons(bs, x, rest);
          Ok([x] + rest)
  }

  lemma MapBooksCons(bs: seq<Json>, x: Book, rest: seq<Book>)
    requires |bs| > 0 && MapBook(bs[0]) == Ok(x)
    requires |rest| == |bs| - 1 && forall i :: 0 <= i < |rest| ==> MapBook(bs[1..][i]) == Ok(rest[i])
    ensures forall i :: 0 <= i < |bs| ==> MapBook(bs[i]) == Ok(([x] + rest)[i])
  {
    Seqs.OkCons(bs, MapBook, x, rest);
  }

  datatype BookPage = BookPage(items: seq<Book>, total: Num, page: Num, limit: Num)

  /** `data?.data?.books ?? []`. */
  function BooksOf(data: Value): Value {
    Coalesce(Prop(Prop(data, "data"), "books"), Some(JArr([])))
  }

  /** `fetchBooks(params)` given the response body `data`. `.map` on a
      non-array list throws. */
  function FetchBooks(p: BooksParams, data: Value): (r: Result<BookPage, Json>)
    ensures r.Ok? <==> IsArray(BooksOf(data)) && forall i :: 0 <= i < |BooksOf(data).value.items| ==> !BooksOf(data).value.items[i].JNull?
    ensures r.Err? ==> r.error == TypeError
    ensures r.Ok? ==> var raw := BooksOf(data).value.items;
      |r.value.items| == |raw| && forall i :: 0 <= i < |raw| ==> MapBook(raw[i]) == Ok(r.value.items[i])
    ensures r.Ok? ==> var pag := Coalesce(Prop(Prop(data, "data"), "pagination"), Some(JObj(map[])));
      r.value.total == NumberOr(Prop(pag, "total"), |r.value.items|) &&
      r.value.page == (if IsNullish(Prop(pag, "page")) then Int(p.page.GetOr(1)) else ToNumber(Prop(pag, "page"))) &&
      r.value.limit == (if IsNullish(Prop(pag, "limit")) then Int(p.limit.GetOr(|r.value.items|)) else ToNumber(Prop(pag, "limit")))
  {
    var raw := BooksOf(data);
    if !IsArray(raw) then Err(TypeError)
    else match MapBooks(raw.value.items)
      case Err(e) => Err(e)
      case Ok(books) =>
        var pag := Coalesce(Prop(Prop(data, "data"), "pagination"), Some(JObj(map[])));
        Ok(BookPage(
          books,
          NumberOr(Prop(pag, "total"), |books|),
          NumberOr(Prop(pag, "page"), p.page.GetOr(1)),
          NumberOr(Prop(pag, "limit"), p.limit.GetOr(|books|))))
  }

  /** Without pagination in the answer, the totals describe the page that
      came back. */
  lemma FetchBooksWithoutPagination(p: BooksParams, books: seq<Json>)
    requires forall i :: 0 <= i < |books| ==> !books[i].JNull?
    ensures var r := FetchBooks(p, Some(JObj(map["data" := JObj(map["books" := JArr(books)])])));
      r.Ok? && r.value.total == Int(|books|) && r.value.page == Int(p.page.GetOr(1)) &&
      r.value.limit == Int(p.limit.GetOr(|books|))
  {
    var data := Some(JObj(map["data" := JObj(map["books" := JArr(books)])]));
    assert BooksOf(data) == Some(JArr(books));
  }

  datatype ReviewUser = ReviewUser(id: string, name: string)

  datatype Review = Review(
    id: string, bookId: string, user: ReviewUser, rating: Num, comment: Value, createdAt: string)

  datatype BookDetail = BookDetail(
    book: Book, totalCopies: Num, borrowCount: Num, reviewCount: Num,
    isbn: Option<string>, publishedYear: Option<int>)

  /** `isbn`: the text of a string or number, otherwise absent. */
  function IsbnOf(v: Value): (r: Option<string>)
    ensures r.Some? <==> IsString(v) || IsNumber(v)
    ensures IsString(v) ==> r == Some(v.value.s)
    ensures IsNumber(v) ==> r == Some(Text.IntToString(v.value.n))
  {
    if IsString(v) || IsNumber(v) then Some(ToStr(v)) else None
  }

  /** `publishedYear`: a number as it is, a string through `Number`
      unless that is NaN, anything else absent. */
  function PublishedYearOf(v: Value): (r: Option<int>)
    ensures IsNumber(v) ==> r == Some(v.value.n)
    ensures IsString(v) ==> (r.None? <==> StringToNumber(v.value.s) == NaN)
    ensures IsString(v) && StringToNumber(v.value.s).Int? ==> r == Some(StringToNumber(v.value.s).v)
    ensures !IsNumber(v) && !IsString(v) ==> r.None?
  {
    if IsNumber(v) then Some(v.value.n)
    else if IsString(v) then
      match StringToNumber(v.value.s)
      case NaN => None
      case Int(n) => Some(n)
    else None
  }

  /** A year sent as the numeral of `n` comes back as `n`. */
  lemma PublishedYearNumeral(n: int)
    ensures PublishedYearOf(Some(JStr(Text.IntToString(n)))) == Some(n)
  {
    NumberOfNumeral(n);
  }

  /** One review of the detail page; `now` stands for the current time,
      used when the review has no date. `r.id` on `null` throws. */
  function MapReview(r: Json, bookId: string, now: string): (res: Result<Review, Json>)
    ensures res.Err? <==> r.JNull?
    ensures res.Ok? ==> res.value.id == ToStr(Prop(Some(r), "id"))
    ensures res.Ok? ==> res.value.bookId == bookId
    ensures res.Ok? ==> res.value.user.id == ToStr(Coalesce(Prop(Prop(Some(r), "user"), "id"), Some(JStr(""))))
    ensures res.Ok? ==> res.value.comment == (if IsNullish(Prop(Some(r), "comment")) then None else Prop(Some(r), "comment"))
    ensures res.Ok? ==> res.value.rating == NumberOr(Prop(Some(r), "star"), 0)
    ensures res.Ok? ==> res.value.user.name == ToStr(Coalesce(Prop(Prop(Some(r), "user"), "name"), Some(JStr("User"))))
    ensures res.Ok? && IsNullish(Prop(Some(r), "createdAt")) ==> res.value.createdAt == now
    ensures res.Ok? && !IsNullish(Prop(Some(r), "createdAt")) ==> res.value.createdAt == ToStr(Prop(Some(r), "createdAt"))
  {
    if r.JNull? then Err(TypeError)
    else
      var v := Some(r);
      var user := Prop(v, "user");
      Ok(Review(
        ToStr(Prop(v, "id")),
        bookId,
        ReviewUser(ToStr(Coalesce(Prop(user, "id"), Some(JStr("")))), ToStr(Coalesce(Prop(user, "name"), Some(JStr("User"))))),
        NumberOr(Prop(v, "star"), 0),
        if IsNullish(Prop(v, "comment")) then None else Prop(v, "comment"),
        ToStr(Coalesce(Prop(v, "createdAt"), Some(JStr(now))))))
  }

  function MapReviews(rs: seq<Json>, bookId: string, now: string): (r: Result<seq<Review>, Json>)
    ensures r.Ok? <==> forall i :: 0 <= i < |rs| ==> !rs[i].JNull?
    ensures r.Ok? ==> |r.value| == |rs| && forall i :: 0 <= i < |rs| ==> MapReview(rs[i], bookId, now) == Ok(r.value[i])
    ensures r.Err? ==> r.error == TypeError
  {
    if |rs| == 0 then Ok([])
    else match MapReview(rs[0], bookId, now)
      case Err(e) => Err(e)
      case Ok(x) =>
        match MapReviews(rs[1..], bookId, now)
        case Err(e) => Err(e)
        case Ok(rest) =>
          MapReviewsCons(rs, bookId, now, x, rest);
          Ok([x] + rest)
  }

  lemma MapReviewsCons(rs: seq<Json>, bookId: string, now: string, x: Review, rest: seq<Review>)
    requires |rs| > 0 && MapReview(rs[0], bookId, now) == Ok(x)
    requires |rest| == |rs| - 1 && forall i :: 0 <= i < |rest| ==> MapReview(rs[1..][i], bookId, now) == Ok(rest[i])
    ensures forall i :: 0 <= i < |rs| ==> MapReview(rs[i], bookId, now) == Ok(([x] + rest)[i])
  {
    Seqs.OkCons(rs, (j: Json) => MapReview(j, bookId, now), x, rest);
  }

  datatype DetailResult = DetailResult(detail: BookDetail, reviews: seq<Review>)

  /** `fetchBookDetail(id)` given the response body `data`. */
  function FetchBookDetail(id: string, data: Value, now: string): (r: Result<DetailResult, Json>)
    ensures var b := Coalesce(Prop(data, "data"), Some(JObj(map[])));
      var bookId := ToStr(Coalesce(Prop(b, "id"), Some(JStr(id))));
      var rs := Prop(b, "reviews");
      (r.Ok? <==> !IsArray(rs) || forall i :: 0 <= i < |rs.value.items| ==> !rs.value.items[i].JNull?) &&
      (r.Ok? ==>
        r.value.detail.book == BookFields(b, bookId) &&
        r.value.detail.isbn == IsbnOf(Prop(b, "isbn")) &&
        r.value.detail.publishedYear == PublishedYearOf(Prop(b, "publishedYear")) &&
        r.value.detail.totalCopies == NumberOr(Prop(b, "totalCopies"), 0) &&
        r.value.detail.borrowCount == NumberOr(Prop(b, "borrowCount"), 0) &&
        r.value.detail.reviewCount == NumberOr(Prop(b, "reviewCount"), 0) &&
        (!IsArray(rs) ==> r.value.reviews == []) &&
        (IsArray(rs) ==> |r.value.reviews| == |rs.value.items|) &&
        (IsArray(rs) ==> forall i :: 0 <= i < |rs.value.items| ==>
           MapReview(rs.value.items[i], bookId, now) == Ok(r.value.reviews[i])))
    ensures r.Err? ==> r.error == TypeError
  {
    var b := Coalesce(Prop(data, "data"), Some(JObj(map[])));
    var bookId := ToStr(Coalesce(Prop(b, "id"), Some(JStr(id))));
    var detail := BookDetail(
      BookFields(b, bookId),
      NumberOr(Prop(b, "totalCopies"), 0),
      NumberOr(Prop(b, "borrowCount"), 0),
      NumberOr(Prop(b, "reviewCount"), 0),
      IsbnOf(Prop(b, "isbn")),
      PublishedYearOf(Prop(b, "publishedYear")));
    var rs := Prop(b, "reviews");
    if !IsArray(rs) then Ok(DetailResult(detail, []))
    else match MapReviews(rs.value.items, bookId, now)
      case Err(e) => Err(e)
      case Ok(reviews) => Ok(DetailResult(detail, reviews))
  }

  /** A detail page for a book the server does not know still shows the
      requested id, with zero counters and no reviews. */
  lemma EmptyDetailKeepsId(id: string, now: string)
    ensures var r := FetchBookDetail(id, Some(JObj(map[])), now);
      r.Ok? && r.value.detail.book.id == id && r.value.reviews == [] &&
      r.value.detail.totalCopies == Int(0) && r.value.detail.book.rating == 0
  {
  }
}

=== FILE: cart_page.dfy ===
/** The cart page (src/pages/cart/index.tsx): which lines are ticked, the
    "select all" box, and what "proceed" passes on to the checkout. */
module CartPage {
  import opened Wrappers
  import opened Seqs
  import opened CartSlice

  /** The tick state, keyed by bookId; a missing key reads as unticked. */
  type Sel = map<string, bool>

  predicate Selected(sel: Sel, id: string) {
    id in sel && sel[id]
  }

  /** `Object.fromEntries(items.map(i => [i.bookId, v]))`. */
  function AllTo(items: seq<CartItem>, v: bool): (r: Sel)
    ensures forall i :: 0 <= i < |items| ==> items[i].bookId in r && r[items[i].bookId] == v
    ensures forall id :: id in r ==> HasBook(items, id)
  {
    var ids := set i | 0 <= i < |items| :: items[i].bookId;
    map id | id in ids :: v
  }

  /** On opening the page every line is ticked. */
  function InitialSel(items: seq<CartItem>): (r: Sel)
    ensures forall i :: 0 <= i < |items| ==> Selected(r, items[i].bookId)
  {
    AllTo(items, true)
  }

  /** `allChecked`: the cart is not empty and every line is ticked. */
  predicate AllChecked(items: seq<CartItem>, sel: Sel) {
    |items| > 0 && forall i :: 0 <= i < |items| ==> Selected(sel, items[i].bookId)
  }

  /** The ticked lines, in cart order, each as often as it is in the cart. */
  function Ticked(items: seq<CartItem>, sel: Sel): (r: seq<CartItem>)
    ensures IsSubseq(r, items)
    ensures forall i :: 0 <= i < |items| && Selected(sel, items[i].bookId) ==> items[i] in r
    ensures forall i :: 0 <= i < |r| ==> Selected(sel, r[i].bookId)
    ensures forall x: CartItem :: Selected(sel, x.bookId) ==> multiset(r)[x] == multiset(items)[x]
  {
    FilterIsSubseq(items, (i: CartItem) => Selected(sel, i.bookId));
    FilterMultiplicity(items, (i: CartItem) => Selected(sel, i.bookId));
    Filter(items, (i: CartItem) => Selected(sel, i.bookId))
  }

  /** `count`: the number of cart lines whose box is ticked. */
  function Count(items: seq<CartItem>, sel: Sel): (r: nat)
    ensures r == |set i | 0 <= i < |items| && Selected(sel, items[i].bookId)|
    ensures r <= |items|
    ensures AllChecked(items, sel) ==> r == |items|
    ensures r == 0 <==> forall i :: 0 <= i < |items| ==> !Selected(sel, items[i].bookId)
  {
    TickedCount(items, sel);
    TickedLines(items, sel);
    |Ticked(items, sel)|
  }

  lemma TickedLines(items: seq<CartItem>, sel: Sel)
    ensures |Ticked(items, sel)| == |set i | 0 <= i < |items| && Selected(sel, items[i].bookId)|
  {
    var p := (i: CartItem) => Selected(sel, i.bookId);
    FilterLengthCountsIndices(items, p);
    var a, b := IndicesWhere(items, p), set i | 0 <= i < |items| && Selected(sel, items[i].bookId);
    forall i | i in a ensures i in b { }
    forall i | i in b ensures i in a { }
    assert a == b;
  }

  lemma TickedCount(items: seq<CartItem>, sel: Sel)
    ensures AllChecked(items, sel) ==> |Ticked(items, sel)| == |items|
    ensures |Ticked(items, sel)| == 0 <==> forall i :: 0 <= i < |items| ==> !Selected(sel, items[i].bookId)
  {
    var t := Ticked(items, sel);
    if AllChecked(items, sel) {
      FilterAll(items, (i: CartItem) => Selected(sel, i.bookId));
    }
    if |t| == 0 {
      assert forall i :: 0 <= i < |items| && Selected(sel, items[i].bookId) ==> items[i] in t;
    } else {
      assert Selected(sel, t[0].bookId);
      SubseqMembers(t, items);
      assert t[0] in items;
    }
  }

  /** A freshly opened, non-empty cart is fully ticked. */
  lemma InitiallyAllChecked(items: seq<CartItem>)
    requires |items| > 0
    ensures AllChecked(items, InitialSel(items)) && Count(items, InitialSel(items)) == |items|
  {
  }

  /** `toggleAll`: every line takes the opposite of `allChecked`. */
  function ToggleAll(items: seq<CartItem>, sel: Sel): (r: Sel)
    ensures forall i :: 0 <= i < |items| ==> Selected(r, items[i].bookId) == !AllChecked(items, sel)
  {
    AllTo(items, !AllChecked(items, sel))
  }

  /** On a non-empty cart, "select all" flips `allChecked`, and a second
      click restores it. */
  lemma ToggleAllFlips(items: seq<CartItem>, sel: Sel)
    requires |items| > 0
    ensures AllChecked(items, ToggleAll(items, sel)) == !AllChecked(items, sel)
    ensures AllChecked(items, ToggleAll(items, ToggleAll(items, sel))) == AllChecked(items, sel)
  {
    var t := ToggleAll(items, sel);
    assert Selected(t, items[0].bookId) == !AllChecked(items, sel);
    var t2 := ToggleAll(items, t);
    assert Selected(t2, items[0].bookId) == !AllChecked(items, t);
  }

  /** `toggle(id)`: only that id's tick flips. */
  function Toggle(sel: Sel, id: string): (r: Sel)
    ensures Selected(r, id) == !Selected(sel, id)
    ensures forall other :: other != id ==> Selected(r, other) == Selected(sel, other)
  {
    sel[id := !Selected(sel, id)]
  }

  /** `proceed`: nothing when no line is ticked; otherwise the ticked ids,
      in cart order, handed to the checkout page. */
  function Proceed(items: seq<CartItem>, sel: Sel): (r: Option<seq<string>>)
    ensures r.None? <==> Count(items, sel) == 0
    ensures r.Some? ==> |r.value| == Count(items, sel)
    ensures r.Some? ==> forall j :: 0 <= j < |r.value| ==> Selected(sel, r.value[j])
    ensures r.Some? ==> forall i :: 0 <= i < |items| && Selected(sel, items[i].bookId) ==> items[i].bookId in r.value
    ensures r.Some? ==> |r.value| == |Ticked(items, sel)|
    ensures r.Some? ==> forall j :: 0 <= j < |r.value| ==> r.value[j] == Ticked(items, sel)[j].bookId
  {
    if Count(items, sel) == 0 then None
    else
      var t := Ticked(items, sel);
      var ids := Map(t, (i: CartItem) => i.bookId);
      TickedIds(items, sel, t, ids);
      Some(ids)
  }

  /** The ids of the ticked lines are ticked, and every ticked line's id is
      among them. */
  lemma TickedIds(items: seq<CartItem>, sel: Sel, t: seq<CartItem>, ids: seq<string>)
    requires forall i :: 0 <= i < |items| && Selected(sel, items[i].bookId) ==> items[i] in t
    requires forall i :: 0 <= i < |t| ==> Selected(sel, t[i].bookId)
    requires |ids| == |t| && forall j :: 0 <= j < |t| ==> ids[j] == t[j].bookId
    ensures forall j :: 0 <= j < |ids| ==> Selected(sel, ids[j])
    ensures forall i :: 0 <= i < |items| && Selected(sel, items[i].bookId) ==> items[i].bookId in ids
  {
    forall i | 0 <= i < |items| && Selected(sel, items[i].bookId)
      ensures items[i].bookId in ids
    {
      var k :| 0 <= k < |t| && t[k] == items[i];
      assert ids[k] == items[i].bookId;
    }
  }
}

=== FILE: cart_slice.dfy ===
/** The cart slice of the Redux store (src/features/cart/cartSlice.ts). */
module CartSlice {
  import opened Wrappers
  import opened Seqs
  import Json

  /** A cart line (src/features/cart/types.ts). `coverUrl` is optional and
      nullable, so it is a possibly-undefined JSON value. */
  datatype CartItem = CartItem(bookId: string, title: string, coverUrl: Json.Value, qty: int)

  datatype CartState = CartState(items: seq<CartItem>)

  const Initial: CartState := CartState([])

  /** The payload of `add`: a cart line whose `qty` may be omitted. */
  datatype AddPayload = AddPayload(bookId: string, title: string, coverUrl: Json.Value, qty: Option<int>)

  predicate HasBook(items: seq<CartItem>, id: string) {
    exists i :: 0 <= i < |items| && items[i].bookId == id
  }

  /** `i` is the position `items.find(i => i.bookId === id)` lands on. */
  predicate IsFirstWith(items: seq<CartItem>, id: string, i: int) {
    0 <= i < |items| && items[i].bookId == id && forall j :: 0 <= j < i ==> items[j].bookId != id
  }

  /** No two lines share a bookId. */
  predicate UniqueIds(items: seq<CartItem>) {
    forall i, j :: 0 <= i < j < |items| ==> items[i].bookId != items[j].bookId
  }

  /** Sum of the quantities of all lines. */
  function TotalQty(items: seq<CartItem>): int {
    if |items| == 0 then 0 else TotalQty(items[..|items| - 1]) + items[|items| - 1].qty
  }

  /** `add`: an existing line for the book gains `qty` (default 1) and keeps
      its title and cover; otherwise a new line is appended. */
  function Add(s: CartState, p: AddPayload): (r: CartState)
    ensures HasBook(s.items, p.bookId) ==>
      |r.items| == |s.items| &&
      forall i :: 0 <= i < |s.items| ==>
        r.items[i] == (if IsFirstWith(s.items, p.bookId, i) then s.items[i].(qty := s.items[i].qty + p.qty.GetOr(1)) else s.items[i])
    ensures !HasBook(s.items, p.bookId) ==>
      r.items == s.items + [CartItem(p.bookId, p.title, p.coverUrl, p.qty.GetOr(1))]
  {
    var qty := p.qty.GetOr(1);
    match FindIndex(s.items, (it: CartItem) => it.bookId == p.bookId)
    case Some(i) => CartState(s.items[i := s.items[i].(qty := s.items[i].qty + qty)])
    case None => CartState(s.items + [CartItem(p.bookId, p.title, p.coverUrl, qty)])
  }

  /** `remove`: drops every line for the book. */
  function Remove(s: CartState, id: string): (r: CartState)
    ensures !HasBook(r.items, id)
    ensures IsSubseq(r.items, s.items)
    ensures forall i :: 0 <= i < |s.items| && s.items[i].bookId != id ==> s.items[i] in r.items
    ensures forall x: CartItem :: x.bookId != id ==> multiset(r.items)[x] == multiset(s.items)[x]
  {
    var r := Filter(s.items, (it: CartItem) => it.bookId != id);
    FilterIsSubseq(s.items, (it: CartItem) => it.bookId != id);
    FilterMultiplicity(s.items, (it: CartItem) => it.bookId != id);
    CartState(r)
  }

  /** `clear`. */
  function Clear(s: CartState): (r: CartState)
    ensures r.items == [] && TotalQty(r.items) == 0
  {
    Initial
  }

  /** `add` never introduces a second line for the same book. */
  lemma AddKeepsUnique(s: CartState, p: AddPayload)
    requires UniqueIds(s.items)
    ensures UniqueIds(Add(s, p).items)
  {
  }

  /** `add` raises the cart's total quantity by exactly the added quantity. */
  lemma AddTotalQty(s: CartState, p: AddPayload)
    ensures TotalQty(Add(s, p).items) == TotalQty(s.items) + p.qty.GetOr(1)
  {
    var q := p.qty.GetOr(1);
    var r := Add(s, p).items;
    if HasBook(s.items, p.bookId) {
      var k := FindIndex(s.items, (it: CartItem) => it.bookId == p.bookId);
      var i := k.value;
      assert r == s.items[i := s.items[i].(qty := s.items[i].qty + q)];
      TotalQtyUpdate(s.items, i, s.items[i].(qty := s.items[i].qty + q));
    } else {
      assert r[..|r| - 1] == s.items;
    }
  }

  lemma {:induction false} TotalQtyUpdate(items: seq<CartItem>, i: int, x: CartItem)
    requires 0 <= i < |items|
    ensures TotalQty(items[i := x]) == TotalQty(items) - items[i].qty + x.qty
    decreases |items|
  {
    var n := |items|;
    var u := items[i := x];
    assert u[..n - 1] == if i == n - 1 then items[..n - 1] else items[..n - 1][i := x];
    if i < n - 1 {
      TotalQtyUpdate(items[..n - 1], i, x);
    }
  }

  /** Removing a book that is not in the cart changes nothing. */
  lemma RemoveAbsent(s: CartState, id: string)
    requires !HasBook(s.items, id)
    ensures Remove(s, id) == s
  {
    FilterAll(s.items, (it: CartItem) => it.bookId != id);
  }

  /** `remove` keeps the lines' bookIds distinct. */
  lemma RemoveKeepsUnique(s: CartState, id: string)
    requires UniqueIds(s.items)
    ensures UniqueIds(Remove(s, id).items)
  {
    var r := Remove(s, id).items;
    SubseqUnique(r, s.items);
  }

  lemma {:induction false} SubseqUnique(a: seq<CartItem>, b: seq<CartItem>)
    requires IsSubseq(a, b) && UniqueIds(b)
    ensures UniqueIds(a)
    decreases |b|
  {
    if |a| > 0 {
      if a[0] == b[0] && IsSubseq(a[1..], b[1..]) {
        SubseqUnique(a[1..], b[1..]);
        SubseqMembers(a[1..], b[1..]);
        forall j | 1 <= j < |a|
          ensures a[0].bookId != a[j].bookId
        {
          assert a[j] == a[1..][j - 1];
          var k :| 0 <= k < |b[1..]| && b[1..][k] == a[j];
          assert b[k + 1] == a[j];
        }
        forall i, j | 0 <= i < j < |a|
          ensures a[i].bookId != a[j].bookId
        {
          if i > 0 {
            assert a[i] == a[1..][i - 1] && a[j] == a[1..][j - 1];
          }
        }
      } else {
        SubseqUnique(a, b[1..]);
      }
    }
  }
}

=== FILE: categories_page.dfy ===
/** The categories page (src/pages/categories/index.tsx): the category
    checkboxes, and the books shown for the ticked categories and the
    minimum rating. */
module CategoriesPage {
  import opened Wrappers
  import opened Json
  import opened Seqs
  import Text
  import BooksService
  import Store
  import UiSlice
  import opened Effects

  /** The ratings the radio buttons offer. */
  const MIN_RATINGS: seq<int> := [0, 1, 2, 3, 4]

  /** The page fetches the first 40 books. */
  const BOOKS_PARAMS := BooksService.BooksParams(None, None, Some(1), Some(40))

  // ----- the category checkboxes -----

  /** The checkbox of the fetched category `c`: ticked when the selection
      holds `c.id` itself, compared strictly, so the string "3" does not
      tick the category whose id is the number 3. Reading `c.id` on `null`
      throws. */
  function Checked(selected: seq<Value>, c: Json): (r: Result<bool, Json>)
    ensures r.Err? <==> c.JNull?
    ensures r.Err? ==> r.error == TypeError
    ensures r.Ok? ==> (r.value <==> exists k :: 0 <= k < |selected| && selected[k] == Prop(Some(c), "id"))
  {
    if c.JNull? then Err(TypeError) else Ok(Prop(Some(c), "id") in selected)
  }

  /** Changing the checkbox: `toggleCategory(c.id)`, with the id exactly as
      fetched. */
  function Tick(c: Json): (r: Result<seq<Effect>, Json>)
    ensures r.Err? <==> c.JNull?
    ensures r.Ok? ==> r.value == [Dispatch(Store.ToggleCategory(Prop(Some(c), "id")))]
  {
    if c.JNull? then Err(TypeError) else Ok([Dispatch(Store.ToggleCategory(Prop(Some(c), "id")))])
  }

  /** Ticking a box flips exactly that box, whatever else is selected. */
  lemma TickFlipsItsBox(s: UiSlice.UiState, c: Json)
    requires !c.JNull?
    ensures var after := UiSlice.ToggleCategory(s, Prop(Some(c), "id"));
      Checked(after.categoryIds, c) == Ok(!Checked(s.categoryIds, c).value)
  {
  }

  /** A category chosen on the home page arrives as the numeral string of
      its id, so its box shows unticked; ticking it adds the number beside
      the string instead of removing the string. */
  lemma StringPreselectedShowsUnticked(c: Json, n: int, q: string)
    requires Prop(Some(c), "id") == Some(JNum(n))
    ensures var s := UiSlice.UiState(q, [Some(JStr(Text.IntToString(n)))]);
      Checked(s.categoryIds, c) == Ok(false) &&
      UiSlice.ToggleCategory(s, Prop(Some(c), "id")).categoryIds == [Some(JStr(Text.IntToString(n))), Some(JNum(n))]
  {
  }

  // ----- the filtered grid -----

  /** The book has one of the selected categories, or nothing is selected.
      A book's category ids are strings, so only a string in the selection
      can match. */
  predicate CategoryHit(b: BooksService.Book, selected: seq<Value>) {
    |selected| == 0 || exists j :: 0 <= j < |b.categories| && Some(JStr(b.categories[j].id)) in selected
  }

  predicate Shown(b: BooksService.Book, selected: seq<Value>, minRating: int) {
    CategoryHit(b, selected) && b.rating >= minRating
  }

  /** `filtered`: the fetched books that pass both tests, in their order,
      each as often as it was fetched; no books while the query has none. */
  function Filtered(items: Option<seq<BooksService.Book>>, selected: seq<Value>, minRating: int): (r: seq<BooksService.Book>)
    ensures items.None? ==> r == []
    ensures IsSubseq(r, items.GetOr([]))
    ensures forall i :: 0 <= i < |r| ==> r[i].rating >= minRating
    ensures forall i :: 0 <= i < |r| ==> CategoryHit(r[i], selected)
    ensures forall i :: 0 <= i < |items.GetOr([])| && Shown(items.GetOr([])[i], selected, minRating) ==>
      items.GetOr([])[i] in r
    ensures forall b :: Shown(b, selected, minRating) ==> multiset(r)[b] == multiset(items.GetOr([]))[b]
  {
    var p := (b: BooksService.Book) => Shown(b, selected, minRating);
    FilterIsSubseq(items.GetOr([]), p);
    FilterMultiplicity(items.GetOr([]), p);
    Filter(items.GetOr([]), p)
  }

  /** Raising the minimum rating never adds a book. */
  lemma RaisingMinRatingShrinks(items: Option<seq<BooksService.Book>>, selected: seq<Value>, lo: int, hi: int)
    requires lo <= hi
    ensures IsSubseq(Filtered(items, selected, hi), Filtered(items, selected, lo))
  {
    FilterMono(items.GetOr([]), (b: BooksService.Book) => Shown(b, selected, hi), (b: BooksService.Book) => Shown(b, selected, lo));
  }

  /** With nothing ticked only the rating matters. */
  lemma EmptySelectionOnlyRating(items: seq<BooksService.Book>, minRating: int)
    ensures Filtered(Some(items), [], minRating) == Filter(items, (b: BooksService.Book) => b.rating >= minRating)
  {
    FilterExt(items, (b: BooksService.Book) => Shown(b, [], minRating), (b: BooksService.Book) => b.rating >= minRating);
  }

  /** Every selected id is a number, as the boxes of this page add them. */
  predicate AllNumbers(selected: seq<Value>) {
    forall k :: 0 <= k < |selected| ==> selected[k].Some? && selected[k].value.JNum?
  }

  /** A non-empty selection of numbers matches no book: the grid is empty. */
  lemma {:induction false} NumericSelectionShowsNothing(items: Option<seq<BooksService.Book>>, selected: seq<Value>, minRating: int)
    requires |selected| > 0 && AllNumbers(selected)
    ensures Filtered(items, selected, minRating) == []
  {
    var s := items.GetOr([]);
    forall i | 0 <= i < |s|
      ensures !CategoryHit(s[i], selected)
    {
      forall j | 0 <= j < |s[i].categories|
        ensures Some(JStr(s[i].categories[j].id)) !in selected
      {
        forall k | 0 <= k < |selected|
          ensures selected[k] != Some(JStr(s[i].categories[j].id))
        {
        }
      }
    }
    FilterNone(s, (b: BooksService.Book) => Shown(b, selected, minRating));
  }

  /** Ticking a box whose id is a number keeps a numbers-only selection
      numbers-only. */
  lemma TickKeepsNumbers(s: UiSlice.UiState, id: Value)
    requires AllNumbers(s.categoryIds) && id.Some? && id.value.JNum?
    ensures AllNumbers(UiSlice.ToggleCategory(s, id).categoryIds)
  {
    var r := UiSlice.ToggleCategory(s, id).categoryIds;
    forall k | 0 <= k < |r|
      ensures r[k].Some? && r[k].value.JNum?
    {
      if r[k] != id {
        assert r[k] in s.categoryIds;
      }
    }
  }

  /** From an empty selection, ticking on this page boxes of categories
      served with numeric ids either leaves nothing selected, so every
      book passing the rating shows, or empties the grid. */
  lemma {:induction false} TicksHereNeverNarrow(s: UiSlice.UiState, ids: seq<Value>, items: Option<seq<BooksService.Book>>, minRating: int)
    requires AllNumbers(s.categoryIds)
    requires forall k :: 0 <= k < |ids| ==> ids[k].Some? && ids[k].value.JNum?
    ensures var after := TickAll(s, ids);
      AllNumbers(after.categoryIds) &&
      (|after.categoryIds| > 0 ==> Filtered(items, after.categoryIds, minRating) == [])
    decreases |ids|
  {
    if |ids| > 0 {
      TickKeepsNumbers(s, ids[0]);
      TicksHereNeverNarrow(UiSlice.ToggleCategory(s, ids[0]), ids[1..], items, minRating);
    } else if |s.categoryIds| > 0 {
      NumericSelectionShowsNothing(items, s.categoryIds, minRating);
    }
  }

  /** The selection after ticking the boxes with ids `ids`, in order. */
  function TickAll(s: UiSlice.UiState, ids: seq<Value>): UiSlice.UiState
    decreases |ids|
  {
    if |ids| == 0 then s else TickAll(UiSlice.ToggleCategory(s, ids[0]), ids[1..])
  }
}

=== FILE: categories_service.dfy ===
/** `fetchCategories` (src/services/categories.ts): the category list is
    found in whichever of three response shapes the server used. */
module CategoriesService {
  import opened Wrappers
  import opened Json

  /** The candidate locations of the list, in the order they are tried. */
  function Candidates(data: Value): seq<Value> {
    [data, Prop(data, "data"), Prop(data, "categories")]
  }

  /** The list is the first candidate that is an array, or empty. */
  function FetchCategories(data: Value): (r: seq<Json>)
    ensures IsArray(data) ==> r == data.value.items
    ensures !IsArray(data) && IsArray(Prop(data, "data")) ==> r == Prop(data, "data").value.items
    ensures !IsArray(data) && !IsArray(Prop(data, "data")) && IsArray(Prop(data, "categories")) ==>
      r == Prop(data, "categories").value.items
    ensures (forall j :: 0 <= j < 3 ==> !IsArray(Candidates(data)[j])) ==> r == []
    ensures r == [] || exists j :: 0 <= j < 3 && IsArray(Candidates(data)[j]) && r == Candidates(data)[j].value.items
  {
    var c := Candidates(data);
    assert c[0] == data && c[1] == Prop(data, "data") && c[2] == Prop(data, "categories");
    if IsArray(data) then data.value.items
    else if IsArray(Prop(data, "data")) then Prop(data, "data").value.items
    else if IsArray(Prop(data, "categories")) then Prop(data, "categories").value.items
    else []
  }

  /** A bare array is returned as it is, whatever else could match. */
  lemma TopLevelArrayWins(items: seq<Json>)
    ensures FetchCategories(Some(JArr(items))) == items
  {
  }
}

=== FILE: checkout_page.dfy ===
/** The checkout page (src/pages/checkout/index.tsx) and the `checkout`
    call it makes (src/services/loans.ts): which cart lines are borrowed,
    the request, the loan duration, and the deliberate clearing of the cart
    before the request. */
module CheckoutPage {
  import opened Wrappers
  import opened Json
  import opened Seqs
  import CartSlice
  import CartPage
  import Store
  import AuthSlice
  import ErrorMessages
  import ApiClient
  import opened Effects

  /** The lines shown: the whole cart when no selection was passed, else
      the lines whose id was selected. An empty selection selects none. */
  function CheckoutItems(cart: seq<CartSlice.CartItem>, selectedIds: Option<seq<string>>): (r: seq<CartSlice.CartItem>)
    ensures selectedIds.None? ==> r == cart
    ensures IsSubseq(r, cart)
    ensures selectedIds.Some? ==> forall i :: 0 <= i < |cart| && cart[i].bookId in selectedIds.value ==> cart[i] in r
    ensures selectedIds.Some? ==> forall i :: 0 <= i < |r| ==> r[i].bookId in selectedIds.value
  {
    var keep := (i: CartSlice.CartItem) => selectedIds.None? || i.bookId in selectedIds.value;
    FilterIsSubseq(cart, keep);
    if selectedIds.None? then FilterAll(cart, keep); Filter(cart, keep)
    else Filter(cart, keep)
  }

  /** The ids "proceed" passes select exactly the lines ticked on the cart
      page. */
  lemma ProceedThenCheckout(cart: seq<CartSlice.CartItem>, sel: CartPage.Sel)
    requires CartPage.Proceed(cart, sel).Some?
    ensures CheckoutItems(cart, CartPage.Proceed(cart, sel)) == CartPage.Ticked(cart, sel)
  {
    var ids := CartPage.Proceed(cart, sel).value;
    var keep := (i: CartSlice.CartItem) => i.bookId in ids;
    var ticked := (i: CartSlice.CartItem) => CartPage.Selected(sel, i.bookId);
    forall i | 0 <= i < |cart|
      ensures keep(cart[i]) == ticked(cart[i])
    {
      if cart[i].bookId in ids {
        var j :| 0 <= j < |ids| && ids[j] == cart[i].bookId;
        assert CartPage.Selected(sel, ids[j]);
      }
    }
    FilterExt(cart, (i: CartSlice.CartItem) => Some(ids).None? || i.bookId in Some(ids).value, ticked);
  }

  /** `{ items: items.map(i => ({ bookId, qty })) }`. */
  function CheckoutBody(items: seq<CartSlice.CartItem>): (r: Json)
    ensures var lines := Prop(Some(r), "items");
      lines.Some? && lines.value.JArr? && |lines.value.items| == |items| &&
      forall i :: 0 <= i < |items| ==>
        lines.value.items[i] == Obj([("bookId", JStr(items[i].bookId)), ("qty", JNum(items[i].qty))])
  {
    JObj(map["items" := JArr(Map(items, (i: CartSlice.CartItem) => Obj([("bookId", JStr(i.bookId)), ("qty", JNum(i.qty))])))])
  }

  /** The durations offered, in days; 3 is preselected. */
  const DURATIONS: seq<int> := [3, 5, 10]
  const DEFAULT_DAYS := 3

  /** The return date, as a day number, for a borrow on `borrowDay`. */
  function ReturnDay(borrowDay: int, days: int): (r: int)
    requires days in DURATIONS
    ensures r - borrowDay == days && borrowDay + 3 <= r <= borrowDay + 10
  {
    borrowDay + days
  }

  /** "Confirm & Borrow" is enabled. */
  predicate ConfirmEnabled(agreeA: bool, agreeB: bool, items: seq<CartSlice.CartItem>, pending: bool) {
    agreeA && agreeB && |items| > 0 && !pending
  }

  /** Pressing "Confirm & Borrow". The cart is cleared first (`onMutate`),
      then the request is sent with the lines computed before the clear;
      `outcome` is its result. Nothing happens while the button is
      disabled. */
  function Confirm(s: Store.RootState, selectedIds: Option<seq<string>>, agreeA: bool, agreeB: bool,
                   pending: bool, outcome: Result<Value, Json>): (r: seq<Effect>)
    ensures !ConfirmEnabled(agreeA, agreeB, CheckoutItems(s.cart.items, selectedIds), pending) ==> r == []
    ensures ConfirmEnabled(agreeA, agreeB, CheckoutItems(s.cart.items, selectedIds), pending) ==>
      |r| >= 3 && r[0] == Dispatch(Store.CartClear) &&
      r[1] == Request("POST", "/loans/checkout", Some(CheckoutBody(CheckoutItems(s.cart.items, selectedIds))))
    ensures ConfirmEnabled(agreeA, agreeB, CheckoutItems(s.cart.items, selectedIds), pending) && outcome.Ok? ==>
      r[2..] == [ToastSuccess("Borrow request submitted"), Invalidate(Key1("loans")), Navigate("/me/loans")]
    ensures ConfirmEnabled(agreeA, agreeB, CheckoutItems(s.cart.items, selectedIds), pending) && outcome.Err? ==>
      r[2..] == Rejected(outcome.error) + [ToastError(ErrorMessages.GetErrorMessage(Some(outcome.error)).GetOr("Checkout failed"))]
  {
    var items := CheckoutItems(s.cart.items, selectedIds);
    if !ConfirmEnabled(agreeA, agreeB, items, pending) then []
    else
      [Dispatch(Store.CartClear), Request("POST", "/loans/checkout", Some(CheckoutBody(items)))] +
      match outcome
      case Ok(_) => [ToastSuccess("Borrow request submitted"), Invalidate(Key1("loans")), Navigate("/me/loans")]
      case Err(e) => Rejected(e) + [ToastError(ErrorMessages.GetErrorMessage(Some(e)).GetOr("Checkout failed"))]
  }

  /** Whatever the outcome, a confirmed checkout empties the whole cart,
      including lines that were not selected, and a failure does not put
      anything back. The filters are untouched, and so is the session
      unless the request fails with a 401, which logs the user out. */
  lemma CheckoutEmptiesCart(s: Store.RootState, selectedIds: Option<seq<string>>, outcome: Result<Value, Json>, c: AuthSlice.Codec)
    requires ConfirmEnabled(true, true, CheckoutItems(s.cart.items, selectedIds), false)
    ensures var after := ApplyToStore(s, Confirm(s, selectedIds, true, true, false, outcome), c);
      after.cart.items == [] && after.ui == s.ui &&
      (outcome.Err? && ApiClient.IsUnauthorized(Some(outcome.error)) ==> after.session.auth == AuthSlice.LoggedOut) &&
      (!(outcome.Err? && ApiClient.IsUnauthorized(Some(outcome.error))) ==> after.session == s.session)
  {
    var r := Confirm(s, selectedIds, true, true, false, outcome);
    var s1 := Store.Dispatch(s, Store.CartClear, c);
    assert r == [Dispatch(Store.CartClear)] + r[1..];
    ApplyFirstDispatch(s, Store.CartClear, r[1..], c);
    match outcome
    case Ok(_) =>
      NoDispatchAfterRequest(r);
      ApplyNoDispatch(s1, r[1..], c);
    case Err(e) =>
      var toast := ToastError(ErrorMessages.GetErrorMessage(Some(e)).GetOr("Checkout failed"));
      SplitAfterFirst(r, Rejected(e) + [toast]);
      assert r[1..] == [r[1]] + Rejected(e) + [toast];
      ApplyRejected(s1, [r[1]], e, [toast], c);
  }

  lemma NoDispatchAfterRequest(r: seq<Effect>)
    requires |r| >= 3 && r[1].Request?
    requires r[2..] == [ToastSuccess("Borrow request submitted"), Invalidate(Key1("loans")), Navigate("/me/loans")]
    ensures forall i :: 0 <= i < |r[1..]| ==> !r[1..][i].Dispatch?
  {
    SplitAfterFirst(r, r[2..]);
  }

  lemma SplitAfterFirst(r: seq<Effect>, tail: seq<Effect>)
    requires |r| >= 2 && r[2..] == tail
    ensures r[1..] == [r[1]] + tail
  {
  }

  /** Exactly one request is made (mutations are not retried). */
  lemma OneRequest(s: Store.RootState, selectedIds: Option<seq<string>>, outcome: Result<Value, Json>)
    requires ConfirmEnabled(true, true, CheckoutItems(s.cart.items, selectedIds), false)
    ensures var r := Confirm(s, selectedIds, true, true, false, outcome);
      forall i :: 0 <= i < |r| && r[i].Request? ==> i == 1
  {
  }
}

=== FILE: cover_image.dfy ===
/** The book cover with local fallbacks (src/components/cover-image.tsx):
    which image is shown first, how a prop change resets it, and how each
    load error advances through the four bundled fallback images. */
module CoverImage {
  import opened Wrappers
  import Text

  const FALLBACKS: seq<string> := ["/image1.png", "/image2.png", "/image3.png", "/image4.png"]
  const DEFAULT_FALLBACK: string := "/image1.png"
  const FALLBACK_COUNT: int := 4

  /** JavaScript's `a % 4`: the remainder takes the sign of `a`. */
  function JsRem4(a: int): (r: int)
    ensures -4 < r < 4
    ensures (a - r) % 4 == 0
    ensures a >= 0 ==> r >= 0
    ensures a < 0 ==> r <= 0
  {
    if a >= 0 then a % 4 else -((-a) % 4)
  }

  /** `((index % 4) + 4) % 4`. */
  function NormalizedIndex(index: int): (r: int)
    ensures 0 <= r < FALLBACK_COUNT
    ensures (index - r) % FALLBACK_COUNT == 0
  {
    var a := JsRem4(index);
    var r := JsRem4(a + FALLBACK_COUNT);
    assert index - a == 4 * ((index - a) / 4);
    assert a + 4 - r == 4 * ((a + 4 - r) / 4);
    assert index - r == 4 * ((index - a) / 4 + (a + 4 - r) / 4 - 1);
    r
  }

  /** `FALLBACKS[i] ?? DEFAULT_FALLBACK`. */
  function FallbackAt(i: int): (r: string)
    ensures 0 <= i < |FALLBACKS| ==> r == FALLBACKS[i]
  {
    if 0 <= i < |FALLBACKS| then FALLBACKS[i] else DEFAULT_FALLBACK
  }

  /** `typeof src === "string" && src.trim().length > 0`. */
  predicate UsableSrc(src: Option<string>) {
    src.Some? && |Text.Trim(src.value)| > 0
  }

  /** The component's state: the fallback index and the image shown. */
  datatype CoverState = CoverState(fbIdx: int, current: string)

  /** The state on first render; `index` defaults to 0. */
  function Initial(src: Option<string>, index: Option<int>): (r: CoverState)
    ensures r.fbIdx == NormalizedIndex(index.GetOr(0))
    ensures UsableSrc(src) ==> r.current == src.value
    ensures !UsableSrc(src) ==> r.current == FALLBACKS[r.fbIdx]
  {
    var ni := NormalizedIndex(index.GetOr(0));
    CoverState(ni, if UsableSrc(src) then src.value else FallbackAt(ni))
  }

  /** A render with new props `src` and `index` after one with `prevSrc`
      and `prevIndex`. The effect depends on `src` and on the normalized
      index only (`fallbackForIndex` follows from the latter), so it reruns
      exactly when one of those two changes, and then starts over as on
      first render whatever the old state was; otherwise the state, with
      the fallbacks its load errors reached, stays. */
  function OnPropsChange(s: CoverState, prevSrc: Option<string>, prevIndex: Option<int>,
                         src: Option<string>, index: Option<int>): (r: CoverState)
    ensures src == prevSrc && NormalizedIndex(index.GetOr(0)) == NormalizedIndex(prevIndex.GetOr(0)) ==> r == s
    ensures src != prevSrc || NormalizedIndex(index.GetOr(0)) != NormalizedIndex(prevIndex.GetOr(0)) ==>
      r == Initial(src, index)
  {
    var nextIdx := NormalizedIndex(index.GetOr(0));
    if src == prevSrc && nextIdx == NormalizedIndex(prevIndex.GetOr(0)) then s
    else if UsableSrc(src) then CoverState(nextIdx, src.value)
    else CoverState(nextIdx, FallbackAt(nextIdx))
  }

  /** Moving the index by a whole turn of the four fallbacks, say from 0 to
      4, with the same source, reruns nothing: the fallback that load
      errors reached stays on screen. */
  lemma SameNormalizedIndexKeepsState(s: CoverState, src: Option<string>, i: int)
    ensures OnPropsChange(s, src, Some(i), src, Some(i + FALLBACK_COUNT)) == s
  {
    var a := NormalizedIndex(i);
    var b := NormalizedIndex(i + FALLBACK_COUNT);
    SameResidue(i, i + FALLBACK_COUNT, a, b);
  }

  /** Two numbers a multiple of four apart leave the same remainder. */
  lemma SameResidue(x: int, y: int, a: int, b: int)
    requires 0 <= a < 4 && 0 <= b < 4
    requires (x - a) % 4 == 0 && (y - b) % 4 == 0 && y == x + 4
    ensures a == b
  {
    var q1, q2 := (x - a) / 4, (y - b) / 4;
    assert x - a == 4 * q1;
    assert y - b == 4 * q2;
    assert a - b == 4 * (q2 - q1 - 1);
  }

  /** A new source always starts over, whatever load errors came before:
      the result does not depend on the old state. */
  lemma NewSrcForgetsErrors(s: CoverState, t: CoverState, prevSrc: Option<string>, prevIndex: Option<int>,
                            src: Option<string>, index: Option<int>)
    requires src != prevSrc
    ensures OnPropsChange(s, prevSrc, prevIndex, src, index) == OnPropsChange(t, prevSrc, prevIndex, src, index)
  {
  }

  /** The fallback index always names one of the four fallbacks. */
  predicate Valid(s: CoverState) { 0 <= s.fbIdx < FALLBACK_COUNT }

  /** `handleError`: move to the next fallback, unless it is already the
      image shown. */
  function HandleError(s: CoverState): (r: CoverState)
    ensures Valid(s) ==> Valid(r)
    ensures Valid(s) ==> r.fbIdx == (s.fbIdx + 1) % FALLBACK_COUNT || r == s
    ensures r != s ==> r.current != s.current && r.current in FALLBACKS
    ensures Valid(s) && s.current != FALLBACKS[(s.fbIdx + 1) % FALLBACK_COUNT] ==>
      r == CoverState((s.fbIdx + 1) % FALLBACK_COUNT, FALLBACKS[(s.fbIdx + 1) % FALLBACK_COUNT])
    ensures s.current == FallbackAt(JsRem4(s.fbIdx + 1)) ==> r == s
  {
    var nextIdx := JsRem4(s.fbIdx + 1);
    var nextSrc := FallbackAt(nextIdx);
    if s.current != nextSrc then CoverState(nextIdx, nextSrc) else s
  }

  lemma ValidPreserved(s: CoverState, prevSrc: Option<string>, prevIndex: Option<int>, src: Option<string>, index: Option<int>)
    requires Valid(s)
    ensures Valid(Initial(src, index)) && Valid(OnPropsChange(s, prevSrc, prevIndex, src, index)) && Valid(HandleError(s))
  {
    var i := Initial(src, index);
    assert Valid(i) by { assert i.fbIdx == NormalizedIndex(index.GetOr(0)); }
    var r := OnPropsChange(s, prevSrc, prevIndex, src, index);
    assert r == s || r == i;
  }

  /** `n` load errors in a row. */
  function Errors(s: CoverState, n: nat): CoverState
    decreases n
  {
    if n == 0 then s else Errors(HandleError(s), n - 1)
  }

  /** The four fallbacks are different images. */
  lemma FallbacksDistinct(i: int, j: int)
    requires 0 <= i < 4 && 0 <= j < 4 && i != j
    ensures FALLBACKS[i] != FALLBACKS[j]
  {
    assert forall k :: 0 <= k < 4 ==> FALLBACKS[k][6] == "1234"[k];
  }

  /** While a fallback is shown, an error shows the next one. */
  lemma ErrorOnFallback(i: int)
    requires 0 <= i < FALLBACK_COUNT
    ensures HandleError(CoverState(i, FALLBACKS[i])) == CoverState((i + 1) % 4, FALLBACKS[(i + 1) % 4])
  {
    FallbacksDistinct(i, (i + 1) % 4);
  }

  /** Four errors in a row from a fallback come back to where they started. */
  lemma ErrorsCycle(i: int)
    requires 0 <= i < FALLBACK_COUNT
    ensures Errors(CoverState(i, FALLBACKS[i]), 4) == CoverState(i, FALLBACKS[i])
  {
    ErrorOnFallback(0);
    ErrorOnFallback(1);
    ErrorOnFallback(2);
    ErrorOnFallback(3);
    var s0, s1, s2, s3 := CoverState(0, FALLBACKS[0]), CoverState(1, FALLBACKS[1]), CoverState(2, FALLBACKS[2]), CoverState(3, FALLBACKS[3]);
    if i == 0 { CycleOfFour(s0, s1, s2, s3); }
    else if i == 1 { CycleOfFour(s1, s2, s3, s0); }
    else if i == 2 { CycleOfFour(s2, s3, s0, s1); }
    else { CycleOfFour(s3, s0, s1, s2); }
  }

  /** Four states each of whose errors leads to the next, round in a ring. */
  lemma CycleOfFour(a: CoverState, b: CoverState, c: CoverState, d: CoverState)
    requires HandleError(a) == b && HandleError(b) == c && HandleError(c) == d && HandleError(d) == a
    ensures Errors(a, 4) == a
  {
    ErrorsStep(a, b, 4);
    ErrorsStep(b, c, 3);
    ErrorsStep(c, d, 2);
    ErrorsStep(d, a, 1);
  }

  lemma ErrorsStep(s: CoverState, t: CoverState, n: nat)
    requires n > 0 && HandleError(s) == t
    ensures Errors(s, n) == Errors(t, n - 1)
  {
  }

  /** A state whose image already is the next fallback never changes again,
      however many load errors it raises. */
  lemma {:induction false} ErrorsStuck(s: CoverState, n: nat)
    requires s.current == FallbackAt(JsRem4(s.fbIdx + 1))
    ensures Errors(s, n) == s
  {
    if n > 0 {
      assert HandleError(s) == s;
      ErrorsStep(s, s, n);
      ErrorsStuck(s, n - 1);
    }
  }

  /** A book whose own cover URL is the second fallback, "/image2.png",
      shown at index 0, is such a state: if that image fails to load, it
      is never replaced. */
  lemma StuckExample(src: string, n: nat)
    requires src == FALLBACKS[1]
    ensures Initial(Some(src), None) == CoverState(0, src)
    ensures Errors(CoverState(0, src), n) == CoverState(0, src)
  {
    assert src[0] == '/' by { assert FALLBACKS[1][0] == '/'; }
    SlashPathUsable(src);
    SmallIndices();
    var s := CoverState(0, src);
    assert FallbackAt(1) == src;
    assert s.current == FallbackAt(JsRem4(s.fbIdx + 1));
    ErrorsStuck(s, n);
  }

  lemma SmallIndices()
    ensures NormalizedIndex(0) == 0 && JsRem4(0 + 1) == 1
  {
    assert JsRem4(0) == 0 % 4 == 0;
    assert JsRem4(4) == 4 % 4 == 0;
    assert JsRem4(1) == 1 % 4 == 1;
  }

  /** A path starting with "/" is a usable source. */
  lemma SlashPathUsable(src: string)
    requires |src| > 0 && src[0] == '/'
    ensures UsableSrc(Some(src))
  {
    assert !Text.IsBlank(src) by {
      assert !Text.IsJsSpace(src[0]);
    }
  }
}

=== FILE: dashboard.dfy ===
/** The borrowed-books tab of the admin dashboard
    (src/pages/admin/dashboard.tsx, `BorrowedListTab`): which request each
    status filter makes, how the loan list and its total are read out of
    whichever response shape arrives, the title search, the status text,
    and returning a book. */
module Dashboard {
  import opened Wrappers
  import opened Json
  import Seqs
  import Text
  import QueryCache
  import ErrorMessages
  import AdminService
  import LoansPage
  import opened Effects

  datatype StatusFilter = All | Active | Returned | Overdue | Overview

  /** The buttons, in the order shown. */
  const FILTERS: seq<StatusFilter> := [All, Active, Returned, Overdue, Overview]

  const PAGE_SIZE := 10

  function FilterName(f: StatusFilter): string {
    match f
    case All => "All"
    case Active => "Active"
    case Returned => "Returned"
    case Overdue => "Overdue"
    case Overview => "Overview"
  }

  /** `statusMap[activeFilter] ?? undefined`. */
  function StatusParam(f: StatusFilter): Option<string> {
    match f
    case Active => Some("BORROWED")
    case Returned => Some("RETURNED")
    case _ => None
  }

  /** The request behind the list: the overdue endpoint, or the loans
      listing with an optional status. */
  datatype LoansRequest =
    | OverdueRequest(path: string)
    | LoansListRequest(page: int, limit: int, status: Option<string>)

  /** The query's request; `None` when the query is disabled. */
  function LoansQuery(f: StatusFilter, page: int): (r: Option<LoansRequest>)
    ensures r.None? <==> f == Overview
    ensures f == Overdue ==> r == Some(OverdueRequest(AdminService.OverdueLoansPath(Some(page), Some(PAGE_SIZE))))
    ensures f == All ==> r == Some(LoansListRequest(page, PAGE_SIZE, None))
    ensures f == Active ==> r == Some(LoansListRequest(page, PAGE_SIZE, Some("BORROWED")))
    ensures f == Returned ==> r == Some(LoansListRequest(page, PAGE_SIZE, Some("RETURNED")))
  {
    if f == Overview then None
    else if f == Overdue then Some(OverdueRequest(AdminService.OverdueLoansPath(Some(page), Some(PAGE_SIZE))))
    else Some(LoansListRequest(page, PAGE_SIZE, StatusParam(f)))
  }

  /** `["admin-loans", page, activeFilter]`. */
  function QueryKey(f: StatusFilter, page: int): QueryCache.Key {
    [QueryCache.Str("admin-loans"), QueryCache.Num(page), QueryCache.Str(FilterName(f))]
  }

  datatype TabState = TabState(search: string, filter: StatusFilter, page: int)

  const Initial := TabState("", All, 1)

  /** Clicking a filter button: a different filter goes back to page 1. */
  function SelectFilter(s: TabState, f: StatusFilter): (r: TabState)
    ensures r.filter == f && r.search == s.search
    ensures f != s.filter ==> r.page == 1
    ensures f == s.filter ==> r == s
  {
    if f == s.filter then s else s.(filter := f, page := 1)
  }

  /** `loans`: the `overdue` list, else the `loans` list, else none. The
      `in` test throws on a truthy value that is not an object. */
  function LoansOf(data: Value): (r: Result<Json, Json>)
    ensures r.Err? <==> Truthy(data) && !IsObject(data)
    ensures r.Err? ==> r.error == TypeError
    ensures !Truthy(data) ==> r == Ok(JArr([]))
    ensures IsObject(data) && HasKey(data, "overdue") ==> r == Ok(Coalesce(Prop(data, "overdue"), Some(JArr([]))).value)
    ensures IsObject(data) && !HasKey(data, "overdue") && HasKey(data, "loans") ==>
      r == Ok(Coalesce(Prop(data, "loans"), Some(JArr([]))).value)
    ensures IsObject(data) && !HasKey(data, "overdue") && !HasKey(data, "loans") ==> r == Ok(JArr([]))
  {
    if !Truthy(data) then Ok(JArr([]))
    else if !IsObject(data) then Err(TypeError)
    else if HasKey(data, "overdue") then Ok(Coalesce(Prop(data, "overdue"), Some(JArr([]))).value)
    else if HasKey(data, "loans") then Ok(Coalesce(Prop(data, "loans"), Some(JArr([]))).value)
    else Ok(JArr([]))
  }

  /** `filteredLoans`, as rendered with `.map`: the whole list for an empty
      search, else the loans whose title contains the search ignoring case.
      A list that is not an array, or a title that is not a string, throws. */
  function FilteredLoans(loans: Json, search: string): (r: Result<seq<Json>, Json>)
    ensures r.Err? ==> r.error == TypeError
    ensures !loans.JArr? ==> r.Err?
    ensures loans.JArr? && search == "" ==> r == Ok(loans.items)
    ensures loans.JArr? && search != "" ==>
      (r.Ok? <==> forall i :: 0 <= i < |loans.items| ==> IsString(LoansPage.Title(loans.items[i])))
    ensures r.Ok? ==> Seqs.IsSubseq(r.value, loans.items)
    ensures r.Ok? && search != "" ==> forall i :: 0 <= i < |r.value| ==>
      IsString(LoansPage.Title(r.value[i])) && LoansPage.TitleMatches(search, r.value[i])
    ensures r.Ok? && search != "" ==> forall i :: 0 <= i < |loans.items| ==>
      LoansPage.TitleMatches(search, loans.items[i]) ==> loans.items[i] in r.value
  {
    if !loans.JArr? then Err(TypeError)
    else if search == "" then Seqs.SubseqRefl(loans.items); Ok(loans.items)
    else
      var p := (l: Json) => IsString(LoansPage.Title(l)) && LoansPage.TitleMatches(search, l);
      match Seqs.FilterChecked(loans.items, (l: Json) => !IsString(LoansPage.Title(l)), p)
      case None => Err(TypeError)
      case Some(kept) => Seqs.FilterIsSubseq(loans.items, p); Ok(kept)
  }

  /** `a * b` for a number `a` and a value `b` converted by `Number`. */
  function Times(a: int, b: Num): Num {
    if b.NaN? then NaN else Int(a * b.v)
  }

  /** `totalItems`: the first of `total`, `pagination.totalItems`,
      `pagination.total` and `pagination.totalPages × (limit ?? perPage ??
      10)` that is a number, else the number of loans. As in `LoansOf`, the
      `in` test throws on a truthy non-object. */
  function TotalItems(data: Value, loansCount: nat): (r: Result<Num, Json>)
    ensures r.Err? <==> Truthy(data) && !IsObject(data)
    ensures !Truthy(data) ==> r == Ok(Int(loansCount))
    ensures IsObject(data) && IsNumber(Prop(data, "total")) ==> r == Ok(Int(Prop(data, "total").value.n))
    ensures IsObject(data) && !IsNumber(Prop(data, "total")) && !Truthy(Prop(data, "pagination")) ==>
      r == Ok(Int(loansCount))
    ensures IsObject(data) && !IsNumber(Prop(data, "total")) && Truthy(Prop(data, "pagination")) ==>
      var meta := Prop(data, "pagination");
      r == Ok(
        if IsNumber(Prop(meta, "totalItems")) then Int(Prop(meta, "totalItems").value.n)
        else if IsNumber(Prop(meta, "total")) then Int(Prop(meta, "total").value.n)
        else if IsNumber(Prop(meta, "totalPages")) then
          Times(Prop(meta, "totalPages").value.n, NumberOr(Coalesce(Prop(meta, "limit"), Prop(meta, "perPage")), PAGE_SIZE))
        else Int(loansCount))
  {
    if !Truthy(data) then Ok(Int(loansCount))
    else if !IsObject(data) then Err(TypeError)
    else if IsNumber(Prop(data, "total")) then Ok(Int(Prop(data, "total").value.n))
    else if HasKey(data, "pagination") && Truthy(Prop(data, "pagination")) then
      var meta := Prop(data, "pagination");
      if IsNumber(Prop(meta, "totalItems")) then Ok(Int(Prop(meta, "totalItems").value.n))
      else if IsNumber(Prop(meta, "total")) then Ok(Int(Prop(meta, "total").value.n))
      else if IsNumber(Prop(meta, "totalPages")) then
        Ok(Times(Prop(meta, "totalPages").value.n, NumberOr(Coalesce(Prop(meta, "limit"), Prop(meta, "perPage")), PAGE_SIZE)))
      else Ok(Int(loansCount))
    else Ok(Int(loansCount))
  }

  /** A page count with no page size reported is taken at 10 a page. */
  lemma TotalFromPageCount(pages: int, n: nat)
    ensures TotalItems(Some(JObj(map["pagination" := JObj(map["totalPages" := JNum(pages)])])), n) == Ok(Int(10 * pages))
  {
    var meta := JObj(map["totalPages" := JNum(pages)]);
    var data := Some(JObj(map["pagination" := meta]));
    assert Prop(data, "pagination") == Some(meta);
    assert Prop(Some(meta), "totalItems") == None && Prop(Some(meta), "total") == None;
  }

  /** `formatStatus`: "Unknown" for a missing or empty status, else the
      status with its first letter upper-case and the rest lower-case. */
  function FormatStatus(status: Option<string>): (r: string)
    ensures status.None? || status.value == "" ==> r == "Unknown"
    ensures status.Some? && status.value != "" ==>
      |r| == |status.value| && r[0] == Text.UpperChar(Text.LowerChar(status.value[0])) &&
      forall i :: 1 <= i < |r| ==> r[i] == Text.LowerChar(status.value[i])
  {
    if status.None? || status.value == "" then "Unknown"
    else
      var lower := Text.ToLower(status.value);
      [Text.UpperChar(lower[0])] + lower[1..]
  }

  /** Formatting a formatted status changes nothing. */
  lemma FormatStatusIdempotent(s: string)
    requires s != ""
    ensures FormatStatus(Some(FormatStatus(Some(s)))) == FormatStatus(Some(s))
  {
    var once := FormatStatus(Some(s));
    var twice := FormatStatus(Some(once));
    assert |twice| == |once|;
    forall i | 0 <= i < |once|
      ensures twice[i] == once[i]
    {
    }
  }

  lemma FormatOverdue()
    ensures FormatStatus(Some("OVERDUE")) == "Overdue"
  {
  }

  /** The dialog for returning a book. */
  datatype ReturnDialog = ReturnDialog(open: bool, selected: Value)

  /** Confirming the return of loan `loanId`; `outcome` is the result of
      `PATCH /admin/loans/{id}`. */
  function ReturnLoan(d: ReturnDialog, loanId: Json, outcome: Result<Value, Json>): (r: (seq<Effect>, ReturnDialog))
    ensures |r.0| >= 2 && r.0[0] == Request("PATCH", "/admin/loans/" + JsonToStr(loanId), Some(Obj([("status", JStr("RETURNED"))])))
    ensures outcome.Ok? ==>
      r.0[1..] == [ToastSuccess("Book successfully returned"), Invalidate(Key1("admin-loans"))] &&
      r.1 == ReturnDialog(false, None)
    ensures outcome.Err? ==>
      r.0[1..] == Rejected(outcome.error) + [ToastError(ErrorMessages.GetErrorMessage(Some(outcome.error)).GetOr("Failed to return book"))] &&
      r.1 == d
  {
    var req := Request("PATCH", "/admin/loans/" + JsonToStr(loanId), Some(Obj([("status", JStr("RETURNED"))])));
    match outcome
    case Ok(_) => ([req, ToastSuccess("Book successfully returned"), Invalidate(Key1("admin-loans"))], ReturnDialog(false, None))
    case Err(e) => ([req] + Rejected(e) + [ToastError(ErrorMessages.GetErrorMessage(Some(e)).GetOr("Failed to return book"))], d)
  }

  /** A successful return marks every cached page of every filter stale,
      and keeps the data they hold until they are fetched again. */
  lemma ReturnRefreshesEveryPage<V>(cache: QueryCache.Cache<V>, d: ReturnDialog, loanId: Json, body: Value,
                                    f: StatusFilter, page: int)
    requires QueryKey(f, page) in cache
    ensures var after := ApplyToCache(cache, ReturnLoan(d, loanId, Ok(body)).0);
      after[QueryKey(f, page)].stale && after[QueryKey(f, page)].data == cache[QueryKey(f, page)].data
  {
    var es := ReturnLoan(d, loanId, Ok(body)).0;
    assert es[2] == Invalidate(Key1("admin-loans"));
    assert QueryCache.IsPrefix(Key1("admin-loans"), QueryKey(f, page));
  }
}

=== FILE: edit_book.dfy ===
/** The admin "Edit Book" page (src/pages/admin/edit-book.tsx): filling
    the form from the fetched detail, validation, the update payload, the
    update request with its single ISBN-conflict retry, the cover file
    checks, and the inline "Add New Author" dialog. */
module EditBook {
  import opened Wrappers
  import opened Json
  import Text
  import QueryCache
  import BooksService
  import BookDetail
  import ErrorMessages
  import Store
  import AuthSlice
  import ApiClient
  import opened Effects

  /** A numeric form field: `''` or a number (`useState<number | ''>`). */
  datatype NumField = Blank | Number(n: Num)

  /** The field is truthy: a number other than 0 and NaN. */
  predicate FieldTruthy(f: NumField) {
    f.Number? && NumTruthy(f.n)
  }

  /** `Number(f)`: `Number('')` is 0. */
  function FieldNumber(f: NumField): (r: Num)
    ensures f.Blank? ==> r == Int(0)
    ensures f.Number? ==> r == f.n
  {
    match f
    case Blank => Int(0)
    case Number(n) => n
  }

  /** The keys of the form's error record, one per required field. */
  datatype Field = Title | Description | Isbn | PublishedYear | AuthorId | CategoryId | TotalCopies | CoverImage

  /** The form's state. `description` and `cover` hold whatever the
      fetched detail had, which need not be a string; `authorName` is
      whatever the created author's record had. */
  datatype EditForm = EditForm(
    title: string, description: Json, isbn: string, publishedYear: NumField,
    authorId: string, authorName: Value, categoryId: string, totalCopies: NumField,
    preview: Option<Json>, cover: Json, errors: map<Field, string>)

  /** The state before the detail arrives. */
  const INITIAL: EditForm := EditForm(
    "", JStr(""), "", Blank, "", Some(JStr("")), "", Number(Int(1)), None, JStr(""), map[])

  /** The category choices of the select: (id, name). */
  const CATEGORIES: seq<(int, string)> := [
    (1, "Science"), (3, "Finance"), (4, "Self-Improvement"), (9, "Fiction"), (11, "Non-Fiction"), (14, "Education")
  ]

  // ----- filling the form -----

  /** `String(book.categoryId || book.categories?.[0]?.id || "")`: the
      mapped detail has no `categoryId`, so the first category decides. */
  function FirstCategoryId(b: BooksService.Book): (r: string)
    ensures |b.categories| == 0 ==> r == ""
    ensures |b.categories| > 0 ==> r == b.categories[0].id
  {
    if |b.categories| > 0 && b.categories[0].id != "" then b.categories[0].id else ""
  }

  /** The effect that copies a fetched detail into the form. The mapped
      detail carries `author.id`, `categories` and `coverUrl` but no
      `authorId`, `categoryId` or `coverImage`, so the fallbacks always
      decide; the errors are kept. */
  function Populate(f: EditForm, d: BooksService.DetailResult): (r: EditForm)
    ensures r.title == d.detail.book.title && r.isbn == d.detail.isbn.GetOr("")
    ensures r.description == Or(d.detail.book.description, Some(JStr(""))).value
    ensures d.detail.publishedYear.Some? && d.detail.publishedYear.value != 0 ==>
      r.publishedYear == Number(Int(d.detail.publishedYear.value))
    ensures d.detail.publishedYear.None? || d.detail.publishedYear.value == 0 ==> r.publishedYear == Blank
    ensures r.authorId == d.detail.book.authorId
    ensures r.categoryId == FirstCategoryId(d.detail.book)
    ensures NumTruthy(d.detail.totalCopies) ==> r.totalCopies == Number(d.detail.totalCopies)
    ensures !NumTruthy(d.detail.totalCopies) ==> r.totalCopies == Number(Int(1))
    ensures Truthy(Some(d.detail.book.coverUrl)) ==>
      r.cover == d.detail.book.coverUrl && r.preview == Some(d.detail.book.coverUrl)
    ensures !Truthy(Some(d.detail.book.coverUrl)) ==> r.cover == JStr("") && r.preview.None?
    ensures r.errors == f.errors
  {
    var b := d.detail.book;
    var year := d.detail.publishedYear;
    var cover := if Truthy(Some(b.coverUrl)) then b.coverUrl else JStr("");
    EditForm(
      b.title,
      Or(b.description, Some(JStr(""))).value,
      d.detail.isbn.GetOr(""),
      if year.Some? && year.value != 0 then Number(Int(year.value)) else Blank,
      b.authorId,
      Some(JStr(b.authorName)),
      FirstCategoryId(b),
      Number(if NumTruthy(d.detail.totalCopies) then d.detail.totalCopies else Int(1)),
      if Truthy(Some(cover)) then Some(cover) else None,
      cover,
      f.errors)
  }

  /** The "Number of Pages" input is bound to `publishedYear`: typing
      into it sets the year (`''` when cleared). */
  function TypePages(f: EditForm, text: string): (r: EditForm)
    ensures text == "" ==> r.publishedYear == Blank
    ensures text != "" ==> r.publishedYear == Number(StringToNumber(text))
    ensures r.(publishedYear := f.publishedYear) == f
  {
    f.(publishedYear := if text != "" then Number(StringToNumber(text)) else Blank)
  }

  // ----- validation -----

  /** `field` is missing, as `validate` tests it: title, description and
      ISBN empty once trimmed; year, copies and cover falsy; author and
      category ids empty (they are not trimmed). */
  predicate Missing(f: EditForm, field: Field)
    requires f.description.JStr?
  {
    match field
    case Title => Text.Trim(f.title) == ""
    case Description => Text.Trim(f.description.s) == ""
    case Isbn => Text.Trim(f.isbn) == ""
    case PublishedYear => !FieldTruthy(f.publishedYear)
    case AuthorId => f.authorId == ""
    case CategoryId => f.categoryId == ""
    case TotalCopies => !FieldTruthy(f.totalCopies)
    case CoverImage => !Truthy(Some(f.cover))
  }

  /** The message shown under a missing field. */
  function Message(field: Field): string {
    match field
    case Title => "Title is required"
    case Description => "Description is required"
    case Isbn => "ISBN is required"
    case PublishedYear => "Published year is required"
    case AuthorId => "Author is required"
    case CategoryId => "Category is required"
    case TotalCopies => "Total copies is required"
    case CoverImage => "Cover image is required"
  }

  /** Every required field is filled: title, description and ISBN hold a
      non-space character, the numbers are non-zero, the cover is truthy
      and the ids are non-empty. */
  predicate Complete(f: EditForm) {
    !Text.IsBlank(f.title) && f.description.JStr? && !Text.IsBlank(f.description.s) &&
    !Text.IsBlank(f.isbn) && FieldTruthy(f.publishedYear) && f.authorId != "" && f.categoryId != "" &&
    FieldTruthy(f.totalCopies) && Truthy(Some(f.cover))
  }

  const FIELDS: set<Field> := {Title, Description, Isbn, PublishedYear, AuthorId, CategoryId, TotalCopies, CoverImage}

  /** `validate()` checks all eight fields of the form. */
  lemma EveryFieldChecked()
    ensures forall field: Field :: field in FIELDS
  {
    forall field: Field ensures field in FIELDS {
      match field
      case Title => case Description => case Isbn => case PublishedYear =>
      case AuthorId => case CategoryId => case TotalCopies => case CoverImage =>
    }
  }

  /** `validate()`: the message for every missing field. A field is
      missing when `!value.trim()` (title, description, ISBN) or `!value`
      (the rest) holds; `description.trim()` throws when the description
      is not a string. */
  function Validate(f: EditForm): (r: Result<map<Field, string>, Json>)
    ensures r.Err? <==> !f.description.JStr?
    ensures r.Err? ==> r.error == TypeError
    ensures r.Ok? ==> forall field :: field in r.value <==> Missing(f, field)
    ensures r.Ok? ==> forall field :: field in r.value ==> r.value[field] == Message(field)
  {
    if !f.description.JStr? then Err(TypeError)
    else
      EveryFieldChecked();
      Ok(map field | field in FIELDS && Missing(f, field) :: Message(field))
  }

  /** Validation passes exactly on a complete form. */
  lemma ValidateIffComplete(f: EditForm)
    ensures Validate(f) == Ok(map[]) <==> Complete(f)
  {
    if Complete(f) {
      assert forall field :: !Missing(f, field);
    } else if f.description.JStr? {
      var m := Validate(f).value;
      var field :=
        if Text.IsBlank(f.title) then Title
        else if Text.IsBlank(f.description.s) then Description
        else if Text.IsBlank(f.isbn) then Isbn
        else if !FieldTruthy(f.publishedYear) then PublishedYear
        else if f.authorId == "" then AuthorId
        else if f.categoryId == "" then CategoryId
        else if !FieldTruthy(f.totalCopies) then TotalCopies
        else CoverImage;
      assert Missing(f, field);
      assert field in m;
    }
  }

  /** A form filled from a book without a category never validates. */
  lemma UncategorisedBookFailsValidation(f: EditForm, d: BooksService.DetailResult)
    requires |d.detail.book.categories| == 0
    requires Validate(Populate(f, d)).Ok?
    ensures Validate(Populate(f, d)).value[CategoryId] == "Category is required"
  {
  }

  // ----- the update -----

  /** The body `handleSave` sends, field by field. */
  datatype BookPayload = BookPayload(
    title: string, description: string, isbn: string, publishedYear: int, coverImage: Json,
    authorId: Json, categoryId: Json, totalCopies: int, availableCopies: int)

  /** The payload as the JSON object sent. */
  function PayloadJson(p: BookPayload): Json {
    JObj(map[
      "title" := JStr(p.title),
      "description" := JStr(p.description),
      "isbn" := JStr(p.isbn),
      "publishedYear" := JNum(p.publishedYear),
      "coverImage" := p.coverImage,
      "authorId" := p.authorId,
      "categoryId" := p.categoryId,
      "totalCopies" := JNum(p.totalCopies),
      "availableCopies" := JNum(p.availableCopies)])
  }

  /** The payload of a validated form: the three texts trimmed, a falsy
      year sent as 2024 and falsy copies as 1, the cover as held, the ids
      converted with `Number`, and the available copies equal to the
      total. */
  function Payload(f: EditForm): (r: BookPayload)
    requires f.description.JStr?
    ensures r.title == Text.Trim(f.title) && r.description == Text.Trim(f.description.s) && r.isbn == Text.Trim(f.isbn)
    ensures FieldTruthy(f.publishedYear) ==> r.publishedYear == f.publishedYear.n.v
    ensures !FieldTruthy(f.publishedYear) ==> r.publishedYear == 2024
    ensures r.coverImage == f.cover
    ensures r.authorId == NumToJson(StringToNumber(f.authorId))
    ensures r.categoryId == NumToJson(StringToNumber(f.categoryId))
    ensures FieldTruthy(f.totalCopies) ==> r.totalCopies == f.totalCopies.n.v
    ensures !FieldTruthy(f.totalCopies) ==> r.totalCopies == 1
    ensures r.availableCopies == r.totalCopies
  {
    var copies := NumberOrDefault(FieldNumber(f.totalCopies), 1);
    BookPayload(
      Text.Trim(f.title), Text.Trim(f.description.s), Text.Trim(f.isbn),
      NumberOrDefault(FieldNumber(f.publishedYear), 2024), f.cover,
      NumToJson(StringToNumber(f.authorId)), NumToJson(StringToNumber(f.categoryId)),
      copies, copies)
  }

  /** For a complete form the year and copy fallbacks never apply: the
      numbers typed are sent. */
  lemma CompletePayloadKeepsNumbers(f: EditForm)
    requires Complete(f)
    ensures Payload(f).publishedYear == f.publishedYear.n.v
    ensures Payload(f).totalCopies == f.totalCopies.n.v && Payload(f).availableCopies == f.totalCopies.n.v
  {
  }

  /** The author id is checked without trimming, so an id of only spaces
      passes validation and is sent as author 0. */
  lemma SpaceAuthorIdSentAsZero(f: EditForm)
    requires f.authorId != "" && Text.IsBlank(f.authorId)
    ensures Validate(f).Ok? ==> AuthorId !in Validate(f).value
    ensures f.description.JStr? ==> Payload(f).authorId == JNum(0)
  {
    assert Text.Trim(f.authorId) == [];
    assert StringToNumber(f.authorId) == Int(0);
    if Validate(f).Ok? {
      assert !Missing(f, AuthorId);
    }
  }

  /** The error `updateBook` retries once: an axios error whose response
      has status 409 and a string message mentioning "ISBN". */
  predicate IsIsbnConflict(e: Json) {
    Prop(Some(e), "isAxiosError") == Some(JBool(true)) &&
    Prop(Prop(Some(e), "response"), "status") == Some(JNum(409)) &&
    IsString(ErrorMessages.ResponseMessage(Some(e))) &&
    Text.Contains(ErrorMessages.ResponseMessage(Some(e)).value.s, "ISBN")
  }

  /** The retry body: the payload with `forceUpdate: true`. */
  function ForceBody(payload: Json): (r: Json)
    ensures Prop(Some(r), "forceUpdate") == Some(JBool(true))
    ensures forall k :: k != "forceUpdate" ==> Prop(Some(r), k) == Prop(Some(payload), k)
  {
    JObj(SpreadFields(Some(payload))["forceUpdate" := JBool(true)])
  }

  /** What a settled update does: toast, refresh the detail and the admin
      list, go back to the admin page; or, once the response interceptor
      has seen the failure (a 401 logs out), show the error. */
  function Settled(id: string, outcome: Result<Value, Json>): (r: seq<Effect>)
    ensures outcome.Ok? ==> r == [ToastSuccess("Book updated successfully"), Invalidate(BookDetail.DetailKey(id)),
                                  Invalidate(Key1("admin-books")), Navigate("/admin")]
    ensures outcome.Err? ==>
      r == Rejected(outcome.error) + [ToastError(ErrorMessages.GetErrorMessage(Some(outcome.error)).GetOr("Failed to update book"))]
  {
    match outcome
    case Ok(_) => [ToastSuccess("Book updated successfully"), Invalidate(BookDetail.DetailKey(id)),
                   Invalidate(Key1("admin-books")), Navigate("/admin")]
    case Err(e) => Rejected(e) + [ToastError(ErrorMessages.GetErrorMessage(Some(e)).GetOr("Failed to update book"))]
  }

  /** `PUT /books/{id}` with the payload; `first` is how it settles and
      `second` how the retry settles, if one is made. The interceptor also
      sees a conflict that is retried, but a 409 is not a 401, so it does
      nothing there. */
  function UpdateBook(id: string, payload: Json, first: Result<Value, Json>, second: Result<Value, Json>): (r: seq<Effect>)
    ensures |r| >= 2 && r[0] == Request("PUT", "/books/" + id, Some(payload))
    ensures first.Ok? ==> r[1..] == Settled(id, first)
    ensures first.Err? && !IsIsbnConflict(first.error) ==> r[1..] == Settled(id, first)
    ensures first.Err? && IsIsbnConflict(first.error) ==>
      r[1] == Request("PUT", "/books/" + id, Some(ForceBody(payload))) && r[2..] == Settled(id, second)
  {
    var put := Request("PUT", "/books/" + id, Some(payload));
    match first
    case Ok(_) => [put] + Settled(id, first)
    case Err(e) =>
      if IsIsbnConflict(e) then [put, Request("PUT", "/books/" + id, Some(ForceBody(payload)))] + Settled(id, second)
      else [put] + Settled(id, first)
  }

  /** The number of requests among the effects. */
  function Requests(es: seq<Effect>): (n: nat)
    ensures n <= |es|
  {
    if |es| == 0 then 0 else (if es[0].Request? then 1 else 0) + Requests(es[1..])
  }

  lemma {:induction false} RequestsAppend(a: seq<Effect>, b: seq<Effect>)
    ensures Requests(a + b) == Requests(a) + Requests(b)
  {
    if |a| == 0 {
      assert a + b == b;
    } else {
      assert (a + b)[1..] == a[1..] + b;
      RequestsAppend(a[1..], b);
    }
  }

  lemma {:induction false} RequestsNone(es: seq<Effect>)
    requires forall i :: 0 <= i < |es| ==> !es[i].Request?
    ensures Requests(es) == 0
  {
    if |es| > 0 {
      RequestsNone(es[1..]);
    }
  }

  /** The update is sent twice exactly when the first attempt fails with
      an ISBN conflict, and never more than twice. */
  lemma AtMostOneRetry(id: string, payload: Json, first: Result<Value, Json>, second: Result<Value, Json>)
    ensures var n := Requests(UpdateBook(id, payload, first, second));
      1 <= n <= 2 && (n == 2 <==> first.Err? && IsIsbnConflict(first.error))
  {
    var put := Request("PUT", "/books/" + id, Some(payload));
    var force := Request("PUT", "/books/" + id, Some(ForceBody(payload)));
    var o := if first.Err? && IsIsbnConflict(first.error) then second else first;
    var s := Settled(id, o);
    RequestsNone(s);
    assert Requests([put]) == 1;
    if first.Err? && IsIsbnConflict(first.error) {
      assert UpdateBook(id, payload, first, second) == [put, force] + s;
      assert Requests([put, force]) == 2;
      RequestsAppend([put, force], s);
    } else {
      assert UpdateBook(id, payload, first, second) == [put] + s;
      RequestsAppend([put], s);
    }
  }

  /** A conflict that is not about the ISBN, or a non-axios error, shows
      its message at once. */
  lemma OtherConflictNotRetried(id: string, payload: Json, e: Json, second: Result<Value, Json>)
    requires !IsIsbnConflict(e)
    ensures UpdateBook(id, payload, Err(e), second) ==
      [Request("PUT", "/books/" + id, Some(payload))] + Rejected(e) +
      [ToastError(ErrorMessages.GetErrorMessage(Some(e)).GetOr("Failed to update book"))]
  {
  }

  /** An update the server refuses with a 401 is not retried, and the
      interceptor logs the user out before the error is shown; nothing
      else in the store changes. */
  lemma UnauthorizedUpdateLogsOut(s: Store.RootState, id: string, payload: Json, e: Json, second: Result<Value, Json>, c: AuthSlice.Codec)
    requires ApiClient.IsUnauthorized(Some(e))
    ensures var after := ApplyToStore(s, UpdateBook(id, payload, Err(e), second), c);
      after.session.auth == AuthSlice.LoggedOut && after.cart == s.cart && after.ui == s.ui
  {
    assert !IsIsbnConflict(e);
    var toast := ToastError(ErrorMessages.GetErrorMessage(Some(e)).GetOr("Failed to update book"));
    assert UpdateBook(id, payload, Err(e), second) == [Request("PUT", "/books/" + id, Some(payload))] + Rejected(e) + [toast];
    ApplyRejected(s, [Request("PUT", "/books/" + id, Some(payload))], e, [toast], c);
  }

  /** Pressing Save: `Err` when validation throws; otherwise the errors
      found are shown, and the update is sent only when there are none. */
  function Save(f: EditForm, id: string, pending: bool, first: Result<Value, Json>, second: Result<Value, Json>):
    (r: Result<(seq<Effect>, EditForm), Json>)
    ensures pending ==> r == Ok(([], f))
    ensures !pending ==> (r.Err? <==> Validate(f).Err?)
    ensures !pending && r.Ok? ==> r.value.1 == f.(errors := Validate(f).value)
    ensures !pending && r.Ok? && Validate(f).value != map[] ==> r.value.0 == []
    ensures !pending && r.Ok? && Validate(f).value == map[] ==> r.value.0 == UpdateBook(id, PayloadJson(Payload(f)), first, second)
  {
    if pending then Ok(([], f))
    else match Validate(f)
      case Err(e) => Err(e)
      case Ok(errs) =>
        var g := f.(errors := errs);
        if errs != map[] then Ok(([], g)) else Ok((UpdateBook(id, PayloadJson(Payload(f)), first, second), g))
  }

  /** A complete form passes validation, clears the shown errors and sends
      its payload. */
  lemma CompleteFormIsSent(f: EditForm, id: string, first: Result<Value, Json>, second: Result<Value, Json>)
    requires Complete(f)
    ensures Save(f, id, false, first, second) == Ok((UpdateBook(id, PayloadJson(Payload(f)), first, second), f.(errors := map[])))
  {
    ValidateIffComplete(f);
  }

  /** A successful update (first try or retry) marks the book's cached
      detail stale, so its page refetches. */
  lemma UpdateRefetchesDetail<V>(cache: QueryCache.Cache<V>, id: string, payload: Json, first: Result<Value, Json>, second: Result<Value, Json>)
    requires BookDetail.DetailKey(id) in cache
    requires first.Ok? || (IsIsbnConflict(first.error) && second.Ok?)
    ensures ApplyToCache(cache, UpdateBook(id, payload, first, second))[BookDetail.DetailKey(id)].stale
  {
    var es := UpdateBook(id, payload, first, second);
    var key := BookDetail.DetailKey(id);
    assert QueryCache.IsPrefix(key, key);
    var i := if first.Ok? then 2 else 3;
    assert es[i] == Invalidate(key);
  }

  /** Saving a complete form that the server accepts refreshes the book's
      detail page. */
  lemma SavedBookDetailRefetches<V>(cache: QueryCache.Cache<V>, f: EditForm, id: string, first: Result<Value, Json>, second: Result<Value, Json>)
    requires Complete(f) && BookDetail.DetailKey(id) in cache
    requires first.Ok? || (IsIsbnConflict(first.error) && second.Ok?)
    ensures Save(f, id, false, first, second).Ok?
    ensures ApplyToCache(cache, Save(f, id, false, first, second).value.0)[BookDetail.DetailKey(id)].stale
  {
    CompleteFormIsSent(f, id, first, second);
    UpdateRefetchesDetail(cache, id, PayloadJson(Payload(f)), first, second);
  }

  // ----- the cover image -----

  /** The selected file's MIME type and size in bytes. */
  datatype FileInfo = FileInfo(mime: string, size: int)

  const MAX_FILE_SIZE: int := 5 * 1024 * 1024

  /** `/^image\/(jpeg|png|webp)$/i`. */
  predicate AcceptedType(mime: string) {
    Text.ToLower(mime) in {"image/jpeg", "image/png", "image/webp"}
  }

  /** `handleFileChange`: `file` is the selection (`None` when cleared)
      and `compressed` how compressing it settles. A wrong type or an
      oversized file is refused with a toast and changes nothing; a
      compressed image becomes the cover and clears its error. */
  function HandleFileChange(f: EditForm, file: Option<FileInfo>, compressed: Result<string, Json>): (r: (seq<Effect>, EditForm))
    ensures file.None? ==> r == ([], f.(preview := None, cover := JStr("")))
    ensures file.Some? && !AcceptedType(file.value.mime) ==> r == ([ToastError("Please select a JPG/PNG/WebP image.")], f)
    ensures file.Some? && AcceptedType(file.value.mime) && file.value.size > MAX_FILE_SIZE ==>
      r == ([ToastError("File size must be less than 5MB")], f)
    ensures file.Some? && AcceptedType(file.value.mime) && file.value.size <= MAX_FILE_SIZE && compressed.Ok? ==>
      r.0 == [] && r.1.cover == JStr(compressed.value) && r.1.preview == Some(JStr(compressed.value)) &&
      r.1.errors == f.errors - {CoverImage} && r.1.(cover := f.cover, preview := f.preview, errors := f.errors) == f
    ensures file.Some? && AcceptedType(file.value.mime) && file.value.size <= MAX_FILE_SIZE && compressed.Err? ==>
      r == ([ToastError(ErrorMessages.GetErrorMessage(Some(compressed.error)).GetOr("Failed to load image"))], f)
  {
    match file
    case None => ([], f.(preview := None, cover := JStr("")))
    case Some(fi) =>
      if !AcceptedType(fi.mime) then ([ToastError("Please select a JPG/PNG/WebP image.")], f)
      else if fi.size > MAX_FILE_SIZE then ([ToastError("File size must be less than 5MB")], f)
      else match compressed
        case Ok(url) => ([], f.(cover := JStr(url), errors := f.errors - {CoverImage}, preview := Some(JStr(url))))
        case Err(e) => ([ToastError(ErrorMessages.GetErrorMessage(Some(e)).GetOr("Failed to load image"))], f)
  }

  /** The type test ignores case: an upper-case "IMAGE/PNG" is accepted. */
  lemma UpperCaseTypeAccepted()
    ensures AcceptedType("IMAGE/PNG")
  {
    assert Text.ToLower("IMAGE/PNG") == "image/png";
  }

  /** `handleRemoveImage`: no preview, no cover. */
  function RemoveImage(f: EditForm): (r: EditForm)
    ensures r.preview.None? && !Truthy(Some(r.cover))
    ensures r.(preview := f.preview, cover := f.cover) == f
  {
    f.(preview := None, cover := JStr(""))
  }

  /** After the image is removed, saving reports the missing cover. */
  lemma RemovedImageFailsValidation(f: EditForm)
    requires Validate(RemoveImage(f)).Ok?
    ensures Validate(RemoveImage(f)).value[CoverImage] == "Cover image is required"
  {
  }

  // ----- the "Add New Author" dialog -----

  datatype AuthorDialog = AuthorDialog(open: bool, name: string, bio: string)

  /** Pressing Create: a blank name is refused; otherwise `POST /authors`
      is sent with the name and bio as typed. On success the success toast
      comes first and the created author is then read from `data.data`;
      when that is missing the read throws and the mutation reports the
      failure as well. */
  function CreateAuthor(f: EditForm, d: AuthorDialog, outcome: Result<Value, Json>): (r: (seq<Effect>, EditForm, AuthorDialog))
    ensures Text.IsBlank(d.name) ==> r == ([ToastError("Author name is required")], f, d)
    ensures !Text.IsBlank(d.name) ==>
      |r.0| >= 2 && r.0[0] == Request("POST", "/authors", Some(Obj([("name", JStr(d.name)), ("bio", JStr(d.bio))])))
    ensures !Text.IsBlank(d.name) && outcome.Ok? && !IsNullish(Prop(outcome.value, "data")) ==>
      var a := Prop(outcome.value, "data");
      r.0[1..] == [ToastSuccess("Author created successfully")] &&
      r.1 == f.(authorId := ToStr(Prop(a, "id")), authorName := Prop(a, "name")) &&
      r.2 == AuthorDialog(false, "", "")
    ensures !Text.IsBlank(d.name) && outcome.Ok? && IsNullish(Prop(outcome.value, "data")) ==>
      r.0[1..] == [ToastSuccess("Author created successfully"), ToastError("Failed to create author")] &&
      r.1 == f && r.2 == d
    ensures !Text.IsBlank(d.name) && outcome.Err? ==>
      r.0[1..] == Rejected(outcome.error) + [ToastError(ErrorMessages.GetErrorMessage(Some(outcome.error)).GetOr("Failed to create author"))] &&
      r.1 == f && r.2 == d
  {
    if Text.Trim(d.name) == "" then ([ToastError("Author name is required")], f, d)
    else
      var post := Request("POST", "/authors", Some(Obj([("name", JStr(d.name)), ("bio", JStr(d.bio))])));
      match outcome
      case Err(e) =>
        var rest := Rejected(e) + [ToastError(ErrorMessages.GetErrorMessage(Some(e)).GetOr("Failed to create author"))];
        assert ([post] + rest)[1..] == rest;
        ([post] + rest, f, d)
      case Ok(body) =>
        var a := Prop(body, "data");
        if IsNullish(a) then
          ErrorMessages.ClientErrorsHaveNoMessage("");
          ([post, ToastSuccess("Author created successfully"), ToastError("Failed to create author")], f, d)
        else
          ([post, ToastSuccess("Author created successfully")],
           f.(authorId := ToStr(Prop(a, "id")), authorName := Prop(a, "name")), AuthorDialog(false, "", ""))
  }

  /** The record `{ data: { id: n, name } }` a successful author creation
      answers with. */
  function CreatedBody(n: int, name: Json): Value {
    Some(Obj([("data", Obj([("id", JNum(n)), ("name", name)]))]))
  }

  lemma CreatedBodyFields(n: int, name: Json)
    ensures Prop(CreatedBody(n, name), "data") == Some(Obj([("id", JNum(n)), ("name", name)]))
    ensures Prop(Prop(CreatedBody(n, name), "data"), "id") == Some(JNum(n))
  {
    var e := [("id", JNum(n)), ("name", name)];
    assert e[..1] == [("id", JNum(n))];
    assert e[..1][..0] == [];
    assert FieldsOf(e[..1]) == map["id" := JNum(n)];
    assert FieldsOf(e) == map["id" := JNum(n)]["name" := name];
    assert |"id"| == 2 && |"name"| == 4;
    var b := [("data", Obj(e))];
    assert b[..0] == [];
    assert FieldsOf(b) == map["data" := Obj(e)];
  }

  /** A created author with a numeric id fills the author field so that
      it passes validation and is sent as that number. */
  lemma CreatedAuthorIsSent(f: EditForm, d: AuthorDialog, n: int, name: Json)
    requires !Text.IsBlank(d.name) && f.description.JStr?
    ensures var g := CreateAuthor(f, d, Ok(CreatedBody(n, name))).1;
      g.authorId != "" && Payload(g).authorId == JNum(n)
  {
    CreatedBodyFields(n, name);
    var g := CreateAuthor(f, d, Ok(CreatedBody(n, name))).1;
    assert g.authorId == ToStr(Some(JNum(n)));
    assert ToStr(Some(JNum(n))) == Text.IntToString(n);
    NumberOfNumeral(n);
  }
}

=== FILE: effects.dfy ===
/** The observable effects of the client's event handlers: store
    dispatches, HTTP requests, query invalidations, navigation and toasts.
    A handler is modelled as a function from its inputs (including the
    outcome of the request it makes) to the list of effects it performs, in
    order. */
module Effects {
  import Json
  import QueryCache
  import Store
  import AuthSlice
  import ApiClient
  import Wrappers

  datatype Effect =
    | Dispatch(action: Store.Action)
    | Request(verb: string, path: string, body: Json.Value)
    | Invalidate(prefix: QueryCache.Key)
    | Navigate(path: string)
    | ToastSuccess(message: string)
    | ToastError(message: string)

  /** A one-atom query key such as `["loans"]`. */
  function Key1(name: string): QueryCache.Key {
    [QueryCache.Str(name)]
  }

  /** The actions among the effects, in order. */
  function Actions(es: seq<Effect>): (r: seq<Store.Action>)
    ensures |r| <= |es|
    ensures forall i :: 0 <= i < |es| && es[i].Dispatch? ==> es[i].action in r
    ensures forall a :: a in r ==> Dispatch(a) in es
  {
    if |es| == 0 then []
    else (if es[0].Dispatch? then [es[0].action] else []) + Actions(es[1..])
  }

  /** The actions of two effect lists run one after the other. */
  lemma {:induction false} ActionsAppend(a: seq<Effect>, b: seq<Effect>)
    ensures Actions(a + b) == Actions(a) + Actions(b)
  {
    if |a| == 0 {
      assert a + b == b;
    } else {
      assert (a + b)[0] == a[0];
      assert (a + b)[1..] == a[1..] + b;
      ActionsAppend(a[1..], b);
    }
  }

  /** A handler that dispatches nothing has no actions. */
  lemma {:induction false} ActionsNone(es: seq<Effect>)
    requires forall i :: 0 <= i < |es| ==> !es[i].Dispatch?
    ensures Actions(es) == []
  {
    if |es| > 0 {
      ActionsNone(es[1..]);
    }
  }

  /** A handler whose only dispatch is `a` leaves the store as dispatching
      `a` does. */
  lemma ApplyOneDispatch(s: Store.RootState, pre: seq<Effect>, a: Store.Action, post: seq<Effect>, c: AuthSlice.Codec)
    requires forall i :: 0 <= i < |pre| ==> !pre[i].Dispatch?
    requires forall i :: 0 <= i < |post| ==> !post[i].Dispatch?
    ensures ApplyToStore(s, pre + [Dispatch(a)] + post, c) == Store.Dispatch(s, a, c)
  {
    ActionsAppend(pre + [Dispatch(a)], post);
    ActionsAppend(pre, [Dispatch(a)]);
    ActionsNone(pre);
    ActionsNone(post);
    assert Actions([Dispatch(a)]) == [a];
    assert Actions(pre + [Dispatch(a)] + post) == [a];
    assert Store.DispatchAll(s, [a], c) == Store.DispatchAll(Store.Dispatch(s, a, c), [], c);
  }

  /** Dispatches run in order: a handler that starts with a dispatch
      continues from the store that dispatch leaves. */
  lemma ApplyFirstDispatch(s: Store.RootState, a: Store.Action, rest: seq<Effect>, c: AuthSlice.Codec)
    ensures ApplyToStore(s, [Dispatch(a)] + rest, c) == ApplyToStore(Store.Dispatch(s, a, c), rest, c)
  {
    assert ([Dispatch(a)] + rest)[1..] == rest;
    assert Actions([Dispatch(a)] + rest) == [a] + Actions(rest);
    assert ([a] + Actions(rest))[1..] == Actions(rest);
  }

  /** A handler that dispatches nothing leaves the store alone. */
  lemma ApplyNoDispatch(s: Store.RootState, es: seq<Effect>, c: AuthSlice.Codec)
    requires forall i :: 0 <= i < |es| ==> !es[i].Dispatch?
    ensures ApplyToStore(s, es, c) == s
  {
    ActionsNone(es);
  }

  /** The response interceptor's part in a failed request, between the
      failure and the caller's own error handling: a 401 dispatches
      `logout()`, any other error passes through without effect. */
  function Rejected(err: Json.Json): (r: seq<Effect>)
    ensures |r| <= 1
    ensures forall i :: 0 <= i < |r| ==> r[i] == Dispatch(Store.Logout)
    ensures r != [] <==> ApiClient.IsUnauthorized(Wrappers.Some(err))
  {
    if ApiClient.IsUnauthorized(Wrappers.Some(err)) then [Dispatch(Store.Logout)] else []
  }

  /** A failure handled without dispatches of its own leaves the store as
      the response interceptor leaves it: logged out after a 401, and
      untouched otherwise. */
  lemma ApplyRejected(s: Store.RootState, pre: seq<Effect>, err: Json.Json, post: seq<Effect>, c: AuthSlice.Codec)
    requires forall i :: 0 <= i < |pre| ==> !pre[i].Dispatch?
    requires forall i :: 0 <= i < |post| ==> !post[i].Dispatch?
    ensures ApplyToStore(s, pre + Rejected(err) + post, c) == ApiClient.OnResponseError(s, Wrappers.Some(err), c).0
  {
    if ApiClient.IsUnauthorized(Wrappers.Some(err)) {
      ApplyOneDispatch(s, pre, Store.Logout, post, c);
    } else {
      assert pre + Rejected(err) + post == pre + post;
      ApplyNoDispatch(s, pre + post, c);
    }
  }

  /** The interceptor's part invalidates nothing. */
  lemma NoInvalidateAround(es: seq<Effect>, pre: seq<Effect>, err: Json.Json, post: seq<Effect>)
    requires forall i :: 0 <= i < |pre| ==> !pre[i].Invalidate?
    requires forall i :: 0 <= i < |post| ==> !post[i].Invalidate?
    requires es == pre + Rejected(err) + post
    ensures forall i :: 0 <= i < |es| ==> !es[i].Invalidate?
  {
  }

  /** The store after a handler's dispatches. */
  function ApplyToStore(s: Store.RootState, es: seq<Effect>, c: AuthSlice.Codec): Store.RootState {
    Store.DispatchAll(s, Actions(es), c)
  }

  /** The query cache after a handler's invalidations. */
  function ApplyToCache<V>(cache: QueryCache.Cache<V>, es: seq<Effect>): (r: QueryCache.Cache<V>)
    ensures r.Keys == cache.Keys
    ensures forall k :: k in cache ==> r[k].data == cache[k].data
    ensures forall k :: k in cache && cache[k].stale ==> r[k].stale
    ensures forall i, k :: 0 <= i < |es| && es[i].Invalidate? && k in cache && QueryCache.IsPrefix(es[i].prefix, k) ==> r[k].stale
    ensures forall k :: k in cache && (forall i :: 0 <= i < |es| && es[i].Invalidate? ==> !QueryCache.IsPrefix(es[i].prefix, k)) ==>
      r[k] == cache[k]
    decreases |es|
  {
    if |es| == 0 then cache
    else
      var c1 := if es[0].Invalidate? then QueryCache.Invalidate(cache, es[0].prefix) else cache;
      var r := ApplyToCache(c1, es[1..]);
      assert forall i :: 1 <= i < |es| ==> es[i] == es[1..][i - 1];
      r
  }

  /** Effects that invalidate nothing leave the cache as it was. */
  lemma ApplyNoInvalidate<V>(cache: QueryCache.Cache<V>, es: seq<Effect>)
    requires forall i :: 0 <= i < |es| ==> !es[i].Invalidate?
    ensures ApplyToCache(cache, es) == cache
  {
    var r := ApplyToCache(cache, es);
    assert forall k :: k in cache ==> r[k] == cache[k];
  }
}

=== FILE: enrichment.dfy ===
/** The per-item author enrichment shared by `myLoans`
    (src/services/loans.ts:42-64) and `getUserReviews`
    (src/services/reviews.ts:33-55): for each item, the book it refers to is
    fetched and its author copied into `item.book.author`. The fetches run
    concurrently in the source; here they run one after another. */
module AuthorEnrichment {
  import opened Wrappers
  import opened Json
  import Seqs

  /** The author used when the book has none or cannot be fetched. */
  const UNKNOWN_AUTHOR: Json := JObj(map["id" := JNum(0), "name" := JStr("Unknown Author")])

  /** The outcome of `api.get(path)`: the response body, or the error it
      rejected with. */
  type Fetch = string -> Result<Value, Json>

  /** `/books/${item.bookId}`. */
  function BookPath(item: Json): string {
    "/books/" + ToStr(Prop(Some(item), "bookId"))
  }

  /** `bookData?.author || UNKNOWN_AUTHOR`, or `UNKNOWN_AUTHOR` when the
      fetch failed. */
  function AuthorFor(item: Json, fetch: Fetch): (r: Json)
    ensures fetch(BookPath(item)).Err? ==> r == UNKNOWN_AUTHOR
    ensures fetch(BookPath(item)).Ok? ==>
      var a := Prop(Prop(fetch(BookPath(item)).value, "data"), "author");
      r == (if Truthy(a) then a.value else UNKNOWN_AUTHOR)
  {
    match fetch(BookPath(item))
    case Err(_) => UNKNOWN_AUTHOR
    case Ok(body) =>
      var a := Prop(Prop(body, "data"), "author");
      if Truthy(a) then a.value else UNKNOWN_AUTHOR
  }

  /** `{ ...item, book: { ...item.book, author } }`; reading `item.book` on
      `null` throws. */
  function EnrichOne(item: Json, fetch: Fetch): (r: Result<Json, Json>)
    ensures r.Err? <==> item.JNull?
    ensures r.Ok? ==> r.value.JObj?
    ensures r.Ok? ==> forall k :: k != "book" ==> Prop(Some(r.value), k) == Prop(Some(item), k)
    ensures r.Ok? ==> Prop(Prop(Some(r.value), "book"), "author") == Some(AuthorFor(item, fetch))
    ensures r.Ok? ==> forall k :: k != "author" ==>
      Prop(Prop(Some(r.value), "book"), k) == Prop(Prop(Some(item), "book"), k)
  {
    if item.JNull? then Err(TypeError)
    else
      var book := JObj(SpreadFields(Prop(Some(item), "book"))["author" := AuthorFor(item, fetch)]);
      Ok(JObj(SpreadFields(Some(item))["book" := book]))
  }

  /** `Promise.all(items.map(enrich))`: fails if any item fails. */
  function EnrichAll(items: seq<Json>, fetch: Fetch): (r: Result<seq<Json>, Json>)
    ensures r.Ok? <==> forall i :: 0 <= i < |items| ==> !items[i].JNull?
    ensures r.Ok? ==> |r.value| == |items|
    ensures r.Ok? ==> forall i :: 0 <= i < |items| ==> EnrichOne(items[i], fetch) == Ok(r.value[i])
    ensures r.Err? ==> r.error == TypeError
  {
    if |items| == 0 then Ok([])
    else match EnrichOne(items[0], fetch)
      case Err(e) => Err(e)
      case Ok(x) =>
        match EnrichAll(items[1..], fetch)
        case Err(e) => Err(e)
        case Ok(rest) =>
          Seqs.OkCons(items, (item: Json) => EnrichOne(item, fetch), x, rest);
          Ok([x] + rest)
  }
}

=== FILE: errors.dfy ===
/** Extracting a server-provided message from a thrown error
    (src/lib/errors.ts). */
module ErrorMessages {
  import opened Wrappers
  import opened Json

  /** The message at `e.response.data.message`, if any. */
  function ResponseMessage(e: Value): Value {
    Prop(Prop(Prop(e, "response"), "data"), "message")
  }

  /** `getErrorMessage(e)`: the string at `response.data.message` of an
      object, and `undefined` for anything else. */
  function GetErrorMessage(e: Value): (r: Option<string>)
    ensures !IsObject(e) ==> r.None?
    ensures r.Some? <==> IsObject(e) && IsString(ResponseMessage(e))
    ensures r.Some? ==> ResponseMessage(e) == Some(JStr(r.value))
  {
    if !IsObject(e) then None
    else match ResponseMessage(e)
      case Some(JStr(m)) => Some(m)
      case _ => None
  }

  /** An axios-style error carrying a server message yields that message,
      unchanged. */
  lemma ServerMessageRoundTrip(m: string, status: Json)
    ensures GetErrorMessage(Some(Obj([("response", Obj([("status", status), ("data", Obj([("message", JStr(m))]))]))]))) == Some(m)
  {
    var data := Obj([("message", JStr(m))]);
    var resp := Obj([("status", status), ("data", data)]);
    var e := Obj([("response", resp)]);
    assert Prop(Some(data), "message") == Some(JStr(m));
    assert Prop(Some(resp), "data") == Some(data);
    assert Prop(Some(e), "response") == Some(resp);
  }

  /** An error thrown by the client itself (`new Error(...)`) or a
      `TypeError` has no server message. */
  lemma ClientErrorsHaveNoMessage(m: string)
    ensures GetErrorMessage(Some(JsError(m))) == None
    ensures GetErrorMessage(Some(TypeError)) == None
  {
    assert Prop(Some(JsError(m)), "response") == None;
    assert Prop(Some(TypeError), "response") == None;
  }
}

=== FILE: guards.dfy ===
/** The route guard `RequireAuth` (src/app/guards.tsx) and the role the
    router asks of the admin pages (src/app/router.tsx). */
module Guards {
  import opened Wrappers
  import opened Json
  import AuthSlice
  import UsersService

  datatype Decision = Render | Redirect(to: string)

  /** The role string the router passes for `/admin` and `/admin/add-book`.
      It is lower-case, while the server's roles are "USER" and "ADMIN". */
  const ADMIN_ROUTE_ROLE := "admin"

  /** A token and a user are both present (truthy). */
  predicate SignedIn(auth: AuthSlice.AuthState) {
    auth.token.Some? && auth.token.value != "" && Truthy(Some(auth.user))
  }

  /** `user.role === role`. */
  predicate HasRole(auth: AuthSlice.AuthState, role: string) {
    Prop(Some(auth.user), "role") == Some(JStr(role))
  }

  /** `RequireAuth`: sign-in is checked first, then the role, by exact
      string equality, when one is required. */
  function RequireAuth(auth: AuthSlice.AuthState, role: Option<string>): (r: Decision)
    ensures r == Redirect("/login") <==> !SignedIn(auth)
    ensures r == Redirect("/") <==> SignedIn(auth) && role.Some? && role.value != "" && !HasRole(auth, role.value)
    ensures r == Render <==> SignedIn(auth) && (role.None? || role.value == "" || HasRole(auth, role.value))
  {
    if !SignedIn(auth) then Redirect("/login")
    else if role.Some? && role.value != "" && !HasRole(auth, role.value) then Redirect("/")
    else Render
  }

  /** Nobody whose role is one the server hands out gets past the admin
      routes' guard: "ADMIN" is not "admin". */
  lemma AdminRoutesTurnAwayEveryRole(auth: AuthSlice.AuthState)
    requires UsersService.IsRole(Prop(Some(auth.user), "role"))
    ensures RequireAuth(auth, Some(ADMIN_ROUTE_ROLE)) != Render
  {
  }

  /** Without a session the user is sent to the login page whatever role
      the route asks for. */
  lemma SignInCheckedFirst(auth: AuthSlice.AuthState, role: Option<string>)
    requires !SignedIn(auth)
    ensures RequireAuth(auth, role) == Redirect("/login")
  {
  }
}

=== FILE: js_map.dfy ===
/** JavaScript's `Map` as the client uses it for de-duplication: an
    association list in insertion order with distinct keys, where `set` on a
    present key replaces the value in place and `set` on a new key
    appends. */
module JsMap {
  import opened Wrappers

  type Entries<K, V> = seq<(K, V)>

  /** The position of the first pair with key `k`, or `|pairs|` when there
      is none. */
  function FirstIdx<K(==), V>(pairs: seq<(K, V)>, k: K): (r: int)
    ensures 0 <= r <= |pairs|
    ensures r < |pairs| ==> pairs[r].0 == k
    ensures forall j :: 0 <= j < r ==> pairs[j].0 != k
  {
    if |pairs| == 0 then 0
    else if pairs[0].0 == k then 0
    else
      var r := 1 + FirstIdx(pairs[1..], k);
      assert forall j :: 1 <= j < r ==> pairs[j] == pairs[1..][j - 1];
      r
  }

  /** Some pair has key `k` (`m.has(k)`). */
  predicate Has<K(==), V>(pairs: seq<(K, V)>, k: K) {
    FirstIdx(pairs, k) < |pairs|
  }

  predicate DistinctKeys<K(==), V>(e: Entries<K, V>) {
    forall i, j :: 0 <= i < j < |e| ==> e[i].0 != e[j].0
  }

  /** `m.get(k)`. */
  function Get<K(==), V>(e: Entries<K, V>, k: K): (r: Option<V>)
    ensures r.Some? <==> Has(e, k)
  {
    if Has(e, k) then Some(e[FirstIdx(e, k)].1) else None
  }

  /** `m.set(k, v)`. */
  function Set<K(==), V>(e: Entries<K, V>, k: K, v: V): (r: Entries<K, V>)
    requires DistinctKeys(e)
    ensures DistinctKeys(r)
    ensures Has(e, k) ==>
      |r| == |e| && (forall i :: 0 <= i < |e| ==> r[i].0 == e[i].0) &&
      r[FirstIdx(e, k)] == (k, v) && forall i :: 0 <= i < |e| && i != FirstIdx(e, k) ==> r[i] == e[i]
    ensures !Has(e, k) ==> r == e + [(k, v)]
  {
    if Has(e, k) then e[FirstIdx(e, k) := (k, v)] else e + [(k, v)]
  }

  lemma {:induction false} FirstIdxSnoc<K, V>(q: seq<(K, V)>, x: (K, V), k: K)
    ensures FirstIdx(q + [x], k) ==
      if FirstIdx(q, k) < |q| then FirstIdx(q, k) else if x.0 == k then |q| else |q| + 1
  {
    if |q| == 0 {
      assert q + [x] == [x];
    } else {
      assert (q + [x])[1..] == q[1..] + [x];
      FirstIdxSnoc(q[1..], x, k);
    }
  }

  lemma {:induction false} FirstIdxSameKeys<K, V, W>(a: seq<(K, V)>, b: seq<(K, W)>, k: K)
    requires |a| == |b| && forall i :: 0 <= i < |a| ==> a[i].0 == b[i].0
    ensures FirstIdx(a, k) == FirstIdx(b, k)
  {
    if |a| > 0 {
      FirstIdxSameKeys(a[1..], b[1..], k);
    }
  }

  /** `get` after `set` sees the new value for that key and the old value
      for every other key. */
  lemma GetSet<K, V>(e: Entries<K, V>, k: K, v: V, k': K)
    requires DistinctKeys(e)
    ensures Get(Set(e, k, v), k') == if k' == k then Some(v) else Get(e, k')
  {
    var r := Set(e, k, v);
    if Has(e, k) {
      FirstIdxSameKeys(r, e, k');
    } else {
      FirstIdxSnoc(e, (k, v), k');
    }
  }

  /** The keys of `r` appear in the order of their first occurrence among
      `pairs`, and each of them occurs there. */
  predicate FirstOccurrenceOrder<K(==), V, W>(r: Entries<K, V>, pairs: seq<(K, W)>) {
    (forall a :: 0 <= a < |r| ==> FirstIdx(pairs, r[a].0) < |pairs|) &&
    (forall a, b :: 0 <= a < b < |r| ==> FirstIdx(pairs, r[a].0) < FirstIdx(pairs, r[b].0))
  }

  /** One insertion step keeps the keys in first-occurrence order: either
      the keys stay where they were, or a new key is appended. */
  lemma OrderStep<K, V, W>(q: seq<(K, W)>, x: (K, W), prev: Entries<K, V>, r: Entries<K, V>)
    requires FirstOccurrenceOrder(prev, q)
    requires Has(prev, x.0) <==> Has(q, x.0)
    requires (|r| == |prev| && forall i :: 0 <= i < |r| ==> r[i].0 == prev[i].0)
          || (!Has(prev, x.0) && |r| == |prev| + 1 && r[..|prev|] == prev && r[|prev|].0 == x.0)
    ensures FirstOccurrenceOrder(r, q + [x])
  {
    var p := q + [x];
    forall a | 0 <= a < |r|
      ensures FirstIdx(p, r[a].0) == if a < |prev| then FirstIdx(q, r[a].0) else |q|
    {
      FirstIdxSnoc(q, x, r[a].0);
      if a < |prev| {
        assert r[a].0 == prev[a].0 by {
          if |r| != |prev| {
            assert r[a] == r[..|prev|][a];
          }
        }
      }
    }
    forall a | 0 <= a < |r|
      ensures FirstIdx(p, r[a].0) < |p|
    {
    }
    forall a, b | 0 <= a < b < |r|
      ensures FirstIdx(p, r[a].0) < FirstIdx(p, r[b].0)
    {
      assert a < |prev|;
    }
  }

  /** `new Map(pairs)`: a repeated key keeps its first position and takes
      its last value. */
  function FromPairs<K(==), V>(pairs: seq<(K, V)>): (r: Entries<K, V>)
    ensures DistinctKeys(r)
    decreases |pairs|
  {
    if |pairs| == 0 then []
    else
      var x := pairs[|pairs| - 1];
      Set(FromPairs(pairs[..|pairs| - 1]), x.0, x.1)
  }

  lemma {:induction false} FromPairsHas<K, V>(pairs: seq<(K, V)>, k: K)
    ensures Has(FromPairs(pairs), k) <==> Has(pairs, k)
    decreases |pairs|
  {
    if |pairs| > 0 {
      var q := pairs[..|pairs| - 1];
      var x := pairs[|pairs| - 1];
      assert pairs == q + [x];
      var prev := FromPairs(q);
      FromPairsHas(q, k);
      FromPairsHas(q, x.0);
      FirstIdxSnoc(q, x, k);
      if Has(prev, x.0) {
        FirstIdxSameKeys(FromPairs(pairs), prev, k);
      } else {
        FirstIdxSnoc(prev, x, k);
      }
    }
  }

  lemma {:induction false} FromPairsOrder<K, V>(pairs: seq<(K, V)>)
    ensures FirstOccurrenceOrder(FromPairs(pairs), pairs)
    decreases |pairs|
  {
    if |pairs| > 0 {
      var q := pairs[..|pairs| - 1];
      var x := pairs[|pairs| - 1];
      assert pairs == q + [x];
      FromPairsOrder(q);
      FromPairsHas(q, x.0);
      OrderStep(q, x, FromPairs(q), FromPairs(pairs));
    }
  }

  lemma {:induction false} FromPairsLastValue<K, V>(pairs: seq<(K, V)>, i: int)
    requires 0 <= i < |pairs|
    requires forall j :: i < j < |pairs| ==> pairs[j].0 != pairs[i].0
    ensures Get(FromPairs(pairs), pairs[i].0) == Some(pairs[i].1)
    decreases |pairs|
  {
    var q := pairs[..|pairs| - 1];
    var x := pairs[|pairs| - 1];
    GetSet(FromPairs(q), x.0, x.1, pairs[i].0);
    if i < |pairs| - 1 {
      FromPairsLastValue(q, i);
    }
  }

  /** The map built by inserting each pair only when its key is new
      (`if (!m.has(k)) m.set(k, v)`): a repeated key keeps its first
      position and its first value. */
  function FromPairsKeepFirst<K(==), V>(pairs: seq<(K, V)>): (r: Entries<K, V>)
    ensures DistinctKeys(r)
    decreases |pairs|
  {
    if |pairs| == 0 then []
    else
      var x := pairs[|pairs| - 1];
      var prev := FromPairsKeepFirst(pairs[..|pairs| - 1]);
      if Has(prev, x.0) then prev else Set(prev, x.0, x.1)
  }

  lemma {:induction false} KeepFirstHas<K, V>(pairs: seq<(K, V)>, k: K)
    ensures Has(FromPairsKeepFirst(pairs), k) <==> Has(pairs, k)
    decreases |pairs|
  {
    if |pairs| > 0 {
      var q := pairs[..|pairs| - 1];
      var x := pairs[|pairs| - 1];
      assert pairs == q + [x];
      var prev := FromPairsKeepFirst(q);
      KeepFirstHas(q, k);
      KeepFirstHas(q, x.0);
      FirstIdxSnoc(q, x, k);
      if !Has(prev, x.0) {
        FirstIdxSnoc(prev, x, k);
      }
    }
  }

  lemma {:induction false} KeepFirstOrder<K, V>(pairs: seq<(K, V)>)
    ensures FirstOccurrenceOrder(FromPairsKeepFirst(pairs), pairs)
    decreases |pairs|
  {
    if |pairs| > 0 {
      var q := pairs[..|pairs| - 1];
      var x := pairs[|pairs| - 1];
      assert pairs == q + [x];
      KeepFirstOrder(q);
      KeepFirstHas(q, x.0);
      OrderStep(q, x, FromPairsKeepFirst(q), FromPairsKeepFirst(pairs));
    }
  }

  lemma {:induction false} KeepFirstValue<K, V>(pairs: seq<(K, V)>, i: int)
    requires 0 <= i < |pairs| && FirstIdx(pairs, pairs[i].0) == i
    ensures Get(FromPairsKeepFirst(pairs), pairs[i].0) == Some(pairs[i].1)
    decreases |pairs|
  {
    var q := pairs[..|pairs| - 1];
    var x := pairs[|pairs| - 1];
    assert pairs == q + [x];
    var prev := FromPairsKeepFirst(q);
    var k := pairs[i].0;
    FirstIdxSnoc(q, x, k);
    if i == |pairs| - 1 {
      KeepFirstHas(q, k);
      GetSet(prev, x.0, x.1, k);
    } else {
      assert q[i] == pairs[i];
      KeepFirstValue(q, i);
      if !Has(prev, x.0) {
        KeepFirstHas(q, x.0);
        GetSet(prev, x.0, x.1, k);
      }
    }
  }
}

=== FILE: json.dfy ===
/** Untyped JSON values as the client receives them from the REST API, and the
    JavaScript operators the client applies to them: optional chaining (`?.`),
    nullish coalescing (`??`), truthiness (`||`, `!`), `typeof`, `String(v)`
    and `Number(v)`. JSON numbers are integers in this model. */
module Json {
  import opened Wrappers
  import Text

  datatype Json =
    | JNull
    | JBool(b: bool)
    | JNum(n: int)
    | JStr(s: string)
    | JArr(items: seq<Json>)
    | JObj(fields: map<string, Json>)

  /** A JavaScript value as the client code sees it: `None` is `undefined`. */
  type Value = Option<Json>

  /** The result of `Number(v)`: `NaN` or an integer. */
  datatype Num = NaN | Int(v: int)

  /** `typeof v === "object" && v !== null`: objects and arrays. */
  predicate IsObject(v: Value) {
    v.Some? && (v.value.JObj? || v.value.JArr?)
  }

  predicate IsString(v: Value) { v.Some? && v.value.JStr? }
  predicate IsNumber(v: Value) { v.Some? && v.value.JNum? }
  predicate IsArray(v: Value) { v.Some? && v.value.JArr? }

  /** `v === null || v === undefined`. */
  predicate IsNullish(v: Value) {
    v.None? || v.value.JNull?
  }

  /** `v?.[key]`: an own property of a JSON object. The property names this
      client reads are never array indices nor `length`, so arrays, strings
      and the other primitives have none of them. */
  function Prop(v: Value, key: string): Value {
    if v.Some? && v.value.JObj? && key in v.value.fields then Some(v.value.fields[key]) else None
  }

  /** `key in v` on an object (own keys only). */
  predicate HasKey(v: Value, key: string) {
    v.Some? && v.value.JObj? && key in v.value.fields
  }

  /** `a ?? b`. */
  function Coalesce(a: Value, b: Value): Value {
    if IsNullish(a) then b else a
  }

  /** JavaScript truthiness of a JSON value. */
  predicate Truthy(v: Value) {
    match v
    case None => false
    case Some(j) =>
      match j
      case JNull => false
      case JBool(b) => b
      case JNum(n) => n != 0
      case JStr(s) => s != ""
      case JArr(_) => true
      case JObj(_) => true
  }

  /** `a || b`. */
  function Or(a: Value, b: Value): Value {
    if Truthy(a) then a else b
  }

  /** Truthiness of a number (`0` and `NaN` are falsy). */
  predicate NumTruthy(n: Num) {
    n.Int? && n.v != 0
  }

  /** `String(v)`; an array joins its elements with commas, writing `null`
      and `undefined` elements as empty strings. */
  function ToStr(v: Value): string {
    match v
    case None => "undefined"
    case Some(j) => JsonToStr(j)
  }

  function JsonToStr(j: Json): string {
    match j
    case JNull => "null"
    case JBool(b) => if b then "true" else "false"
    case JNum(n) => Text.IntToString(n)
    case JStr(s) => s
    case JArr(items) => JoinElements(items)
    case JObj(_) => "[object Object]"
  }

  function JoinElements(items: seq<Json>): string
    decreases items
  {
    if |items| == 0 then ""
    else
      var head := if items[0].JNull? then "" else JsonToStr(items[0]);
      if |items| == 1 then head else head + "," + JoinElements(items[1..])
  }

  /** `Number(s)` on a string: surrounding white space is ignored, the empty
      string is 0, and a signed decimal integer is its value. */
  function StringToNumber(s: string): Num {
    var t := Text.Trim(s);
    if t == [] then Int(0)
    else match Text.ParseInteger(t)
      case Some(n) => Int(n)
      case None => NaN
  }

  /** `Number(v)`. */
  function ToNumber(v: Value): Num {
    match v
    case None => NaN
    case Some(j) =>
      match j
      case JNull => Int(0)
      case JBool(b) => Int(if b then 1 else 0)
      case JNum(n) => Int(n)
      case JStr(s) => StringToNumber(s)
      case JArr(_) => StringToNumber(JsonToStr(j))
      case JObj(_) => NaN
  }

  /** `Number(v ?? d)`: a missing value reads as the default. */
  function NumberOr(v: Value, d: int): (r: Num)
    ensures IsNullish(v) ==> r == Int(d)
    ensures !IsNullish(v) ==> r == ToNumber(v)
  {
    ToNumber(Coalesce(v, Some(JNum(d))))
  }

  /** A number as `JSON.stringify` writes it: `NaN` becomes `null`. */
  function NumToJson(n: Num): (r: Json)
    ensures n.Int? ==> r == JNum(n.v)
    ensures n.NaN? ==> r == JNull
  {
    match n
    case Int(v) => JNum(v)
    case NaN => JNull
  }

  /** `Number(v) || d`: a zero or `NaN` reads as the default. */
  function NumberOrDefault(n: Num, d: int): (r: int)
    ensures NumTruthy(n) ==> r == n.v
    ensures !NumTruthy(n) ==> r == d
  {
    if NumTruthy(n) then n.v else d
  }

  /** `Number(s)` of an integer's numeral gives back the integer. */
  lemma NumberOfNumeral(n: int)
    ensures StringToNumber(Text.IntToString(n)) == Int(n)
  {
    var s := Text.IntToString(n);
    Text.ParseIntToString(n);
    assert !Text.IsJsSpace(s[0]) && !Text.IsJsSpace(s[|s| - 1]) by {
      if n < 0 {
        assert s[0] == '-';
      } else {
        assert Text.IsDigit(s[0]);
      }
    }
    Text.TrimNoSpaceEnds(s);
  }

  /** An object built from a list of fields (later entries win). */
  function Obj(entries: seq<(string, Json)>): Json {
    JObj(FieldsOf(entries))
  }

  function FieldsOf(entries: seq<(string, Json)>): map<string, Json> {
    if |entries| == 0 then map[]
    else FieldsOf(entries[..|entries| - 1])[entries[|entries| - 1].0 := entries[|entries| - 1].1]
  }

  /** The own fields `{...v}` copies when `v` is an object: its fields.
      Anything else gives no fields here, strings and arrays included,
      whose spread would copy their indexed elements. */
  function SpreadFields(v: Value): map<string, Json> {
    if v.Some? && v.value.JObj? then v.value.fields else map[]
  }

  /** `new Error(message)`. */
  function JsError(message: string): Json {
    JObj(map["name" := JStr("Error"), "message" := JStr(message)])
  }

  /** The error value the client sees when JavaScript throws a `TypeError`
      (a property read on `null`/`undefined`, or an array method called on a
      non-array). */
  const TypeError: Json := JObj(map["name" := JStr("TypeError")])
}

=== FILE: loans_page.dfy ===
/** The borrower's own page (src/pages/users/loans.tsx): which tab opens,
    the status and title filters over the loan list, and the status
    labels. */
module LoansPage {
  import opened Wrappers
  import opened Json
  import opened Seqs
  import Text

  /** The tab shown: the `tab` URL parameter unless it is missing or
      empty, else "profile". */
  function CurrentTab(param: Option<string>): (r: string)
    ensures param.Some? && param.value != "" ==> r == param.value
    ensures (param.None? || param.value == "") ==> r == "profile"
    ensures r != ""
  {
    if param.Some? && param.value != "" then param.value else "profile"
  }

  datatype StatusTab = All | Active | Returned | Overdue

  /** The loan status a tab keeps; "all" keeps every status. */
  function StatusOf(t: StatusTab): Option<string> {
    match t
    case All => None
    case Active => Some("BORROWED")
    case Returned => Some("RETURNED")
    case Overdue => Some("OVERDUE")
  }

  function Status(loan: Json): Value {
    Prop(Some(loan), "status")
  }

  function Title(loan: Json): Value {
    Prop(Prop(Some(loan), "book"), "title")
  }

  predicate HasStatus(t: StatusTab, loan: Json) {
    StatusOf(t).None? || Status(loan) == Some(JStr(StatusOf(t).value))
  }

  /** The title search: `title.toLowerCase().includes(search.toLowerCase())`. */
  predicate TitleMatches(search: string, loan: Json)
    requires IsString(Title(loan))
  {
    Text.ContainsIgnoreCase(Title(loan).value.s, search)
  }

  /** Reading `loan.status` throws on a `null` loan. */
  predicate StatusThrows(t: StatusTab, loan: Json) {
    t != All && loan.JNull?
  }

  /** Calling `toLowerCase` on a title that is not a string throws. */
  predicate SearchThrows(search: string, loan: Json) {
    search != "" && !IsString(Title(loan))
  }

  /** The two tests `filteredLoans` applies, as values to filter with. */
  function StatusTest(t: StatusTab): Json -> bool {
    (l: Json) => HasStatus(t, l)
  }

  function SearchTest(search: string): Json -> bool {
    (l: Json) => IsString(Title(l)) && TitleMatches(search, l)
  }

  /** No loan makes the status test throw, and none of those the status
      test keeps makes the search throw. */
  predicate NeverThrows(loans: seq<Json>, t: StatusTab, search: string) {
    (forall i :: 0 <= i < |loans| ==> !StatusThrows(t, loans[i])) &&
    (forall i :: 0 <= i < |loans| ==> HasStatus(t, loans[i]) ==> !SearchThrows(search, loans[i]))
  }

  /** `filteredLoans`: the loans of the chosen status whose title contains
      the search, in their original order. `data` is `None` while the
      query has no data. */
  function FilteredLoans(data: Option<seq<Json>>, t: StatusTab, search: string): (r: Result<seq<Json>, Json>)
    ensures data.None? ==> r == Ok([])
    ensures r.Err? ==> r.error == TypeError
    ensures r.Ok? <==> data.None? || NeverThrows(data.value, t, search)
    ensures r.Ok? && data.Some? ==> IsSubseq(r.value, data.value)
    ensures r.Ok? && data.Some? ==> forall i :: 0 <= i < |r.value| ==>
      HasStatus(t, r.value[i]) && (search != "" ==> IsString(Title(r.value[i])) && TitleMatches(search, r.value[i]))
    ensures r.Ok? && data.Some? ==> forall i :: 0 <= i < |data.value| ==>
      HasStatus(t, data.value[i]) && (search != "" ==> IsString(Title(data.value[i])) && TitleMatches(search, data.value[i])) ==>
      data.value[i] in r.value
  {
    if data.None? then Ok([])
    else
      var loans := data.value;
      var byStatus := StatusTest(t);
      match FilterChecked(loans, (l: Json) => StatusThrows(t, l), byStatus)
      case None => Err(TypeError)
      case Some(s1) =>
        FilterIsSubseq(loans, byStatus);
        SubseqMembers(s1, loans);
        if search == "" then Ok(s1)
        else
          var bySearch := SearchTest(search);
          match FilterChecked(s1, (l: Json) => SearchThrows(search, l), bySearch)
          case None => Err(TypeError)
          case Some(s2) =>
            FilterIsSubseq(s1, bySearch);
            SubseqTrans(s2, s1, loans);
            SubseqMembers(s2, s1);
            Ok(s2)
  }

  /** Every loan the page shows is shown as often as it was served. */
  lemma FilteredLoansKeepsCopies(data: Option<seq<Json>>, t: StatusTab, search: string)
    ensures var r := FilteredLoans(data, t, search);
      r.Ok? && data.Some? ==> forall l ::
        HasStatus(t, l) && (search != "" ==> IsString(Title(l)) && TitleMatches(search, l)) ==>
        multiset(r.value)[l] == multiset(data.value)[l]
  {
    if data.Some? && FilteredLoans(data, t, search).Ok? {
      var byStatus := StatusTest(t);
      var bySearch := SearchTest(search);
      if search == "" {
        FilterMultiplicity(data.value, byStatus);
      } else {
        FilterTwiceMultiplicity(data.value, byStatus, bySearch);
      }
    }
  }

  /** The "all" tab with an empty search shows every loan. */
  lemma AllTabShowsEverything(loans: seq<Json>)
    ensures FilteredLoans(Some(loans), All, "") == Ok(loans)
  {
    FilterAll(loans, StatusTest(All));
  }

  /** The label shown for a status. */
  function StatusLabel(status: Value): (r: string)
    ensures status == Some(JStr("BORROWED")) <==> r == "Active"
    ensures status == Some(JStr("RETURNED")) <==> r == "Returned"
    ensures status != Some(JStr("BORROWED")) && status != Some(JStr("RETURNED")) <==> r == "Overdue"
  {
    if status == Some(JStr("BORROWED")) then "Active"
    else if status == Some(JStr("RETURNED")) then "Returned"
    else "Overdue"
  }

  /** The colour class for a status; other statuses get none. */
  function StatusClass(status: Value): (r: string)
    ensures r == "" <==> status != Some(JStr("BORROWED")) && status != Some(JStr("RETURNED")) && status != Some(JStr("OVERDUE"))
  {
    if status == Some(JStr("BORROWED")) then "text-blue-600"
    else if status == Some(JStr("RETURNED")) then "text-green-600"
    else if status == Some(JStr("OVERDUE")) then "text-red-600"
    else ""
  }

  /** A status the page does not know is labelled "Overdue" but gets no
      colour: the label and the class disagree. */
  lemma UnknownStatusUncoloured(status: Value)
    requires status != Some(JStr("BORROWED")) && status != Some(JStr("RETURNED")) && status != Some(JStr("OVERDUE"))
    ensures StatusLabel(status) == "Overdue" && StatusClass(status) == ""
  {
  }

  /** Every loan a status tab shows carries the label of that tab. */
  lemma TabAndLabelAgree(data: seq<Json>, t: StatusTab, search: string, i: int)
    requires t != All
    requires FilteredLoans(Some(data), t, search).Ok?
    requires 0 <= i < |FilteredLoans(Some(data), t, search).value|
    ensures StatusLabel(Status(FilteredLoans(Some(data), t, search).value[i])) ==
      match t
      case Active => "Active"
      case Returned => "Returned"
      case Overdue => "Overdue"
      case All => ""
  {
  }
}

=== FILE: loans_service.dfy ===
/** The loan endpoints (src/services/loans.ts). Each function takes the
    response body of the request it makes and returns what the source
    returns, or the error it throws. */
module LoansService {
  import opened Wrappers
  import opened Json
  import AuthorEnrichment
  import Text

  /** `checkout(payload)` posts the payload as it is. */
  function CheckoutRequest(payload: Json): (r: (string, Json))
    ensures r.0 == "/loans/checkout" && r.1 == payload
  {
    ("/loans/checkout", payload)
  }

  /** The body `borrowBook` posts to "/loans": a string book id is
      converted with `Number`, any other id is sent as it is, and the days
      are unchanged. */
  function BorrowBody(bookId: Json, days: int): (r: Json)
    ensures Prop(Some(r), "days") == Some(JNum(days))
    ensures bookId.JStr? ==> Prop(Some(r), "bookId") == Some(NumToJson(StringToNumber(bookId.s)))
    ensures !bookId.JStr? ==> Prop(Some(r), "bookId") == Some(bookId)
  {
    var id := if bookId.JStr? then NumToJson(StringToNumber(bookId.s)) else bookId;
    JObj(map["bookId" := id, "days" := JNum(days)])
  }

  /** A numeric string id reaches the server as the number it spells. */
  lemma BorrowNumericString(n: int, days: int)
    ensures Prop(Some(BorrowBody(JStr(Text.IntToString(n)), days)), "bookId") == Some(JNum(n))
  {
    NumberOfNumeral(n);
  }

  /** `data?.data?.loans || []`. */
  function LoansOf(data: Value): Value {
    Or(Prop(Prop(data, "data"), "loans"), Some(JArr([])))
  }

  /** `myLoans`: the loans of the response, each with its book's author
      filled in. A non-array loan list, or a `null` loan, throws. */
  function MyLoans(data: Value, fetch: AuthorEnrichment.Fetch): (r: Result<seq<Json>, Json>)
    ensures !Truthy(Prop(Prop(data, "data"), "loans")) ==> r == Ok([])
    ensures !IsArray(LoansOf(data)) ==> r == Err(TypeError)
    ensures IsArray(LoansOf(data)) ==> r == AuthorEnrichment.EnrichAll(LoansOf(data).value.items, fetch)
  {
    var loans := LoansOf(data);
    if IsArray(loans) then AuthorEnrichment.EnrichAll(loans.value.items, fetch)
    else Err(TypeError)
  }

  /** Enrichment keeps the number and order of loans and changes only
      `book.author`. */
  lemma MyLoansShape(data: Value, fetch: AuthorEnrichment.Fetch, i: int)
    requires MyLoans(data, fetch).Ok?
    requires IsArray(LoansOf(data))
    requires 0 <= i < |LoansOf(data).value.items|
    ensures var loans := LoansOf(data).value.items;
            var out := MyLoans(data, fetch).value;
            |out| == |loans| &&
            (forall k :: k != "book" ==> Prop(Some(out[i]), k) == Prop(Some(loans[i]), k)) &&
            Prop(Prop(Some(out[i]), "book"), "author") == Some(AuthorEnrichment.AuthorFor(loans[i], fetch))
  {
    var loans := LoansOf(data).value.items;
    var out := MyLoans(data, fetch).value;
    assert AuthorEnrichment.EnrichOne(loans[i], fetch) == Ok(out[i]);
  }
}

=== FILE: login_page.dfy ===
/** The login page (src/pages/auth/login.tsx): the form rules and what a
    submission does. */
module LoginPage {
  import opened Wrappers
  import opened Json
  import AuthSlice
  import Store
  import ErrorMessages
  import UsersService
  import Guards
  import ApiClient
  import opened Effects

  datatype LoginForm = LoginForm(email: string, password: string)

  const MIN_PASSWORD := 6

  /** The fields the schema rejects. `isEmail` stands for the schema's
      e-mail check. */
  function LoginErrors(f: LoginForm, isEmail: string -> bool): (r: set<string>)
    ensures "email" in r <==> !isEmail(f.email)
    ensures "password" in r <==> |f.password| < MIN_PASSWORD
    ensures r <= {"email", "password"}
  {
    (if isEmail(f.email) then {} else {"email"}) + (if |f.password| < MIN_PASSWORD then {"password"} else {})
  }

  /** Where a signed-in user is sent: the dashboard for "ADMIN", else home. */
  function HomeFor(user: Json): (r: string)
    ensures r == "/admin" <==> Prop(Some(user), "role") == Some(JStr("ADMIN"))
    ensures r == "/admin" || r == "/"
  {
    if Prop(Some(user), "role") == Some(JStr("ADMIN")) then "/admin" else "/"
  }

  function LoginBody(f: LoginForm): Json {
    Obj([("email", JStr(f.email)), ("password", JStr(f.password))])
  }

  /** Submitting the form. `outcome` is the response body of
      `POST /auth/login`, or the error it rejected with. Nothing is sent
      while the schema rejects a field. */
  function Submit(f: LoginForm, isEmail: string -> bool, outcome: Result<Value, Json>): (r: seq<Effect>)
    ensures LoginErrors(f, isEmail) != {} ==> r == []
    ensures LoginErrors(f, isEmail) == {} ==> |r| >= 2 && r[0] == Request("POST", "/auth/login", Some(LoginBody(f)))
    ensures LoginErrors(f, isEmail) == {} && outcome.Ok? ==>
      var res := UsersService.UnwrapAuthResponse(outcome.value);
      r[1..] == [Dispatch(Store.SetAuth(res.token, res.user)), ToastSuccess("Welcome back!"), Navigate(HomeFor(res.user))]
    ensures LoginErrors(f, isEmail) == {} && outcome.Err? ==>
      r[1..] == Rejected(outcome.error) + [ToastError(ErrorMessages.GetErrorMessage(Some(outcome.error)).GetOr("Login failed"))]
  {
    if LoginErrors(f, isEmail) != {} then []
    else
      [Request("POST", "/auth/login", Some(LoginBody(f)))] +
      match outcome
      case Ok(body) =>
        var res := UsersService.UnwrapAuthResponse(body);
        [Dispatch(Store.SetAuth(res.token, res.user)), ToastSuccess("Welcome back!"), Navigate(HomeFor(res.user))]
      case Err(e) => Rejected(e) + [ToastError(ErrorMessages.GetErrorMessage(Some(e)).GetOr("Login failed"))]
  }

  /** A successful login stores the unwrapped session before it navigates. */
  lemma LoginStoresSession(s: Store.RootState, f: LoginForm, isEmail: string -> bool, body: Value, c: AuthSlice.Codec)
    requires LoginErrors(f, isEmail) == {}
    ensures var r := Submit(f, isEmail, Ok(body));
      var res := UsersService.UnwrapAuthResponse(body);
      ApplyToStore(s, r, c).session.auth == AuthSlice.AuthState(Some(res.token), res.user) &&
      r[1].Dispatch? && r[|r| - 1].Navigate?
  {
    var r := Submit(f, isEmail, Ok(body));
    var res := UsersService.UnwrapAuthResponse(body);
    assert r == [r[0]] + [Dispatch(Store.SetAuth(res.token, res.user))] + r[2..];
    ApplyOneDispatch(s, [r[0]], Store.SetAuth(res.token, res.user), r[2..], c);
  }

  /** A failed login changes the store only through the response
      interceptor: a 401 logs out, any other
      error leaves the store as it was. */
  lemma LoginFailureOnlyInterceptorActs(s: Store.RootState, f: LoginForm, isEmail: string -> bool, e: Json, c: AuthSlice.Codec)
    requires LoginErrors(f, isEmail) == {}
    ensures var after := ApplyToStore(s, Submit(f, isEmail, Err(e)), c);
      (!ApiClient.IsUnauthorized(Some(e)) ==> after == s) &&
      (ApiClient.IsUnauthorized(Some(e)) ==> after.session.auth == AuthSlice.LoggedOut && after.cart == s.cart && after.ui == s.ui)
  {
    var r := Submit(f, isEmail, Err(e));
    var toast := ToastError(ErrorMessages.GetErrorMessage(Some(e)).GetOr("Login failed"));
    assert r == [r[0]] + Rejected(e) + [toast];
    ApplyRejected(s, [r[0]], e, [toast], c);
  }

  /** An administrator is sent to "/admin" with a token in hand, and the
      guard on that route sends them on to "/". */
  lemma AdminLoginIsTurnedAway(token: string, user: map<string, Json>)
    requires token != "" && "role" in user && user["role"] == JStr("ADMIN")
    ensures HomeFor(JObj(user)) == "/admin"
    ensures Guards.RequireAuth(AuthSlice.AuthState(Some(token), JObj(user)), Some(Guards.ADMIN_ROUTE_ROLE)) == Guards.Redirect("/")
  {
  }
}

=== FILE: pagination.dfy ===
/** The pagination bar (src/components/pagination-bar.tsx): the window of
    page buttons with "…" gaps, the "Showing start to end of total" figures,
    and the Previous/Next guards. */
module PaginationBar {
  import opened Wrappers

  /** A page button or a "…" marker. */
  datatype PageItem = Page(n: int) | Ellipsis

  /** How many neighbours of the current page are shown on each side. */
  const DELTA: int := 1

  function Max(a: int, b: int): int { if a >= b then a else b }
  function Min(a: int, b: int): int { if a <= b then a else b }

  /** The buttons `lo`, `lo + 1`, …, `hi` (none when `hi < lo`). */
  function Pages(lo: int, hi: int): (r: seq<PageItem>)
    ensures |r| == Max(0, hi - lo + 1)
    ensures forall i :: 0 <= i < |r| ==> r[i] == Page(lo + i)
  {
    seq(Max(0, hi - lo + 1), i => Page(lo + i))
  }

  /** `pageRange(page, totalPages)`: page 1, a gap marker when the window
      starts after 2, the window page-1 .. page+1 clipped to 2 .. T-1, a gap
      marker when it ends before T-1, and page T when T > 1. */
  function PageRange(page: int, totalPages: int): seq<PageItem> {
    var left := Max(2, page - DELTA);
    var right := Min(totalPages - 1, page + DELTA);
    [Page(1)]
      + (if left > 2 then [Ellipsis] else [])
      + Pages(left, right)
      + (if right < totalPages - 1 then [Ellipsis] else [])
      + (if totalPages > 1 then [Page(totalPages)] else [])
  }

  /** The loop of the source, building the window one page at a time. */
  method BuildPageRange(page: int, totalPages: int) returns (range: seq<PageItem>)
    ensures range == PageRange(page, totalPages)
  {
    var left := Max(2, page - DELTA);
    var right := Min(totalPages - 1, page + DELTA);
    range := [Page(1)];
    if left > 2 {
      range := range + [Ellipsis];
    }
    var head := range;
    var p := left;
    while p <= right
      invariant left <= p && (p <= right + 1 || p == left)
      invariant range == head + Pages(left, p - 1)
      decreases right - p
    {
      range := range + [Page(p)];
      p := p + 1;
    }
    assert Pages(left, p - 1) == Pages(left, right);
    if right < totalPages - 1 {
      range := range + [Ellipsis];
    }
    if totalPages > 1 {
      range := range + [Page(totalPages)];
    }
  }

  /** Page numbers appear in strictly increasing order. */
  predicate Increasing(r: seq<PageItem>) {
    forall i, j :: 0 <= i < j < |r| && r[i].Page? && r[j].Page? ==> r[i].n < r[j].n
  }

  /** Every "…" sits between two page numbers and stands for at least one
      page that is not shown; in particular two "…" are never adjacent. */
  predicate GapsHideAPage(r: seq<PageItem>) {
    forall i :: 0 <= i < |r| && r[i].Ellipsis? ==>
      0 < i < |r| - 1 && r[i - 1].Page? && r[i + 1].Page? && r[i + 1].n - r[i - 1].n >= 2
  }

  /** A single page shows just the button 1; otherwise the bar starts at 1
      and ends at the last page. */
  lemma PageRangeEnds(page: int, totalPages: int)
    requires 1 <= page <= totalPages
    ensures totalPages == 1 ==> PageRange(page, totalPages) == [Page(1)]
    ensures var r := PageRange(page, totalPages);
            totalPages > 1 ==> r[0] == Page(1) && r[|r| - 1] == Page(totalPages)
  {
  }

  /** The bar never has more than seven entries. */
  lemma PageRangeShort(page: int, totalPages: int)
    ensures |PageRange(page, totalPages)| <= 7
  {
  }

  /** Where each entry of the bar comes from: index 0 is page 1, then the
      optional leading "…" (`lead` entries), the window left .. right, the
      optional trailing "…", and the last page. */
  lemma PageRangeAt(page: int, totalPages: int, i: int)
    requires 0 <= i < |PageRange(page, totalPages)|
    ensures var left := Max(2, page - DELTA);
            var right := Min(totalPages - 1, page + DELTA);
            var lead := if left > 2 then 1 else 0;
            var w := Max(0, right - left + 1);
            var trail := if right < totalPages - 1 then 1 else 0;
            PageRange(page, totalPages)[i] ==
              if i == 0 then Page(1)
              else if i < 1 + lead then Ellipsis
              else if i < 1 + lead + w then Page(left + (i - 1 - lead))
              else if i < 1 + lead + w + trail then Ellipsis
              else Page(totalPages)
  {
    var left := Max(2, page - DELTA);
    var right := Min(totalPages - 1, page + DELTA);
    var b: seq<PageItem> := if left > 2 then [Ellipsis] else [];
    var c: seq<PageItem> := if right < totalPages - 1 then [Ellipsis] else [];
    var d: seq<PageItem> := if totalPages > 1 then [Page(totalPages)] else [];
    assert PageRange(page, totalPages) == [Page(1)] + b + Pages(left, right) + c + d;
  }

  /** The length of the bar. */
  lemma PageRangeLength(page: int, totalPages: int)
    ensures var left := Max(2, page - DELTA);
            var right := Min(totalPages - 1, page + DELTA);
            |PageRange(page, totalPages)| ==
              1 + (if left > 2 then 1 else 0) + Max(0, right - left + 1)
                + (if right < totalPages - 1 then 1 else 0) + (if totalPages > 1 then 1 else 0)
  {
  }

  /** For an in-range page, every number shown is a page between 1 and
      totalPages. */
  lemma PageRangeInBounds(page: int, totalPages: int)
    requires 1 <= page <= totalPages
    ensures var r := PageRange(page, totalPages);
            forall i :: 0 <= i < |r| && r[i].Page? ==> 1 <= r[i].n <= totalPages
  {
    var r := PageRange(page, totalPages);
    forall i | 0 <= i < |r| && r[i].Page?
      ensures 1 <= r[i].n <= totalPages
    {
      PageRangeAt(page, totalPages, i);
    }
  }

  /** For an in-range page, the numbers strictly increase. */
  lemma PageRangeIncreasing(page: int, totalPages: int)
    requires 1 <= page <= totalPages
    ensures Increasing(PageRange(page, totalPages))
  {
    var r := PageRange(page, totalPages);
    forall i, j | 0 <= i < j < |r| && r[i].Page? && r[j].Page?
      ensures r[i].n < r[j].n
    {
      PageRangeAt(page, totalPages, i);
      PageRangeAt(page, totalPages, j);
    }
  }

  /** For an in-range page, every "…" hides at least one page. */
  lemma PageRangeGaps(page: int, totalPages: int)
    requires 1 <= page <= totalPages
    ensures GapsHideAPage(PageRange(page, totalPages))
  {
    var r := PageRange(page, totalPages);
    PageRangeLength(page, totalPages);
    forall i | 0 <= i < |r| && r[i].Ellipsis?
      ensures 0 < i < |r| - 1 && r[i - 1].Page? && r[i + 1].Page? && r[i + 1].n - r[i - 1].n >= 2
    {
      PageRangeAt(page, totalPages, i);
      PageRangeAt(page, totalPages, i - 1);
      PageRangeAt(page, totalPages, i + 1);
    }
  }

  /** For an in-range page, the current page has a button. */
  lemma PageRangeHasPage(page: int, totalPages: int)
    requires 1 <= page <= totalPages
    ensures Page(page) in PageRange(page, totalPages)
  {
    var r := PageRange(page, totalPages);
    var left := Max(2, page - DELTA);
    var lead := if left > 2 then 1 else 0;
    PageRangeLength(page, totalPages);
    var k := if page == 1 then 0 else if page == totalPages then |r| - 1 else 1 + lead + (page - left);
    PageRangeAt(page, totalPages, k);
  }

  /** `Math.ceil(total / pageSize)` for a positive page size. */
  function CeilDiv(total: int, pageSize: int): (r: int)
    requires pageSize > 0
    ensures (r - 1) * pageSize < total <= r * pageSize
  {
    var q := (-total) / pageSize;
    assert -total == pageSize * q + (-total) % pageSize;
    -q
  }

  /** `totalPages = Math.max(1, Math.ceil(total / pageSize))`. */
  function TotalPages(total: int, pageSize: int): (r: int)
    requires pageSize > 0
    ensures r >= 1 && total <= r * pageSize
    ensures r == 1 || (r - 1) * pageSize < total
  {
    Max(1, CeilDiv(total, pageSize))
  }

  /** The first entry shown: 0 for an empty list. */
  function Start(page: int, pageSize: int, total: int): (r: int)
    ensures total == 0 ==> r == 0
    ensures total != 0 && page >= 1 && pageSize > 0 ==> r >= 1
  {
    if total == 0 then 0 else (page - 1) * pageSize + 1
  }

  /** The last entry shown. */
  function End(page: int, pageSize: int, total: int): (r: int)
    ensures r <= total && r <= page * pageSize
    ensures r == total || r == page * pageSize
  {
    Min(total, page * pageSize)
  }

  /** On an in-range page of a non-empty list, 1 <= start <= end <= total,
      and the page shows at most pageSize entries. */
  lemma ShowingRange(page: int, pageSize: int, total: int)
    requires pageSize > 0 && total > 0
    requires 1 <= page <= TotalPages(total, pageSize)
    ensures 1 <= Start(page, pageSize, total) <= End(page, pageSize, total) <= total
    ensures End(page, pageSize, total) - Start(page, pageSize, total) < pageSize
  {
    var t := TotalPages(total, pageSize);
    if t > 1 {
      assert (page - 1) * pageSize <= (t - 1) * pageSize;
    }
    assert page * pageSize == (page - 1) * pageSize + pageSize;
  }

  /** The Previous button: `page > 1 && onPageChange(page - 1)`. */
  function Previous(page: int): (r: Option<int>)
    ensures r.Some? <==> page > 1
    ensures r.Some? ==> r.value == page - 1
  {
    if page > 1 then Some(page - 1) else None
  }

  /** The Next button: `page < totalPages && onPageChange(page + 1)`. */
  function Next(page: int, totalPages: int): (r: Option<int>)
    ensures r.Some? <==> page < totalPages
    ensures r.Some? ==> r.value == page + 1
  {
    if page < totalPages then Some(page + 1) else None
  }

  /** From an in-range page, every control of the bar leads to an in-range
      page. */
  lemma NavigationStaysInRange(page: int, totalPages: int)
    requires 1 <= page <= totalPages
    ensures Previous(page).Some? ==> 1 <= Previous(page).value <= totalPages
    ensures Next(page, totalPages).Some? ==> 1 <= Next(page, totalPages).value <= totalPages
    ensures forall i :: 0 <= i < |PageRange(page, totalPages)| && PageRange(page, totalPages)[i].Page? ==>
      1 <= PageRange(page, totalPages)[i].n <= totalPages
  {
    PageRangeInBounds(page, totalPages);
  }
}

=== FILE: profile_page.dfy ===
/** The profile page (src/pages/users/profile.tsx): the update payload and
    which fields end up merged into the signed-in user. */
module ProfilePage {
  import opened Wrappers
  import opened Json
  import Text
  import AuthSlice
  import Store
  import UsersService
  import ApiClient
  import opened Effects

  datatype ProfileForm = ProfileForm(name: string, phone: Option<string>)

  /** The payload: the name as typed; the phone only when it is not blank. */
  datatype Payload = Payload(name: string, phone: Option<string>)

  function MakePayload(f: ProfileForm): (r: Payload)
    ensures r.name == f.name
    ensures r.phone.Some? <==> f.phone.Some? && !Text.IsBlank(f.phone.value)
    ensures r.phone.Some? ==> r.phone == f.phone
  {
    var keep := f.phone.Some? && Text.Trim(f.phone.value) != "";
    Payload(f.name, if keep then f.phone else None)
  }

  /** The body `PATCH /me` sends: an undefined phone is dropped. */
  function PayloadJson(p: Payload): Json {
    var base := map["name" := JStr(p.name)];
    JObj(if p.phone.Some? then base["phone" := JStr(p.phone.value)] else base)
  }

  /** The payload as an `updateUser` patch: an undefined phone is written
      as `undefined`. */
  function PayloadPatch(p: Payload): (r: map<string, Option<Json>>)
    ensures r.Keys == {"name", "phone"}
    ensures r["name"] == Some(JStr(p.name))
    ensures r["phone"].Some? <==> p.phone.Some?
  {
    map["name" := Some(JStr(p.name)), "phone" := if p.phone.Some? then Some(JStr(p.phone.value)) else None]
  }

  /** Server changes as an `updateUser` patch. */
  function ChangesPatch(changes: map<string, Json>): (r: map<string, Option<Json>>)
    ensures r.Keys == changes.Keys
    ensures forall k :: k in changes ==> r[k] == Some(changes[k])
  {
    map k | k in changes :: Some(changes[k])
  }

  /** The patch dispatched after a successful update: the server's changes
      if there are any, otherwise the payload itself. */
  function UpdatesFor(p: Payload, body: Value): (r: map<string, Option<Json>>)
    ensures |UsersService.UpdateProfile(body).changes| > 0 ==> r == ChangesPatch(UsersService.UpdateProfile(body).changes)
    ensures |UsersService.UpdateProfile(body).changes| == 0 ==> r == PayloadPatch(p)
  {
    var up := UsersService.UpdateProfile(body);
    if |up.changes| > 0 then ChangesPatch(up.changes) else PayloadPatch(p)
  }

  /** Submitting the form; `outcome` is the response body of `PATCH /me` or
      the error it rejected with. */
  function Submit(f: ProfileForm, outcome: Result<Value, Json>): (r: seq<Effect>)
    ensures |r| >= 2 && r[0] == Request("PATCH", "/me", Some(PayloadJson(MakePayload(f))))
    ensures outcome.Ok? ==>
      r[1..] == [Dispatch(Store.UpdateUser(UpdatesFor(MakePayload(f), outcome.value))),
                 ToastSuccess(UsersService.UpdateProfile(outcome.value).message)]
    ensures outcome.Err? ==> r[1..] == Rejected(outcome.error) + [ToastError("Failed to update")]
  {
    var p := MakePayload(f);
    [Request("PATCH", "/me", Some(PayloadJson(p)))] +
    match outcome
    case Ok(body) => [Dispatch(Store.UpdateUser(UpdatesFor(p, body))), ToastSuccess(UsersService.UpdateProfile(body).message)]
    case Err(e) => Rejected(e) + [ToastError("Failed to update")]
  }

  /** A successful update merges the chosen patch into the signed-in user
      and keeps the token. */
  lemma SubmitMergesUpdates(s: Store.RootState, f: ProfileForm, body: Value, c: AuthSlice.Codec)
    requires Truthy(Some(s.session.auth.user))
    ensures var after := ApplyToStore(s, Submit(f, Ok(body)), c).session.auth;
      after.user == AuthSlice.Overlay(s.session.auth.user, UpdatesFor(MakePayload(f), body)) &&
      after.token == s.session.auth.token
  {
    var r := Submit(f, Ok(body));
    UpdateDispatchMerges(s, r, UpdatesFor(MakePayload(f), body), c);
  }

  /** A request, one `updateUser` dispatch and a toast leave the store as
      that dispatch alone does. */
  lemma UpdateDispatchMerges(s: Store.RootState, r: seq<Effect>, patch: map<string, Option<Json>>, c: AuthSlice.Codec)
    requires Truthy(Some(s.session.auth.user))
    requires |r| == 3 && r[0].Request? && r[1] == Dispatch(Store.UpdateUser(patch)) && r[2].ToastSuccess?
    ensures var after := ApplyToStore(s, r, c).session.auth;
      after.user == AuthSlice.Overlay(s.session.auth.user, patch) && after.token == s.session.auth.token
  {
    assert r == [r[0]] + [r[1]] + r[2..];
    ApplyOneDispatch(s, [r[0]], Store.UpdateUser(patch), r[2..], c);
  }

  /** A failed update dispatches no user update: only the response
      interceptor acts, logging out on a 401 and leaving the store as it
      was on any other error. */
  lemma FailureOnlyInterceptorActs(s: Store.RootState, f: ProfileForm, e: Json, c: AuthSlice.Codec)
    ensures var after := ApplyToStore(s, Submit(f, Err(e)), c);
      (!ApiClient.IsUnauthorized(Some(e)) ==> after == s) &&
      (ApiClient.IsUnauthorized(Some(e)) ==> after.session.auth == AuthSlice.LoggedOut && after.cart == s.cart && after.ui == s.ui)
  {
    var r := Submit(f, Err(e));
    assert r == [r[0]] + Rejected(e) + [ToastError("Failed to update")];
    ApplyRejected(s, [r[0]], e, [ToastError("Failed to update")], c);
  }

  /** A blank phone is not sent, and when the server echoes no usable
      field the payload clears the stored phone. */
  lemma BlankPhoneClearsPhone(name: string, phone: string, body: Value)
    requires Text.IsBlank(phone)
    requires UsersService.UpdateProfile(body).changes == map[]
    ensures !HasKey(Some(PayloadJson(MakePayload(ProfileForm(name, Some(phone))))), "phone")
    ensures UpdatesFor(MakePayload(ProfileForm(name, Some(phone))), body)["phone"] == None
  {
  }
}

=== FILE: query_cache.dfy ===
/** The slice of TanStack Query's cache that the application code drives:
    entries keyed by query keys, `getQueryData` / `setQueryData`, and
    `invalidateQueries`, which marks every entry under a key prefix stale
    without discarding its data. */
module QueryCache {
  import opened Wrappers

  /** `staleTime` of every query (src/main.tsx:13). */
  const STALE_TIME_MS: nat := 30000
  /** Mutations are never retried (src/main.tsx:14). */
  const MUTATION_RETRY: nat := 0

  /** One component of a query key. */
  datatype Atom = Str(s: string) | Num(n: int)

  type Key = seq<Atom>

  datatype Entry<V> = Entry(data: V, stale: bool)

  type Cache<V> = map<Key, Entry<V>>

  /** Prefix matching, as `invalidateQueries({ queryKey })` applies it. */
  predicate IsPrefix(p: Key, k: Key) {
    |p| <= |k| && k[..|p|] == p
  }

  /** `qc.getQueryData(key)`. */
  function GetQueryData<V>(c: Cache<V>, key: Key): Option<V> {
    if key in c then Some(c[key].data) else None
  }

  /** `qc.setQueryData(key, v)`, and equally a fetch completing with `v`:
      the entry holds `v`, fresh; no other entry changes. */
  function SetQueryData<V>(c: Cache<V>, key: Key, v: V): (r: Cache<V>)
    ensures GetQueryData(r, key) == Some(v) && !r[key].stale
    ensures r.Keys == c.Keys + {key}
    ensures forall k :: k in c && k != key ==> r[k] == c[k]
  {
    c[key := Entry(v, false)]
  }

  /** `qc.invalidateQueries({ queryKey: prefix })`. */
  function Invalidate<V>(c: Cache<V>, prefix: Key): (r: Cache<V>)
    ensures r.Keys == c.Keys
    ensures forall k :: k in c ==> r[k].data == c[k].data
    ensures forall k :: k in c ==> (r[k].stale <==> c[k].stale || IsPrefix(prefix, k))
  {
    map k | k in c :: if IsPrefix(prefix, k) then c[k].(stale := true) else c[k]
  }

  /** Invalidation never changes what any key reads. */
  lemma InvalidateKeepsData<V>(c: Cache<V>, prefix: Key, key: Key)
    ensures GetQueryData(Invalidate(c, prefix), key) == GetQueryData(c, key)
  {
  }

  /** Invalidating twice is invalidating once. */
  lemma InvalidateIdempotent<V>(c: Cache<V>, prefix: Key)
    ensures Invalidate(Invalidate(c, prefix), prefix) == Invalidate(c, prefix)
  {
    var once := Invalidate(c, prefix);
    var twice := Invalidate(once, prefix);
    assert forall k :: k in twice ==> twice[k] == once[k];
  }

  /** The order of two invalidations does not matter. */
  lemma InvalidateCommutes<V>(c: Cache<V>, p: Key, q: Key)
    ensures Invalidate(Invalidate(c, p), q) == Invalidate(Invalidate(c, q), p)
  {
    var a := Invalidate(Invalidate(c, p), q);
    var b := Invalidate(Invalidate(c, q), p);
    assert forall k :: k in a ==> a[k] == b[k];
  }

  /** A refetch that completes after an invalidation makes the new data
      visible and fresh. */
  lemma RefetchAfterInvalidate<V>(c: Cache<V>, prefix: Key, key: Key, v: V)
    requires IsPrefix(prefix, key)
    ensures var r := SetQueryData(Invalidate(c, prefix), key, v);
            GetQueryData(r, key) == Some(v) && !r[key].stale
  {
  }

  /** Restoring a snapshot with `setQueryData` undoes an earlier
      `setQueryData` on the same key, whatever was written in between. */
  lemma RestoreSnapshot<V>(c: Cache<V>, key: Key, optimistic: V)
    requires key in c
    ensures SetQueryData(SetQueryData(c, key, optimistic), key, c[key].data) == c[key := Entry(c[key].data, false)]
  {
  }
}

=== FILE: register_page.dfy ===
/** The registration page (src/pages/auth/register.tsx): the form rules
    and what a submission does. */
module RegisterPage {
  import opened Wrappers
  import opened Json
  import AuthSlice
  import Store
  import ErrorMessages
  import UsersService
  import ApiClient
  import opened Effects

  datatype RegisterForm = RegisterForm(
    name: string, email: string, phone: Option<string>, password: string, confirmPassword: string)

  const MIN_NAME := 2
  const MIN_PASSWORD := 6

  /** The fields the schema reports. A mismatch between the two passwords
      is reported on `confirmPassword`, alongside any length problem. */
  function RegisterErrors(f: RegisterForm, isEmail: string -> bool): (r: set<string>)
    ensures "name" in r <==> |f.name| < MIN_NAME
    ensures "email" in r <==> !isEmail(f.email)
    ensures "password" in r <==> |f.password| < MIN_PASSWORD
    ensures "confirmPassword" in r <==> |f.confirmPassword| < MIN_PASSWORD || f.password != f.confirmPassword
    ensures "phone" !in r
  {
    (if |f.name| < MIN_NAME then {"name"} else {}) +
    (if isEmail(f.email) then {} else {"email"}) +
    (if |f.password| < MIN_PASSWORD then {"password"} else {}) +
    (if |f.confirmPassword| < MIN_PASSWORD || f.password != f.confirmPassword then {"confirmPassword"} else {})
  }

  /** A form that passes has matching passwords of at least six
      characters. */
  lemma AcceptedPasswordsMatch(f: RegisterForm, isEmail: string -> bool)
    requires RegisterErrors(f, isEmail) == {}
    ensures f.password == f.confirmPassword && |f.password| >= MIN_PASSWORD && |f.name| >= MIN_NAME
  {
    assert "confirmPassword" !in RegisterErrors(f, isEmail);
    assert "password" !in RegisterErrors(f, isEmail);
    assert "name" !in RegisterErrors(f, isEmail);
  }

  /** The request body: the form without `confirmPassword`; an absent phone
      is not sent. */
  function RegisterBody(f: RegisterForm): (r: Json)
    ensures r.JObj? && "confirmPassword" !in r.fields
    ensures Prop(Some(r), "password") == Some(JStr(f.password))
    ensures Prop(Some(r), "name") == Some(JStr(f.name)) && Prop(Some(r), "email") == Some(JStr(f.email))
    ensures HasKey(Some(r), "phone") <==> f.phone.Some?
  {
    var base := map["name" := JStr(f.name), "email" := JStr(f.email), "password" := JStr(f.password)];
    JObj(if f.phone.Some? then base["phone" := JStr(f.phone.value)] else base)
  }

  /** Submitting the form; `outcome` is the response body of
      `POST /auth/register` or the error it rejected with. */
  function Submit(f: RegisterForm, isEmail: string -> bool, outcome: Result<Value, Json>): (r: seq<Effect>)
    ensures RegisterErrors(f, isEmail) != {} ==> r == []
    ensures RegisterErrors(f, isEmail) == {} ==> |r| >= 2 && r[0] == Request("POST", "/auth/register", Some(RegisterBody(f)))
    ensures RegisterErrors(f, isEmail) == {} && outcome.Ok? ==>
      var res := UsersService.UnwrapAuthResponse(outcome.value);
      r[1..] == [Dispatch(Store.SetAuth(res.token, res.user)), ToastSuccess("Account created!"), Navigate("/")]
    ensures RegisterErrors(f, isEmail) == {} && outcome.Err? ==>
      r[1..] == Rejected(outcome.error) + [ToastError(ErrorMessages.GetErrorMessage(Some(outcome.error)).GetOr("Register failed"))]
  {
    if RegisterErrors(f, isEmail) != {} then []
    else
      [Request("POST", "/auth/register", Some(RegisterBody(f)))] +
      match outcome
      case Ok(body) =>
        var res := UsersService.UnwrapAuthResponse(body);
        [Dispatch(Store.SetAuth(res.token, res.user)), ToastSuccess("Account created!"), Navigate("/")]
      case Err(e) => Rejected(e) + [ToastError(ErrorMessages.GetErrorMessage(Some(e)).GetOr("Register failed"))]
  }

  /** A successful registration signs the user in. */
  lemma RegisterSignsIn(s: Store.RootState, f: RegisterForm, isEmail: string -> bool, body: Value, c: AuthSlice.Codec)
    requires RegisterErrors(f, isEmail) == {}
    ensures var res := UsersService.UnwrapAuthResponse(body);
      ApplyToStore(s, Submit(f, isEmail, Ok(body)), c).session.auth == AuthSlice.AuthState(Some(res.token), res.user)
  {
    var r := Submit(f, isEmail, Ok(body));
    var res := UsersService.UnwrapAuthResponse(body);
    assert r == [r[0]] + [Dispatch(Store.SetAuth(res.token, res.user))] + r[2..];
    ApplyOneDispatch(s, [r[0]], Store.SetAuth(res.token, res.user), r[2..], c);
  }

  /** A failed registration changes the store only through the response
      interceptor: a 401 logs out, any other error leaves the store as it
      was. */
  lemma RegisterFailureOnlyInterceptorActs(s: Store.RootState, f: RegisterForm, isEmail: string -> bool, e: Json, c: AuthSlice.Codec)
    requires RegisterErrors(f, isEmail) == {}
    ensures var after := ApplyToStore(s, Submit(f, isEmail, Err(e)), c);
      (!ApiClient.IsUnauthorized(Some(e)) ==> after == s) &&
      (ApiClient.IsUnauthorized(Some(e)) ==> after.session.auth == AuthSlice.LoggedOut && after.cart == s.cart && after.ui == s.ui)
  {
    var r := Submit(f, isEmail, Err(e));
    var toast := ToastError(ErrorMessages.GetErrorMessage(Some(e)).GetOr("Register failed"));
    assert r == [r[0]] + Rejected(e) + [toast];
    ApplyRejected(s, [r[0]], e, [toast], c);
  }
}

=== FILE: review_modal.dfy ===
/** The "Give Review" dialog of a returned loan
    (src/components/review-modal.tsx): five stars, a comment box and a Send
    button that posts the review through `submitReview`. */
module ReviewModal {
  import opened Wrappers
  import opened Json
  import QueryCache
  import ReviewsService
  import opened Effects

  /** The dialog's local state. */
  datatype ModalState = ModalState(open: bool, rating: int, comment: string)

  /** Closed, no star chosen, empty comment. */
  const INITIAL := ModalState(false, 0, "")

  /** The rating is none (0) or one of the five stars. */
  predicate Valid(s: ModalState) {
    0 <= s.rating <= 5
  }

  /** Star `star` (1 to 5) is drawn yellow. */
  predicate StarLit(s: ModalState, star: int) {
    star <= s.rating
  }

  /** Clicking star `star`; the stars are the literal list 1 to 5. */
  function ClickStar(s: ModalState, star: int): (r: ModalState)
    requires 1 <= star <= 5
    ensures Valid(r) && r.open == s.open && r.comment == s.comment
    ensures forall k :: 1 <= k <= 5 ==> (StarLit(r, k) <==> k <= star)
  {
    s.(rating := star)
  }

  /** Send is clickable: a star has been chosen and no submission is in
      flight. */
  predicate SendEnabled(s: ModalState, pending: bool) {
    !(s.rating == 0 || pending)
  }

  /** The click handler posts only when `rating > 0`. */
  predicate Submits(s: ModalState, pending: bool) {
    SendEnabled(s, pending) && s.rating > 0
  }

  /** On a valid state the handler's own guard adds nothing to the
      button's. */
  lemma SubmitsIffEnabled(s: ModalState, pending: bool)
    requires Valid(s)
    ensures Submits(s, pending) <==> SendEnabled(s, pending)
  {
  }

  /** The request Send makes: the loan's book, the rating (sent as `star`)
      and the comment (`comment || ""` is the comment itself). */
  function SendRequest(s: ModalState, bookId: Json): (r: Effect)
    ensures r.Request? && r.verb == "POST" && r.path == "/reviews" && r.body.Some?
    ensures Prop(r.body, "bookId") == Some(bookId)
    ensures Prop(r.body, "star") == Some(JNum(s.rating))
    ensures Prop(r.body, "comment") == Some(JStr(s.comment))
  {
    Request("POST", "/reviews", Some(ReviewsService.SubmitReviewBody(bookId, JNum(s.rating), JStr(s.comment))))
  }

  /** Pressing Send for the loan of `bookId`; `outcome` is how the request
      settles. A success closes and resets the dialog and refreshes loans
      and reviews; a failure passes the response interceptor (a 401 logs
      out) and is otherwise only logged. */
  function Send(s: ModalState, bookId: Json, pending: bool, outcome: Result<Value, Json>): (r: (seq<Effect>, ModalState))
    ensures !Submits(s, pending) ==> r == ([], s)
    ensures Submits(s, pending) ==> |r.0| >= 1 && r.0[0] == SendRequest(s, bookId)
    ensures Submits(s, pending) && outcome.Ok? ==>
      r.0[1..] == [Invalidate(Key1("loans")), Invalidate(Key1("reviews"))] && r.1 == INITIAL
    ensures Submits(s, pending) && outcome.Err? ==> r.0 == [SendRequest(s, bookId)] + Rejected(outcome.error) && r.1 == s
  {
    if s.rating == 0 || pending then ([], s)
    else if !(s.rating > 0) then ([], s)
    else
      match outcome
      case Ok(_) => ([SendRequest(s, bookId), Invalidate(Key1("loans")), Invalidate(Key1("reviews"))], INITIAL)
      case Err(e) => ([SendRequest(s, bookId)] + Rejected(e), s)
  }

  /** What the user can do with the dialog. */
  datatype Event =
    | OpenChange(open: bool)
    | Star(star: int)
    | Type(text: string)
    | Press(bookId: Json, pending: bool, outcome: Result<Value, Json>)

  /** Stars clicked are among the five drawn. */
  predicate Possible(e: Event) {
    e.Star? ==> 1 <= e.star <= 5
  }

  /** The dialog after one event. */
  function Step(s: ModalState, e: Event): (r: ModalState)
    requires Possible(e)
    ensures Valid(s) ==> Valid(r)
    ensures e.Press? && PressSucceeds(e) && Submits(s, e.pending) ==> r == INITIAL
  {
    match e
    case OpenChange(o) => s.(open := o)
    case Star(k) => ClickStar(s, k)
    case Type(t) => s.(comment := t)
    case Press(b, p, o) => Send(s, b, p, o).1
  }

  /** A press whose request succeeds. */
  predicate PressSucceeds(e: Event)
    requires e.Press?
  {
    e.outcome.Ok?
  }

  /** The dialog after a run of events. */
  function Run(s: ModalState, es: seq<Event>): ModalState
    requires forall i :: 0 <= i < |es| ==> Possible(es[i])
    decreases |es|
  {
    if |es| == 0 then s else Run(Step(s, es[0]), es[1..])
  }

  /** Whatever the user does, the rating stays between 0 and 5. */
  lemma {:induction false} RunKeepsValid(s: ModalState, es: seq<Event>)
    requires Valid(s)
    requires forall i :: 0 <= i < |es| ==> Possible(es[i])
    ensures Valid(Run(s, es))
    decreases |es|
  {
    if |es| > 0 {
      RunKeepsValid(Step(s, es[0]), es[1..]);
    }
  }

  /** Typing a comment, choosing a star and pressing Send posts exactly the
      star and comment entered, whatever the dialog held before. */
  lemma SendsWhatWasEntered(s: ModalState, text: string, star: int, bookId: Json, outcome: Result<Value, Json>)
    requires 1 <= star <= 5
    ensures var t := Run(s, [Type(text), Star(star)]);
      var r := Send(t, bookId, false, outcome).0;
      |r| >= 1 && Prop(r[0].body, "star") == Some(JNum(star)) && Prop(r[0].body, "comment") == Some(JStr(text))
  {
    var s1 := Step(s, Type(text));
    assert [Type(text), Star(star)][1..] == [Star(star)];
    assert Run(s, [Type(text), Star(star)]) == Run(s1, [Star(star)]);
    assert Run(s1, [Star(star)]) == Run(Step(s1, Star(star)), []);
    assert Run(s, [Type(text), Star(star)]) == ModalState(s.open, star, text);
  }

  /** After a successful review the dialog opens again with no star, so
      Send is disabled until a star is chosen. */
  lemma SuccessDisablesNextSend(s: ModalState, bookId: Json, body: Value, pending: bool)
    requires Submits(s, false)
    ensures var t := Step(Send(s, bookId, false, Ok(body)).1, OpenChange(true));
      t.open && t.comment == "" && !SendEnabled(t, pending)
  {
  }

  /** A successful review marks every cached loans query and every cached
      reviews query stale. */
  lemma SuccessRefreshesLoansAndReviews<V>(cache: QueryCache.Cache<V>, s: ModalState, bookId: Json, body: Value, k: QueryCache.Key)
    requires Submits(s, false) && k in cache
    requires |k| > 0 && (k[0] == QueryCache.Str("loans") || k[0] == QueryCache.Str("reviews"))
    ensures ApplyToCache(cache, Send(s, bookId, false, Ok(body)).0)[k].stale
  {
    var es := Send(s, bookId, false, Ok(body)).0;
    assert es == [SendRequest(s, bookId), Invalidate(Key1("loans")), Invalidate(Key1("reviews"))];
    assert k[..1] == [k[0]];
    if k[0] == QueryCache.Str("loans") {
      assert es[1].Invalidate? && QueryCache.IsPrefix(es[1].prefix, k);
    } else {
      assert es[2].Invalidate? && QueryCache.IsPrefix(es[2].prefix, k);
    }
  }
}

=== FILE: reviews_service.dfy ===
/** The review endpoints (src/services/reviews.ts). */
module ReviewsService {
  import opened Wrappers
  import opened Json
  import Text
  import AuthorEnrichment

  /** The body `submitReview` posts to "/reviews": the rating travels as
      `star`. */
  function SubmitReviewBody(bookId: Json, rating: Json, comment: Json): (r: Json)
    ensures Prop(Some(r), "bookId") == Some(bookId)
    ensures Prop(Some(r), "star") == Some(rating)
    ensures Prop(Some(r), "comment") == Some(comment)
    ensures !HasKey(Some(r), "rating")
  {
    JObj(map["bookId" := bookId, "star" := rating, "comment" := comment])
  }

  const DEFAULT_PAGE: int := 1
  const DEFAULT_LIMIT: int := 20

  /** The path `getUserReviews(page, limit)` requests; omitted arguments
      default to page 1 and limit 20. */
  function UserReviewsPath(page: Option<int>, limit: Option<int>): (r: string)
    ensures page.None? && limit.None? ==> r == "/me/reviews?page=1&limit=20"
  {
    "/me/reviews?page=" + Text.IntToString(page.GetOr(DEFAULT_PAGE))
      + "&limit=" + Text.IntToString(limit.GetOr(DEFAULT_LIMIT))
  }

  /** `getUserReviews`: when the body has a truthy `data.reviews`, the same
      envelope with every review's book author filled in; otherwise the body
      unchanged. */
  function GetUserReviews(data: Value, fetch: AuthorEnrichment.Fetch): (r: Result<Value, Json>)
    ensures !Truthy(Prop(Prop(data, "data"), "reviews")) ==> r == Ok(data)
    ensures Truthy(Prop(Prop(data, "data"), "reviews")) && !IsArray(Prop(Prop(data, "data"), "reviews")) ==> r == Err(TypeError)
    ensures r.Ok? && Truthy(Prop(Prop(data, "data"), "reviews")) ==>
      var reviews := Prop(Prop(data, "data"), "reviews").value.items;
      (forall k :: k != "data" ==> Prop(r.value, k) == Prop(data, k)) &&
      (forall k :: k != "reviews" ==> Prop(Prop(r.value, "data"), k) == Prop(Prop(data, "data"), k)) &&
      AuthorEnrichment.EnrichAll(reviews, fetch).Ok? &&
      Prop(Prop(r.value, "data"), "reviews") == Some(JArr(AuthorEnrichment.EnrichAll(reviews, fetch).value))
  {
    var inner := Prop(data, "data");
    var reviews := Prop(inner, "reviews");
    if !Truthy(reviews) then Ok(data)
    else if !IsArray(reviews) then Err(TypeError)
    else match AuthorEnrichment.EnrichAll(reviews.value.items, fetch)
      case Err(e) => Err(e)
      case Ok(enriched) =>
        var newInner := JObj(SpreadFields(inner)["reviews" := JArr(enriched)]);
        Ok(Some(JObj(SpreadFields(data)["data" := newInner])))
  }
}

=== FILE: reviews_tab.dfy ===
/** The reviews tab of the user's page (src/components/reviews-tab.tsx):
    the star display, the search over the user's reviews, the lookup of the
    loan a review can return, and the return and delete dialogs. */
module ReviewsTab {
  import opened Wrappers
  import opened Json
  import Seqs
  import Text
  import QueryCache
  import ErrorMessages
  import opened Effects

  /** `Math.max(0, Math.min(5, value || 0))`: the number of filled stars.
      A value `Number` cannot read gives `NaN`, which fills none. */
  function StarCount(value: Value): (r: Num)
    ensures var n := ToNumber(Or(value, Some(JNum(0))));
      (r.NaN? <==> n.NaN?) &&
      (n.Int? ==> 0 <= r.v <= 5) &&
      (n.Int? && 0 <= n.v <= 5 ==> r.v == n.v) &&
      (n.Int? && n.v < 0 ==> r.v == 0) &&
      (n.Int? && n.v > 5 ==> r.v == 5)
    ensures !Truthy(value) ==> r == Int(0)
  {
    match ToNumber(Or(value, Some(JNum(0))))
    case NaN => NaN
    case Int(n) => Int(if n < 0 then 0 else if n > 5 then 5 else n)
  }

  /** Star `i` (0-based) is drawn filled. */
  predicate StarFilled(value: Value, i: int) {
    StarCount(value).Int? && i < StarCount(value).v
  }

  /** A rating within 1..5 fills exactly that many stars. */
  lemma FilledStarsMatchRating(n: int, i: int)
    requires 1 <= n <= 5 && 0 <= i < 5
    ensures StarFilled(Some(JNum(n)), i) <==> i < n
  {
    assert Or(Some(JNum(n)), Some(JNum(0))) == Some(JNum(n));
  }

  /** `data?.data?.reviews ?? []`. */
  function ReviewsOf(data: Value): Json {
    Coalesce(Prop(Prop(data, "data"), "reviews"), Some(JArr([]))).value
  }

  function Title(r: Json): Value {
    Prop(Prop(Some(r), "book"), "title")
  }

  /** The four texts the search looks at, in the order it reads them:
      the title, the author's name, the comment and the category (`''`
      when falsy). */
  function SearchFields(r: Json): (f: seq<Value>)
    ensures |f| == 4 && f[0] == Title(r)
  {
    var book := Prop(Some(r), "book");
    [Prop(book, "title"), Prop(Prop(book, "author"), "name"), Prop(Some(r), "comment"),
     Or(Prop(book, "category"), Some(JStr("")))]
  }

  /** A text contains the search, ignoring case. */
  predicate FieldHit(f: Value, search: string) {
    IsString(f) && Text.ContainsIgnoreCase(f.value.s, search)
  }

  /** The search test on one review, evaluated as `||` does, left to
      right and stopping at the first hit. Reading the title off a review
      without a book, or lower-casing a title, comment or category that is
      not a string, throws; a missing author or name is skipped. */
  function ReviewMatch(r: Json, search: string): (res: Result<bool, Json>)
    ensures res.Err? ==> res.error == TypeError
    ensures !IsString(Title(r)) ==> res.Err?
    ensures FieldHit(Title(r), search) ==> res == Ok(true)
    ensures res.Ok? ==> (res.value <==> exists j :: 0 <= j < 4 && FieldHit(SearchFields(r)[j], search))
  {
    var f := SearchFields(r);
    if !IsString(f[0]) then Err(TypeError)
    else if FieldHit(f[0], search) then Ok(true)
    else if !IsNullish(f[1]) && !IsString(f[1]) then Err(TypeError)
    else if FieldHit(f[1], search) then Ok(true)
    else if !IsString(f[2]) then Err(TypeError)
    else if FieldHit(f[2], search) then Ok(true)
    else if !IsString(f[3]) then Err(TypeError)
    else Ok(FieldHit(f[3], search))
  }

  /** The search keeps the review. */
  predicate Matches(x: Json, search: string) {
    ReviewMatch(x, search) == Ok(true)
  }

  /** The search test throws on the review. */
  predicate Throws(x: Json, search: string) {
    ReviewMatch(x, search).Err?
  }

  /** The search over a list of reviews: `Err` when the test throws on one
      of them, else the matching reviews in their original order. */
  function SearchReviews(all: seq<Json>, search: string): (r: Result<seq<Json>, Json>)
    ensures r.Err? ==> r.error == TypeError
    ensures r.Ok? <==> forall i :: 0 <= i < |all| ==> !Throws(all[i], search)
    ensures r.Ok? ==> Seqs.IsSubseq(r.value, all)
    ensures r.Ok? ==> forall i :: 0 <= i < |r.value| ==> Matches(r.value[i], search)
    ensures r.Ok? ==> forall i :: 0 <= i < |all| && Matches(all[i], search) ==> all[i] in r.value
  {
    var keep := (x: Json) => Matches(x, search);
    match Seqs.FilterChecked(all, (x: Json) => Throws(x, search), keep)
    case None => Err(TypeError)
    case Some(kept) => Seqs.FilterIsSubseq(all, keep); Ok(kept)
  }

  /** `filteredReviews`: every review for a blank search, else the reviews
      matching the search in their original order. */
  function FilteredReviews(data: Value, search: string): (r: Result<Json, Json>)
    ensures Text.IsBlank(search) ==> r == Ok(ReviewsOf(data))
    ensures !Text.IsBlank(search) && !ReviewsOf(data).JArr? ==> r == Err(TypeError)
    ensures !Text.IsBlank(search) && ReviewsOf(data).JArr? ==>
      match SearchReviews(ReviewsOf(data).items, search)
      case Ok(kept) => r == Ok(JArr(kept))
      case Err(e) => r == Err(e)
  {
    var reviews := ReviewsOf(data);
    if Text.Trim(search) == "" then Ok(reviews)
    else if !reviews.JArr? then Err(TypeError)
    else
      match SearchReviews(reviews.items, search)
      case Ok(kept) => Ok(JArr(kept))
      case Err(e) => Err(e)
  }

  /** Any review whose title contains the search is listed. */
  lemma TitleHitIsListed(data: Value, search: string, i: int)
    requires !Text.IsBlank(search) && ReviewsOf(data).JArr?
    requires FilteredReviews(data, search).Ok?
    requires 0 <= i < |ReviewsOf(data).items|
    requires FieldHit(Title(ReviewsOf(data).items[i]), search)
    ensures ReviewsOf(data).items[i] in FilteredReviews(data, search).value.items
  {
  }

  /** `a === b` on JSON values: equal primitives; two objects that came
      from different responses are never the same reference. */
  predicate StrictEquals(a: Value, b: Value) {
    a == b && !IsObject(a)
  }

  /** A loan that is still out for the book with id `bookId`. */
  predicate BorrowedFor(loan: Json, bookId: Value) {
    StrictEquals(Prop(Some(loan), "bookId"), bookId) && Prop(Some(loan), "status") == Some(JStr("BORROWED"))
  }

  /** `loan` is the first loan among `loans` that is out for the book. */
  predicate FirstBorrowed(loans: seq<Json>, bookId: Value, loan: Json) {
    exists i :: 0 <= i < |loans| && loans[i] == loan && BorrowedFor(loans[i], bookId) &&
      forall j :: 0 <= j < i ==> !BorrowedFor(loans[j], bookId)
  }

  /** `correspondingLoan`: the first loan that is out for the review's book,
      where `bookId` is the review's `bookId` and `loans` the loan query's
      data (`None` before it arrives). A `null` loan reached before a match
      throws. */
  function CorrespondingLoan(loans: Option<seq<Json>>, bookId: Value): (r: Result<Option<Json>, Json>)
    ensures loans.None? ==> r == Ok(None)
    ensures r.Err? ==> r.error == TypeError
    ensures loans.Some? && (forall i :: 0 <= i < |loans.value| ==> !loans.value[i].JNull?) ==> r.Ok?
    ensures r.Ok? && r.value.Some? ==> loans.Some? && FirstBorrowed(loans.value, bookId, r.value.value)
    ensures r.Ok? && r.value.None? && loans.Some? ==> forall i :: 0 <= i < |loans.value| ==> !BorrowedFor(loans.value[i], bookId)
  {
    if loans.None? then Ok(None)
    else match Seqs.FindIndex(loans.value, (l: Json) => l.JNull? || BorrowedFor(l, bookId))
      case None => Ok(None)
      case Some(i) => if loans.value[i].JNull? then Err(TypeError) else Ok(Some(loans.value[i]))
  }

  /** The return dialog and the loan it is about. */
  datatype ReturnDialog = ReturnDialog(open: bool, selected: Option<Json>)

  /** `handleReturnClick`: opens the dialog on the corresponding loan, and
      does nothing when there is none. */
  function ClickReturn(d: ReturnDialog, found: Option<Json>): (r: ReturnDialog)
    ensures found.None? ==> r == d
    ensures found.Some? ==> r.open && r.selected == found
  {
    if found.Some? then ReturnDialog(true, found) else d
  }

  /** The dialog only ever opens on a loan that is out for the review's
      book. */
  lemma DialogOpensOnBorrowedLoan(d: ReturnDialog, loans: seq<Json>, bookId: Value)
    requires CorrespondingLoan(Some(loans), bookId).Ok?
    requires !d.open
    ensures var r := ClickReturn(d, CorrespondingLoan(Some(loans), bookId).value);
      r.open ==> r.selected.Some? && r.selected.value in loans && BorrowedFor(r.selected.value, bookId)
  {
  }

  /** `returnBookMutation` for the selected loan: `PATCH /loans/{id}/return`
      without a body, then the toast, the refresh and the dialog. */
  function ReturnBook(d: ReturnDialog, loanId: Json, outcome: Result<Value, Json>): (r: (seq<Effect>, ReturnDialog))
    ensures |r.0| >= 2 && r.0[0] == Request("PATCH", "/loans/" + JsonToStr(loanId) + "/return", None)
    ensures outcome.Ok? ==> r.0[1..] == [ToastSuccess("Book successfully returned"), Invalidate(Key1("loans"))]
    ensures outcome.Ok? ==> r.1 == ReturnDialog(false, None)
    ensures outcome.Err? ==>
      r.0[1..] == Rejected(outcome.error) + [ToastError(ErrorMessages.GetErrorMessage(Some(outcome.error)).GetOr("Failed to return book"))] &&
      r.1 == d
  {
    var req := Request("PATCH", "/loans/" + JsonToStr(loanId) + "/return", None);
    match outcome
    case Ok(_) => ([req, ToastSuccess("Book successfully returned"), Invalidate(Key1("loans"))], ReturnDialog(false, None))
    case Err(e) => ([req] + Rejected(e) + [ToastError(ErrorMessages.GetErrorMessage(Some(e)).GetOr("Failed to return book"))], d)
  }

  /** The delete dialog and the review it is about. */
  datatype DeleteDialog = DeleteDialog(open: bool, selected: Option<Json>)

  /** `deleteReviewMutation` once `deleteReview` has settled with
      `outcome`. The request itself is made by `deleteReview`, which is not
      part of this model; like every other call of the reviews service it
      is taken to go through the shared client, so a 401 logs out before
      the error toast. */
  function DeleteReview(d: DeleteDialog, outcome: Result<Value, Json>): (r: (seq<Effect>, DeleteDialog))
    ensures outcome.Ok? ==>
      r.0 == [ToastSuccess("Review deleted successfully"), Invalidate(Key1("reviews"))] && r.1 == DeleteDialog(false, None)
    ensures outcome.Err? ==>
      r.0 == Rejected(outcome.error) + [ToastError(ErrorMessages.GetErrorMessage(Some(outcome.error)).GetOr("Failed to delete review"))] &&
      r.1 == d
  {
    match outcome
    case Ok(_) => ([ToastSuccess("Review deleted successfully"), Invalidate(Key1("reviews"))], DeleteDialog(false, None))
    case Err(e) => (Rejected(e) + [ToastError(ErrorMessages.GetErrorMessage(Some(e)).GetOr("Failed to delete review"))], d)
  }

  /** `['reviews', currentPage]`; the tab never leaves page 1. */
  const REVIEWS_KEY: QueryCache.Key := [QueryCache.Str("reviews"), QueryCache.Num(1)]

  /** Neither of the two keys the tab invalidates is a prefix of the
      other's queries. */
  lemma LoansIsNotReviews()
    ensures !QueryCache.IsPrefix(Key1("reviews"), Key1("loans"))
    ensures !QueryCache.IsPrefix(Key1("loans"), REVIEWS_KEY)
  {
    assert |"loans"| == 5 && |"reviews"| == 7;
    assert QueryCache.Str("loans") != QueryCache.Str("reviews");
    assert Key1("loans")[..1] == [QueryCache.Str("loans")];
    assert REVIEWS_KEY[..1] == [QueryCache.Str("reviews")];
  }

  /** A deleted review refreshes the review list and leaves the cached
      loans exactly as they were. */
  lemma DeleteRefreshesReviewsOnly<V>(cache: QueryCache.Cache<V>, d: DeleteDialog, body: Value)
    requires REVIEWS_KEY in cache && Key1("loans") in cache
    ensures var after := ApplyToCache(cache, DeleteReview(d, Ok(body)).0);
      after[REVIEWS_KEY].stale && after[Key1("loans")] == cache[Key1("loans")]
  {
    var es := DeleteReview(d, Ok(body)).0;
    assert es == [ToastSuccess("Review deleted successfully"), Invalidate(Key1("reviews"))];
    assert QueryCache.IsPrefix(Key1("reviews"), REVIEWS_KEY);
    LoansIsNotReviews();
  }

  /** A returned book refreshes the loans and leaves the cached review
      list exactly as it was. */
  lemma ReturnRefreshesLoansOnly<V>(cache: QueryCache.Cache<V>, d: ReturnDialog, loanId: Json, body: Value)
    requires REVIEWS_KEY in cache && Key1("loans") in cache
    ensures var after := ApplyToCache(cache, ReturnBook(d, loanId, Ok(body)).0);
      after[Key1("loans")].stale && after[REVIEWS_KEY] == cache[REVIEWS_KEY]
  {
    var es := ReturnBook(d, loanId, Ok(body)).0;
    assert es == [es[0], ToastSuccess("Book successfully returned"), Invalidate(Key1("loans"))];
    assert QueryCache.IsPrefix(Key1("loans"), Key1("loans"));
    LoansIsNotReviews();
    assert forall i :: 0 <= i < |es| && es[i].Invalidate? ==> !QueryCache.IsPrefix(es[i].prefix, REVIEWS_KEY);
    var after := ApplyToCache(cache, es);
    assert es[2].Invalidate? && QueryCache.IsPrefix(es[2].prefix, Key1("loans"));
    assert after[Key1("loans")].stale;
  }
}

=== FILE: seqs.dfy ===
/** Order-preserving selection over sequences: `Array.prototype.filter`, the
    subsequence relation it establishes, and first-match search
    (`Array.prototype.find`). */
module Seqs {
  import opened Wrappers

  /** `a` is `b` with some elements dropped and the rest kept in order. */
  predicate IsSubseq<T(==)>(a: seq<T>, b: seq<T>)
    decreases |b|
  {
    |a| == 0 || (|b| > 0 && ((a[0] == b[0] && IsSubseq(a[1..], b[1..])) || IsSubseq(a, b[1..])))
  }

  lemma {:induction false} SubseqRefl<T>(a: seq<T>)
    ensures IsSubseq(a, a)
  {
    if |a| > 0 {
      SubseqRefl(a[1..]);
    }
  }

  lemma {:induction false} SubseqMembers<T>(a: seq<T>, b: seq<T>)
    requires IsSubseq(a, b)
    ensures |a| <= |b|
    ensures forall i :: 0 <= i < |a| ==> a[i] in b
  {
    if |a| > 0 {
      if a[0] == b[0] && IsSubseq(a[1..], b[1..]) {
        SubseqMembers(a[1..], b[1..]);
        assert forall i :: 1 <= i < |a| ==> a[i] == a[1..][i - 1];
      } else {
        SubseqMembers(a, b[1..]);
      }
    }
  }

  lemma {:induction false} SubseqTrans<T>(a: seq<T>, b: seq<T>, c: seq<T>)
    requires IsSubseq(a, b) && IsSubseq(b, c)
    ensures IsSubseq(a, c)
    decreases |c|
  {
    if |a| > 0 {
      assert |b| > 0 && |c| > 0;
      if b[0] == c[0] && IsSubseq(b[1..], c[1..]) {
        if a[0] == b[0] && IsSubseq(a[1..], b[1..]) {
          SubseqTrans(a[1..], b[1..], c[1..]);
        } else {
          SubseqTrans(a, b[1..], c[1..]);
        }
      } else {
        SubseqTrans(a, b, c[1..]);
      }
    }
  }

  /** `s.filter(p)`. */
  function Filter<T(==)>(s: seq<T>, p: T -> bool): (r: seq<T>)
    ensures |r| <= |s|
    ensures forall i :: 0 <= i < |r| ==> p(r[i]) && r[i] in s
    ensures forall i :: 0 <= i < |s| && p(s[i]) ==> s[i] in r
  {
    if |s| == 0 then []
    else
      var rest := Filter(s[1..], p);
      if p(s[0]) then [s[0]] + rest else rest
  }

  lemma {:induction false} FilterIsSubseq<T>(s: seq<T>, p: T -> bool)
    ensures IsSubseq(Filter(s, p), s)
  {
    if |s| > 0 {
      FilterIsSubseq(s[1..], p);
      var r := Filter(s, p);
      if p(s[0]) {
        assert r[1..] == Filter(s[1..], p);
      }
    }
  }

  /** Keeping everything keeps the sequence. */
  lemma {:induction false} FilterAll<T>(s: seq<T>, p: T -> bool)
    requires forall i :: 0 <= i < |s| ==> p(s[i])
    ensures Filter(s, p) == s
  {
    if |s| > 0 {
      FilterAll(s[1..], p);
      assert [s[0]] + s[1..] == s;
    }
  }

  /** Keeping nothing leaves nothing. */
  lemma {:induction false} FilterNone<T>(s: seq<T>, p: T -> bool)
    requires forall i :: 0 <= i < |s| ==> !p(s[i])
    ensures Filter(s, p) == []
  {
    if |s| > 0 {
      FilterNone(s[1..], p);
    }
  }

  /** A weaker test keeps a supersequence of what a stronger test keeps. */
  lemma {:induction false} FilterMono<T>(s: seq<T>, p: T -> bool, q: T -> bool)
    requires forall i :: 0 <= i < |s| ==> p(s[i]) ==> q(s[i])
    ensures IsSubseq(Filter(s, p), Filter(s, q))
  {
    if |s| > 0 {
      FilterMono(s[1..], p, q);
      var a := Filter(s, p);
      var b := Filter(s, q);
      if p(s[0]) {
        assert a[1..] == Filter(s[1..], p) && b[1..] == Filter(s[1..], q);
      } else if q(s[0]) {
        assert b[1..] == Filter(s[1..], q);
        SubseqSkip(a, s[0], b[1..]);
      }
    }
  }

  lemma {:induction false} SubseqSkip<T>(a: seq<T>, x: T, b: seq<T>)
    requires IsSubseq(a, b)
    ensures IsSubseq(a, [x] + b)
  {
    assert ([x] + b)[1..] == b;
  }

  /** Filtering twice is filtering once by the conjunction. */
  lemma {:induction false} FilterFilter<T>(s: seq<T>, p: T -> bool, q: T -> bool, pq: T -> bool)
    requires forall i :: 0 <= i < |s| ==> pq(s[i]) == (p(s[i]) && q(s[i]))
    ensures Filter(Filter(s, p), q) == Filter(s, pq)
  {
    if |s| > 0 {
      FilterFilter(s[1..], p, q, pq);
      if p(s[0]) {
        assert Filter(s, p) == [s[0]] + Filter(s[1..], p);
        assert ([s[0]] + Filter(s[1..], p))[1..] == Filter(s[1..], p);
      }
    }
  }

  /** Every element that passes is kept as many times as it occurs. */
  lemma {:induction false} FilterMultiplicity<T>(s: seq<T>, p: T -> bool)
    ensures forall x :: p(x) ==> multiset(Filter(s, p))[x] == multiset(s)[x]
  {
    if |s| > 0 {
      FilterMultiplicity(s[1..], p);
      assert s == [s[0]] + s[1..];
    }
  }

  /** Filtering twice keeps every element passing both tests as many times
      as it occurs. */
  lemma FilterTwiceMultiplicity<T>(s: seq<T>, p: T -> bool, q: T -> bool)
    ensures forall x :: p(x) && q(x) ==> multiset(Filter(Filter(s, p), q))[x] == multiset(s)[x]
  {
    FilterMultiplicity(s, p);
    FilterMultiplicity(Filter(s, p), q);
  }

  /** Filtering distributes over appending one element. */
  lemma {:induction false} FilterSnoc<T>(s: seq<T>, x: T, p: T -> bool)
    ensures Filter(s + [x], p) == Filter(s, p) + (if p(x) then [x] else [])
  {
    if |s| == 0 {
      assert s + [x] == [x];
    } else {
      assert (s + [x])[1..] == s[1..] + [x];
      FilterSnoc(s[1..], x, p);
    }
  }

  /** The positions of `s` whose element passes `p`. */
  function IndicesWhere<T>(s: seq<T>, p: T -> bool): set<int> {
    set i | 0 <= i < |s| && p(s[i])
  }

  /** `s.filter(p).length` is the number of positions whose element passes. */
  lemma {:induction false} FilterLengthCountsIndices<T>(s: seq<T>, p: T -> bool)
    ensures |Filter(s, p)| == |IndicesWhere(s, p)|
  {
    if |s| > 0 {
      var t, x := s[..|s| - 1], s[|s| - 1];
      assert s == t + [x];
      FilterSnoc(t, x, p);
      FilterLengthCountsIndices(t, p);
      IndicesWhereSnoc(t, x, p);
    }
  }

  lemma IndicesWhereSnoc<T>(t: seq<T>, x: T, p: T -> bool)
    ensures |IndicesWhere(t + [x], p)| == |IndicesWhere(t, p)| + (if p(x) then 1 else 0)
  {
    var before, after := IndicesWhere(t, p), IndicesWhere(t + [x], p);
    assert |t| !in before;
    forall i | 0 <= i < |t|
      ensures i in after <==> i in before
    {
      assert (t + [x])[i] == t[i];
    }
    assert (t + [x])[|t|] == x;
    if p(x) {
      assert after == before + {|t|};
    } else {
      assert after == before;
    }
  }

  /** Two tests that agree on every element keep the same elements. */
  lemma {:induction false} FilterExt<T>(s: seq<T>, p: T -> bool, q: T -> bool)
    requires forall i :: 0 <= i < |s| ==> p(s[i]) == q(s[i])
    ensures Filter(s, p) == Filter(s, q)
  {
    if |s| > 0 {
      FilterExt(s[1..], p, q);
    }
  }

  /** `s.filter(p)` where evaluating `p` throws on the elements `fails`
      holds of: one such element aborts the whole call. */
  function FilterChecked<T(==)>(s: seq<T>, fails: T -> bool, p: T -> bool): (r: Option<seq<T>>)
    ensures r.None? <==> exists i :: 0 <= i < |s| && fails(s[i])
    ensures r.Some? ==> r.value == Filter(s, p)
  {
    if exists i :: 0 <= i < |s| && fails(s[i]) then None else Some(Filter(s, p))
  }

  /** Mapping a non-empty sequence element by element: the head's result
      followed by the tail's results covers every index. */
  lemma OkCons<A, B, E>(xs: seq<A>, f: A -> Result<B, E>, y: B, rest: seq<B>)
    requires |xs| > 0 && f(xs[0]) == Ok(y)
    requires |rest| == |xs| - 1 && forall i :: 0 <= i < |rest| ==> f(xs[1..][i]) == Ok(rest[i])
    ensures forall i :: 0 <= i < |xs| ==> f(xs[i]) == Ok(([y] + rest)[i])
  {
    forall i | 0 <= i < |xs|
      ensures f(xs[i]) == Ok(([y] + rest)[i])
    {
      if i > 0 {
        assert xs[i] == xs[1..][i - 1];
      }
    }
  }

  /** How many elements pass `p`. */
  function Count<T(==)>(s: seq<T>, p: T -> bool): nat {
    |Filter(s, p)|
  }

  /** The index of the first element satisfying `p`, if any (`findIndex`). */
  function FindIndex<T>(s: seq<T>, p: T -> bool): (r: Option<nat>)
    ensures r.Some? ==> r.value < |s| && p(s[r.value]) && forall j :: 0 <= j < r.value ==> !p(s[j])
    ensures r.None? ==> forall j :: 0 <= j < |s| ==> !p(s[j])
  {
    if |s| == 0 then None
    else if p(s[0]) then Some(0)
    else match FindIndex(s[1..], p)
      case None => None
      case Some(i) => Some(i + 1)
  }

  /** `s.find(p)`. */
  function Find<T>(s: seq<T>, p: T -> bool): (r: Option<T>)
    ensures r.Some? <==> exists i :: 0 <= i < |s| && p(s[i])
  {
    match FindIndex(s, p)
    case None => None
    case Some(i) => Some(s[i])
  }

  /** `s.map(f)`. */
  function Map<T, U>(s: seq<T>, f: T -> U): (r: seq<U>)
    ensures |r| == |s|
    ensures forall i :: 0 <= i < |s| ==> r[i] == f(s[i])
  {
    seq(|s|, i requires 0 <= i < |s| => f(s[i]))
  }
}

=== FILE: store.dfy ===
/** The Redux store (src/store.ts): the three slices combined, and the
    actions the client dispatches to them. */
module Store {
  import opened Wrappers
  import Json
  import AuthSlice
  import CartSlice
  import UiSlice

  datatype RootState = RootState(session: AuthSlice.Session, cart: CartSlice.CartState, ui: UiSlice.UiState)

  datatype Action =
    | SetAuth(token: string, user: Json.Json)
    | UpdateUser(patch: map<string, Option<Json.Json>>)
    | Logout
    | CartAdd(item: CartSlice.AddPayload)
    | CartRemove(bookId: string)
    | CartClear
    | SetSearch(search: string)
    | ToggleCategory(id: Json.Value)
    | SetCategories(ids: seq<Json.Value>)

  predicate IsAuthAction(a: Action) { a.SetAuth? || a.UpdateUser? || a.Logout? }
  predicate IsCartAction(a: Action) { a.CartAdd? || a.CartRemove? || a.CartClear? }

  /** The store at page load: auth recovered from storage, empty cart and
      filters. */
  function Initial(storage: Option<AuthSlice.Storage>, c: AuthSlice.Codec): (r: RootState)
    ensures r.cart.items == [] && r.ui == UiSlice.UiState("", [])
    ensures storage.None? ==> r.session.auth == AuthSlice.LoggedOut
    ensures r.session == AuthSlice.InitialAuthState(storage, c)
  {
    RootState(AuthSlice.InitialAuthState(storage, c), CartSlice.Initial, UiSlice.Initial)
  }

  /** `store.dispatch(a)`: each action reaches exactly one slice. */
  function Dispatch(s: RootState, a: Action, c: AuthSlice.Codec): (r: RootState)
    ensures IsAuthAction(a) ==> r.cart == s.cart && r.ui == s.ui
    ensures IsCartAction(a) ==> r.session == s.session && r.ui == s.ui
    ensures !IsAuthAction(a) && !IsCartAction(a) ==> r.session == s.session && r.cart == s.cart
    ensures a.Logout? ==> r.session.auth == AuthSlice.LoggedOut
    ensures a.SetAuth? ==> r.session.auth == AuthSlice.AuthState(Some(a.token), a.user)
    ensures a.CartClear? ==> r.cart.items == []
  {
    match a
    case SetAuth(token, user) => s.(session := AuthSlice.SetAuth(s.session, token, user, c))
    case UpdateUser(patch) => s.(session := AuthSlice.UpdateUser(s.session, patch, c))
    case Logout => s.(session := AuthSlice.Logout(s.session))
    case CartAdd(item) => s.(cart := CartSlice.Add(s.cart, item))
    case CartRemove(id) => s.(cart := CartSlice.Remove(s.cart, id))
    case CartClear => s.(cart := CartSlice.Clear(s.cart))
    case SetSearch(q) => s.(ui := UiSlice.SetSearch(s.ui, q))
    case ToggleCategory(id) => s.(ui := UiSlice.ToggleCategory(s.ui, id))
    case SetCategories(ids) => s.(ui := UiSlice.SetCategories(s.ui, ids))
  }

  /** Dispatching a sequence of actions in order. */
  function DispatchAll(s: RootState, actions: seq<Action>, c: AuthSlice.Codec): (r: RootState)
    ensures (forall i :: 0 <= i < |actions| ==> !IsAuthAction(actions[i])) ==> r.session == s.session
    ensures (forall i :: 0 <= i < |actions| ==> !IsCartAction(actions[i])) ==> r.cart == s.cart
    decreases |actions|
  {
    if |actions| == 0 then s else DispatchAll(Dispatch(s, actions[0], c), actions[1..], c)
  }
}

=== FILE: text.dfy ===
/** The string primitives of JavaScript that the client code relies on:
    `trim`, ASCII case mapping, `includes`, `split(' ')`, and the decimal
    conversions behind `String(n)` and `Number(s)`. Strings are sequences of
    Unicode scalar values, so lengths and indexes agree with JavaScript's
    UTF-16 code units only for text inside the Basic Multilingual Plane. */
module Text {
  import opened Wrappers

  /** The code points ECMAScript's `String.prototype.trim` removes: the
      WhiteSpace and LineTerminator productions of ECMA-262. */
  predicate IsJsSpace(c: char) {
    || c == ' ' || c == '\t' || c == '\n' || c == '\r'
    || c == '\U{000B}' || c == '\U{000C}' || c == '\U{00A0}' || c == '\U{FEFF}'
    || c == '\U{1680}' || ('\U{2000}' <= c <= '\U{200A}')
    || c == '\U{2028}' || c == '\U{2029}' || c == '\U{202F}' || c == '\U{205F}'
    || c == '\U{3000}'
  }

  /** Empty or white space only: exactly the strings whose `trim()` is falsy. */
  predicate IsBlank(s: string) {
    forall i :: 0 <= i < |s| ==> IsJsSpace(s[i])
  }

  /** `s.trimStart()`: the suffix left after dropping leading white space. */
  function TrimStart(s: string): (r: string)
    ensures |r| <= |s| && r == s[|s| - |r|..]
    ensures forall i :: 0 <= i < |s| - |r| ==> IsJsSpace(s[i])
    ensures r == [] || !IsJsSpace(r[0])
  {
    if |s| > 0 && IsJsSpace(s[0]) then TrimStart(s[1..]) else s
  }

  /** `s.trimEnd()`: the prefix left after dropping trailing white space. */
  function TrimEnd(s: string): (r: string)
    ensures |r| <= |s| && r == s[..|r|]
    ensures forall i :: |r| <= i < |s| ==> IsJsSpace(s[i])
    ensures r == [] || !IsJsSpace(r[|r| - 1])
  {
    if |s| > 0 && IsJsSpace(s[|s| - 1]) then TrimEnd(s[..|s| - 1]) else s
  }

  /** `s.trim()`. */
  function Trim(s: string): (r: string)
    ensures |r| <= |s|
    ensures r == [] || (!IsJsSpace(r[0]) && !IsJsSpace(r[|r| - 1]))
    ensures r == [] <==> IsBlank(s)
    ensures SliceBetweenBlanks(s, r)
  {
    TrimEmptyIffBlank(s);
    TrimIsSlice(s);
    TrimEnd(TrimStart(s))
  }

  /** `r` is what lies between a blank prefix and a blank suffix of `s`. */
  predicate SliceBetweenBlanks(s: string, r: string) {
    exists i, j :: 0 <= i <= j <= |s| && r == s[i..j] && IsBlank(s[..i]) && IsBlank(s[j..])
  }

  /** The trimmed string is what lies between a blank prefix and a blank
      suffix. */
  lemma TrimIsSlice(s: string)
    ensures SliceBetweenBlanks(s, TrimEnd(TrimStart(s)))
  {
    var t := TrimStart(s);
    var r := TrimEnd(t);
    assert |t| <= |s| && t == s[|s| - |t|..];
    assert forall k :: 0 <= k < |s| - |t| ==> IsJsSpace(s[k]);
    assert |r| <= |t| && r == t[..|r|];
    assert forall k :: |r| <= k < |t| ==> IsJsSpace(t[k]);
    BetweenBlanks(s, t, r);
  }

  /** A prefix `r` of a suffix `t` of `s`, cut off by white space on both
      sides, is a slice of `s` between a blank prefix and a blank suffix. */
  lemma BetweenBlanks(s: string, t: string, r: string)
    requires |t| <= |s| && t == s[|s| - |t|..]
    requires forall k :: 0 <= k < |s| - |t| ==> IsJsSpace(s[k])
    requires |r| <= |t| && r == t[..|r|]
    requires forall k :: |r| <= k < |t| ==> IsJsSpace(t[k])
    ensures SliceBetweenBlanks(s, r)
  {
    var i := |s| - |t|;
    var j := i + |r|;
    assert r == s[i..j];
    BlankPrefix(s, i);
    BlankSuffix(s, t, r, i);
  }

  lemma BlankPrefix(s: string, i: int)
    requires 0 <= i <= |s|
    requires forall k :: 0 <= k < i ==> IsJsSpace(s[k])
    ensures IsBlank(s[..i])
  {
    forall k | 0 <= k < i ensures IsJsSpace(s[..i][k]) { assert s[..i][k] == s[k]; }
  }

  lemma BlankSuffix(s: string, t: string, r: string, i: int)
    requires 0 <= i <= |s| && t == s[i..] && |r| <= |t|
    requires forall k :: |r| <= k < |t| ==> IsJsSpace(t[k])
    ensures IsBlank(s[i + |r|..])
  {
    var j := i + |r|;
    forall k | 0 <= k < |s| - j ensures IsJsSpace(s[j..][k]) { assert s[j..][k] == t[|r| + k]; }
  }

  /** A string with no white space at either end is its own trim. */
  lemma TrimNoSpaceEnds(s: string)
    requires |s| > 0 && !IsJsSpace(s[0]) && !IsJsSpace(s[|s| - 1])
    ensures Trim(s) == s
  {
    assert TrimStart(s) == s;
    assert TrimEnd(s) == s;
  }

  lemma TrimEmptyIffBlank(s: string)
    ensures TrimEnd(TrimStart(s)) == [] <==> IsBlank(s)
  {
    var t := TrimStart(s);
    var r := TrimEnd(t);
    var k := |s| - |t|;
    if r == [] {
      assert t == [];
    } else {
      assert s[k] == t[0] == r[0];
    }
  }

  lemma TrimBlank(s: string)
    requires IsBlank(s)
    ensures Trim(s) == []
  {
  }

  // ----- ASCII case mapping (String.prototype.toLowerCase / toUpperCase) -----

  predicate IsUpperAscii(c: char) { 'A' <= c <= 'Z' }
  predicate IsLowerAscii(c: char) { 'a' <= c <= 'z' }

  function LowerChar(c: char): (r: char)
    ensures !IsUpperAscii(r)
  {
    if IsUpperAscii(c) then (c as int + 32) as char else c
  }

  function UpperChar(c: char): (r: char)
    ensures !IsLowerAscii(r)
  {
    if IsLowerAscii(c) then (c as int - 32) as char else c
  }

  /** `s.toLowerCase()` restricted to ASCII letters. */
  function ToLower(s: string): (r: string)
    ensures |r| == |s|
    ensures forall i :: 0 <= i < |r| ==> !IsUpperAscii(r[i])
    ensures forall i :: 0 <= i < |r| ==> LowerChar(r[i]) == LowerChar(s[i])
  {
    seq(|s|, i requires 0 <= i < |s| => LowerChar(s[i]))
  }

  /** `s.toUpperCase()` restricted to ASCII letters. */
  function ToUpper(s: string): (r: string)
    ensures |r| == |s|
    ensures forall i :: 0 <= i < |r| ==> !IsLowerAscii(r[i])
  {
    seq(|s|, i requires 0 <= i < |s| => UpperChar(s[i]))
  }

  // ----- String.prototype.includes -----

  predicate StartsWith(s: string, p: string) {
    |p| <= |s| && s[..|p|] == p
  }

  /** `h.includes(n)`: `n` occurs in `h` at some offset. */
  predicate Contains(h: string, n: string)
    decreases |h|
  {
    StartsWith(h, n) || (|h| > 0 && Contains(h[1..], n))
  }

  /** Every string includes the empty string. */
  lemma ContainsEmpty(h: string)
    ensures Contains(h, [])
  {
  }

  /** Every string includes itself. */
  lemma ContainsSelf(h: string)
    ensures Contains(h, h)
  {
    assert StartsWith(h, h);
  }

  /** `hay.toLowerCase().includes(needle.toLowerCase())`. */
  predicate ContainsIgnoreCase(hay: string, needle: string) {
    Contains(ToLower(hay), ToLower(needle))
  }

  // ----- String.prototype.split with a one-character separator -----

  /** `parts.join(sep)`. */
  function Join(parts: seq<string>, sep: char): string {
    if |parts| == 0 then ""
    else if |parts| == 1 then parts[0]
    else parts[0] + [sep] + Join(parts[1..], sep)
  }

  /** `s.split(sep)`: the maximal separator-free pieces, which join back to `s`. */
  function Split(s: string, sep: char): (parts: seq<string>)
    ensures |parts| >= 1
    ensures forall i :: 0 <= i < |parts| ==> sep !in parts[i]
    ensures Join(parts, sep) == s
  {
    if |s| == 0 then [""]
    else
      var rest := Split(s[1..], sep);
      if s[0] == sep then
        assert ([""] + rest)[1..] == rest;
        [""] + rest
      else
        var parts := [[s[0]] + rest[0]] + rest[1..];
        assert parts[1..] == rest[1..];
        if |rest| == 1 then parts
        else
          assert Join(rest, sep) == rest[0] + [sep] + Join(rest[1..], sep);
          assert [s[0]] + s[1..] == s;
          parts
  }

  // ----- decimal numerals (String(n) and Number(s) on integers) -----

  predicate IsDigit(c: char) { '0' <= c <= '9' }

  predicate AllDigits(s: string) {
    forall i :: 0 <= i < |s| ==> IsDigit(s[i])
  }

  function DigitChar(d: nat): (c: char)
    requires d < 10
    ensures IsDigit(c)
  {
    ('0' as int + d) as char
  }

  /** The numeral of `n` without leading zeros. */
  function NatToString(n: nat): (s: string)
    ensures |s| > 0 && AllDigits(s)
  {
    if n < 10 then [DigitChar(n)] else NatToString(n / 10) + [DigitChar(n % 10)]
  }

  /** `String(n)` for an integer `n` of ordinary magnitude. */
  function IntToString(n: int): (s: string)
    ensures |s| > 0
    ensures forall i :: 0 <= i < |s| ==> IsDigit(s[i]) || s[i] == '-'
  {
    if n < 0 then "-" + NatToString(-n) else NatToString(n)
  }

  /** The value of a decimal numeral. */
  function DigitsValue(s: string): nat
    requires AllDigits(s)
  {
    if |s| == 0 then 0 else DigitsValue(s[..|s| - 1]) * 10 + (s[|s| - 1] as int - '0' as int)
  }

  /** An optionally signed decimal integer literal, or None. */
  function ParseInteger(s: string): Option<int> {
    if |s| > 1 && (s[0] == '-' || s[0] == '+') && AllDigits(s[1..]) then
      var v: int := DigitsValue(s[1..]);
      Some(if s[0] == '-' then -v else v)
    else if |s| > 0 && AllDigits(s) then Some(DigitsValue(s))
    else None
  }

  lemma {:induction false} NatToStringValue(n: nat)
    ensures DigitsValue(NatToString(n)) == n
  {
    if n >= 10 {
      var s := NatToString(n);
      NatToStringValue(n / 10);
      assert s[..|s| - 1] == NatToString(n / 10);
    }
  }

  /** Reading back the numeral of an integer gives the integer. */
  lemma ParseIntToString(n: int)
    ensures ParseInteger(IntToString(n)) == Some(n)
  {
    if n < 0 {
      var s := IntToString(n);
      assert s[1..] == NatToString(-n);
      NatToStringValue(-n);
    } else {
      NatToStringValue(n);
    }
  }
}

=== FILE: ui_slice.dfy ===
/** The UI-filter slice of the Redux store (src/features/ui/uiSlice.ts):
    the search text and the selected category ids. The ids are typed as
    strings, but nothing checks that at run time: the home page stores
    strings and the categories page whatever a fetched category's `id`
    is, a number as served. The selection therefore holds JavaScript
    values, compared as `includes` and `!==` compare them. */
module UiSlice {
  import opened Seqs
  import opened Json

  datatype UiState = UiState(search: string, categoryIds: seq<Value>)

  const Initial: UiState := UiState("", [])

  predicate Distinct(ids: seq<Value>) {
    forall i, j :: 0 <= i < j < |ids| ==> ids[i] != ids[j]
  }

  /** `setSearch`: only the search text changes. */
  function SetSearch(s: UiState, q: string): (r: UiState)
    ensures r.search == q && r.categoryIds == s.categoryIds
  {
    s.(search := q)
  }

  /** `setCategories`: only the selection changes, to exactly `ids`. */
  function SetCategories(s: UiState, ids: seq<Value>): (r: UiState)
    ensures r.categoryIds == ids && r.search == s.search
  {
    s.(categoryIds := ids)
  }

  /** `toggleCategory`: removes every copy of `id` if it is selected,
      otherwise appends it. */
  function ToggleCategory(s: UiState, id: Value): (r: UiState)
    ensures r.search == s.search
    ensures id in r.categoryIds <==> id !in s.categoryIds
    ensures forall x :: x != id ==> (x in r.categoryIds <==> x in s.categoryIds)
  {
    if id in s.categoryIds then
      s.(categoryIds := Filter(s.categoryIds, (x: Value) => x != id))
    else
      s.(categoryIds := s.categoryIds + [id])
  }

  /** The ids other than `id` keep their relative order. */
  lemma ToggleKeepsOthersInOrder(s: UiState, id: Value)
    ensures Filter(ToggleCategory(s, id).categoryIds, (x: Value) => x != id)
         == Filter(s.categoryIds, (x: Value) => x != id)
  {
    var ne := (x: Value) => x != id;
    if id in s.categoryIds {
      var f := Filter(s.categoryIds, ne);
      FilterAll(f, ne);
    } else {
      FilterSnoc(s.categoryIds, id, ne);
    }
  }

  /** Toggling never creates duplicates. */
  lemma ToggleKeepsDistinct(s: UiState, id: Value)
    requires Distinct(s.categoryIds)
    ensures Distinct(ToggleCategory(s, id).categoryIds)
  {
    if id in s.categoryIds {
      var ne := (x: Value) => x != id;
      FilterIsSubseq(s.categoryIds, ne);
      SubseqDistinct(Filter(s.categoryIds, ne), s.categoryIds);
    }
  }

  lemma {:induction false} SubseqDistinct(a: seq<Value>, b: seq<Value>)
    requires IsSubseq(a, b) && Distinct(b)
    ensures Distinct(a)
    decreases |b|
  {
    if |a| > 0 {
      if a[0] == b[0] && IsSubseq(a[1..], b[1..]) {
        SubseqDistinct(a[1..], b[1..]);
        SubseqMembers(a[1..], b[1..]);
        forall i, j | 0 <= i < j < |a|
          ensures a[i] != a[j]
        {
          assert a[j] == a[1..][j - 1];
          if i > 0 {
            assert a[i] == a[1..][i - 1];
          } else {
            var k :| 0 <= k < |b[1..]| && b[1..][k] == a[j];
            assert b[k + 1] == a[j];
          }
        }
      } else {
        SubseqDistinct(a, b[1..]);
      }
    }
  }

  /** Toggling an unselected id twice restores the selection exactly. */
  lemma ToggleTwiceAbsent(s: UiState, id: Value)
    requires id !in s.categoryIds
    ensures ToggleCategory(ToggleCategory(s, id), id) == s
  {
    var ne := (x: Value) => x != id;
    FilterSnoc(s.categoryIds, id, ne);
    FilterAll(s.categoryIds, ne);
  }

  /** As a set of selected ids, any double toggle is the identity. */
  lemma ToggleTwiceSet(s: UiState, id: Value, x: Value)
    ensures x in ToggleCategory(ToggleCategory(s, id), id).categoryIds <==> x in s.categoryIds
  {
  }
}

=== FILE: uploads_service.dfy ===
/** `uploadCoverImage` (src/services/uploads.ts): the uploaded file's URL is
    looked up under five alternative keys of the response. */
module UploadsService {
  import opened Wrappers
  import opened Json

  const URL_KEYS: seq<string> := ["url", "secureUrl", "secure_url", "fileUrl", "file_url"]
  const MISSING_URL := "Upload response missing file URL"

  /** `data?.data ?? data ?? {}`. */
  function UploadPayload(data: Value): (r: Value)
    ensures !IsNullish(Prop(data, "data")) ==> r == Prop(data, "data")
    ensures IsNullish(Prop(data, "data")) && !IsNullish(data) ==> r == data
    ensures IsNullish(Prop(data, "data")) && IsNullish(data) ==> r == Some(JObj(map[]))
  {
    Coalesce(Coalesce(Prop(data, "data"), data), Some(JObj(map[])))
  }

  /** A non-empty string. */
  predicate IsUrl(v: Value) {
    v.Some? && v.value.JStr? && v.value.s != ""
  }

  /** The first key, in `keys` order, holding a non-empty string. */
  function FindUrl(payload: Value, keys: seq<string>): (r: Option<string>)
    ensures r.None? <==> forall i :: 0 <= i < |keys| ==> !IsUrl(Prop(payload, keys[i]))
    ensures r.Some? ==> r.value != ""
    ensures r.Some? ==>
      exists i :: 0 <= i < |keys| && Prop(payload, keys[i]) == Some(JStr(r.value)) &&
        forall j :: 0 <= j < i ==> !IsUrl(Prop(payload, keys[j]))
  {
    if |keys| == 0 then None
    else if IsUrl(Prop(payload, keys[0])) then Some(Prop(payload, keys[0]).value.s)
    else
      var r := FindUrl(payload, keys[1..]);
      assert forall i :: 1 <= i < |keys| ==> keys[i] == keys[1..][i - 1];
      if r.Some? then
        var i :| 0 <= i < |keys[1..]| && Prop(payload, keys[1..][i]) == Some(JStr(r.value)) &&
          forall j :: 0 <= j < i ==> !IsUrl(Prop(payload, keys[1..][j]));
        assert Prop(payload, keys[i + 1]) == Some(JStr(r.value));
        r
      else r
  }

  /** The uploaded file's URL, or the error thrown when none is found. */
  function UploadCoverImage(data: Value): (r: Result<string, Json>)
    ensures r.Ok? ==> r.value != ""
    ensures r.Ok? <==> exists i :: 0 <= i < |URL_KEYS| && IsUrl(Prop(UploadPayload(data), URL_KEYS[i]))
    ensures r.Err? ==> r.error == JsError(MISSING_URL)
    ensures r.Ok? ==> r == Ok(FindUrl(UploadPayload(data), URL_KEYS).value)
  {
    match FindUrl(UploadPayload(data), URL_KEYS)
    case Some(u) => Ok(u)
    case None => Err(JsError(MISSING_URL))
  }

  /** `url` is preferred over the alternatives when both are present. */
  lemma UrlKeyPreferred(u: string, other: string)
    requires u != ""
    ensures UploadCoverImage(Some(JObj(map["url" := JStr(u), "secure_url" := JStr(other)]))) == Ok(u)
  {
    var p := Some(JObj(map["url" := JStr(u), "secure_url" := JStr(other)]));
    assert UploadPayload(p) == p;
    assert IsUrl(Prop(p, URL_KEYS[0]));
  }
}

=== FILE: users_service.dfy ===
/** The auth and profile calls of src/services/users.ts: the server's login
    or register answer is unwrapped into a token and a user, whatever
    envelope it came in, and a profile update is reduced to the fields that
    have the expected types. */
module UsersService {
  import opened Wrappers
  import opened Json

  /** `isRole`: the two roles the client knows. */
  predicate IsRole(v: Value) {
    v == Some(JStr("USER")) || v == Some(JStr("ADMIN"))
  }

  /** The user substituted when the answer carries none. */
  const EMPTY_USER: Json :=
    JObj(map["id" := JStr(""), "name" := JStr(""), "email" := JStr(""), "role" := JStr("USER")])

  datatype AuthResponse = AuthResponse(token: string, user: Json)

  /** The object the token and user are read from: `raw.data` when that is
      an object, else `raw` when that is one, else `{}`. */
  function AuthInner(raw: Value): (r: Value)
    ensures IsObject(r)
    ensures HasKey(raw, "data") && IsObject(Prop(raw, "data")) ==> r == Prop(raw, "data")
    ensures !(HasKey(raw, "data") && IsObject(Prop(raw, "data"))) && IsObject(raw) ==> r == raw
    ensures !IsObject(raw) ==> r == Some(JObj(map[]))
  {
    if HasKey(raw, "data") && IsObject(Prop(raw, "data")) then Prop(raw, "data")
    else if IsObject(raw) then raw
    else Some(JObj(map[]))
  }

  /** `unwrapAuthResponse`. */
  function UnwrapAuthResponse(raw: Value): (r: AuthResponse)
    ensures var inner := AuthInner(raw);
      var t := Prop(inner, "token");
      !IsNullish(t) ==> r.token == (if t.value.JStr? then t.value.s else "")
    ensures var inner := AuthInner(raw);
      var t := Prop(inner, "token");
      var a := Prop(inner, "accessToken");
      IsNullish(t) && !IsNullish(a) ==> r.token == (if a.value.JStr? then a.value.s else "")
    ensures var inner := AuthInner(raw);
      var j := Prop(inner, "jwt");
      IsNullish(Prop(inner, "token")) && IsNullish(Prop(inner, "accessToken")) ==>
        r.token == (if IsString(j) then j.value.s else "")
    ensures var inner := AuthInner(raw);
      var u := Prop(inner, "user");
      !IsNullish(u) ==> r.user == (if IsObject(u) then u.value else EMPTY_USER)
    ensures var inner := AuthInner(raw);
      var p := Prop(inner, "profile");
      IsNullish(Prop(inner, "user")) ==> r.user == (if IsObject(p) then p.value else EMPTY_USER)
    ensures IsObject(Some(r.user))
  {
    var inner := AuthInner(raw);
    var tokenCandidate := Coalesce(Coalesce(Prop(inner, "token"), Prop(inner, "accessToken")), Prop(inner, "jwt"));
    var token := if IsString(tokenCandidate) then tokenCandidate.value.s else "";
    var userCandidate := Coalesce(Prop(inner, "user"), Prop(inner, "profile"));
    var user := if IsObject(userCandidate) then userCandidate.value else EMPTY_USER;
    AuthResponse(token, user)
  }

  /** Whether the answer is wrapped in `{data: …}` or not, a string token
      and an object user come back exactly. */
  lemma UnwrapRoundTrip(token: string, user: map<string, Json>)
    ensures var body := JObj(map["token" := JStr(token), "user" := JObj(user)]);
      UnwrapAuthResponse(Some(body)) == AuthResponse(token, JObj(user)) &&
      UnwrapAuthResponse(Some(JObj(map["success" := JBool(true), "data" := body]))) == AuthResponse(token, JObj(user))
  {
  }

  /** A `token` that is present but not a string hides a string
      `accessToken`: `??` stops at the first non-nullish value. */
  lemma TokenNoFallThrough(n: int, access: string)
    ensures UnwrapAuthResponse(Some(JObj(map["token" := JNum(n), "accessToken" := JStr(access)]))).token == ""
  {
  }

  /** The result of `updateProfile`: the fields to merge into the stored
      user, and the message to show. */
  datatype ProfileUpdate = ProfileUpdate(changes: map<string, Json>, message: string)

  const DEFAULT_PROFILE_MESSAGE := "Profile updated"

  /** `data.data.profile` when both levels are objects. */
  function ProfileOf(data: Value): (r: Value)
    ensures r.Some? ==> IsObject(r) && r == Prop(Prop(data, "data"), "profile")
    ensures r.None? ==> !IsObject(Prop(data, "data")) || !IsObject(Prop(Prop(data, "data"), "profile"))
  {
    var d := Prop(data, "data");
    if IsObject(d) && IsObject(Prop(d, "profile")) then Prop(d, "profile") else None
  }

  const PROFILE_FIELDS := {"id", "name", "email", "phone", "role"}

  /** What `updateProfile` takes over for one field of the profile `p`:
      nothing unless the value has the type that field expects. */
  function FieldChange(p: Value, key: string): Option<Json> {
    var v := Prop(p, key);
    if key == "id" then (if IsNumber(v) || IsString(v) then Some(JStr(ToStr(v))) else None)
    else if key == "phone" then (if v == Some(JNull) || IsString(v) then v else None)
    else if key == "role" then (if IsRole(v) then v else None)
    else if key == "name" || key == "email" then (if IsString(v) then v else None)
    else None
  }

  /** `updateProfile` applied to the response body `data`. */
  function UpdateProfile(data: Value): (r: ProfileUpdate)
    ensures ProfileOf(data).None? ==> r.changes == map[]
    ensures r.changes.Keys <= PROFILE_FIELDS
    ensures var id := Prop(ProfileOf(data), "id");
      ("id" in r.changes <==> IsNumber(id) || IsString(id)) &&
      ("id" in r.changes ==> r.changes["id"] == JStr(ToStr(id)))
    ensures var name := Prop(ProfileOf(data), "name");
      ("name" in r.changes <==> IsString(name)) && ("name" in r.changes ==> r.changes["name"] == name.value)
    ensures var email := Prop(ProfileOf(data), "email");
      ("email" in r.changes <==> IsString(email)) && ("email" in r.changes ==> r.changes["email"] == email.value)
    ensures var phone := Prop(ProfileOf(data), "phone");
      ("phone" in r.changes <==> phone == Some(JNull) || IsString(phone)) &&
      ("phone" in r.changes ==> r.changes["phone"] == phone.value)
    ensures var role := Prop(ProfileOf(data), "role");
      ("role" in r.changes <==> IsRole(role)) && ("role" in r.changes ==> r.changes["role"] == role.value)
    ensures IsString(Prop(data, "message")) ==> r.message == Prop(data, "message").value.s
    ensures !IsString(Prop(data, "message")) ==> r.message == DEFAULT_PROFILE_MESSAGE
  {
    var p := ProfileOf(data);
    var changes := map k | k in PROFILE_FIELDS && FieldChange(p, k).Some? :: FieldChange(p, k).value;
    var msg := Prop(data, "message");
    ProfileUpdate(changes, if IsString(msg) then msg.value.s else DEFAULT_PROFILE_MESSAGE)
  }

  /** A profile echoed with the expected types is copied field by field,
      with a numeric id turned into its numeral. */
  lemma UpdateProfileCopiesWellTyped(n: int, name: string, email: string, role: string)
    requires role == "USER" || role == "ADMIN"
    ensures var profile := JObj(map["id" := JNum(n), "name" := JStr(name), "email" := JStr(email),
                                    "phone" := JNull, "role" := JStr(role)]);
      UpdateProfile(Some(JObj(map["data" := JObj(map["profile" := profile])]))).changes ==
        map["id" := JStr(Text.IntToString(n)), "name" := JStr(name), "email" := JStr(email),
            "phone" := JNull, "role" := JStr(role)]
  {
    var profile := JObj(map["id" := JNum(n), "name" := JStr(name), "email" := JStr(email),
                            "phone" := JNull, "role" := JStr(role)]);
    var data := Some(JObj(map["data" := JObj(map["profile" := profile])]));
    assert ProfileOf(data) == Some(profile);
    CopiesEachField(data, n, name, email, role);
  }

  lemma CopiesEachField(data: Value, n: int, name: string, email: string, role: string)
    requires role == "USER" || role == "ADMIN"
    requires var p := ProfileOf(data);
      Prop(p, "id") == Some(JNum(n)) && Prop(p, "name") == Some(JStr(name)) && Prop(p, "email") == Some(JStr(email)) &&
      Prop(p, "phone") == Some(JNull) && Prop(p, "role") == Some(JStr(role))
    ensures UpdateProfile(data).changes ==
      map["id" := JStr(Text.IntToString(n)), "name" := JStr(name), "email" := JStr(email),
          "phone" := JNull, "role" := JStr(role)]
  {
  }
}

=== FILE: wrappers.dfy ===
/** Failure-compatible wrappers shared by every module: `Option` stands for a
    value that may be absent (JavaScript `undefined`/`null` at typed sites) and
    `Result` for a call that either returns a value or throws. */
module Wrappers {

  datatype Option<+T> = None | Some(value: T) {

    /** The wrapped value, or `default` when absent (`x ?? default` at a typed site). */
    function GetOr(default: T): T {
      match this
      case Some(v) => v
      case None => default
    }
  }

  /** `Ok` carries the returned value; `Err` the thrown value. */
  datatype Result<+T, +E> = Ok(value: T) | Err(error: E) {

    predicate IsFailure() {
      Err?
    }

    function PropagateFailure<U>(): Result<U, E>
      requires Err?
    {
      Err(error)
    }

    function Extract(): T
      requires Ok?
    {
      value
    }
  }
}
